=== FILE: README.md ===
# Tutor ICT: verified model of the study logic and the offline worker

Tutor ICT is a progressive web app for studying the Spanish regulation on
common telecommunication infrastructures (ICT). This project is a Dafny
model of its behavioural core, with proofs about that model:

- **Adaptive learning** (`src/utils/adaptiveLearning.js`). A learner profile
  that is updated after each answering session:
  - the session analysis by topic, difficulty and speed;
  - the level;
  - the weak and strong topics;
  - per-chapter mastery;
  - the study streak.

  It also produces prioritised recommendations, a day-by-day study plan and
  summary statistics.
- **Service worker** (`public/sw.js`). Named cache stores and the handlers
  that act on them:
  - install pre-caches the static assets;
  - activate sweeps old caches;
  - fetch serves cache-first for static paths and network-first for other
    GET requests;
  - the message handler covers skip-waiting, version, caching URLs and
    clearing the caches;
  - background sync drains a queue.
- **Mock exam** (`src/pages/Simulacro.jsx`). The setup, draw, countdown,
  pause/resume, answering, navigation and results of a timed exam.
- **Practice quiz** (`src/pages/Preguntas.jsx`). One question at a time
  with a three-minute countdown, an explanation, an answer log and a score.
- **Glossary** (`src/pages/Glosario.jsx`). Search, category counts, letter
  sections and the alphabet bar.
- **Article page** (`src/pages/ArticleView.jsx`). Paragraph splitting and
  classification.
- **Syllabus** (`src/pages/Temario.jsx`). Search, article lookup and reading
  progress.

## Project layout

- Shared helpers:
  - `common.dfy`: rounding, text helpers and sequence helpers.
  - `time_format.dfy`: numerals and the clock texts.
  - `questions.dfy`: the exam questions and their filters.
- Adaptive learning:
  - `profile.dfy`: the specification functions.
  - `recommendations.dfy` and `study_plan.dfy`.
  - `adaptive_learning.dfy`: the `AdaptiveLearningSystem` class, whose
    methods are proved against those functions.
- Service worker:
  - `cache_store.dfy`: the Cache Storage as a class.
  - `sw_routing.dfy`: the routing predicates.
  - `service_worker.dfy`: the event handlers.
- Pages:
  - `mock_exam.dfy` and `practice_quiz.dfy`: state classes with one method
    per handler.
  - `glossary.dfy`, `article_view.dfy` and `syllabus.dfy`: pure functions.

Inputs that the source reads from the environment become parameters:

- the current time (as milliseconds and as a calendar day number);
- the stored profile;
- the shuffled order of the questions;
- the outcome of each network fetch;
- the success of each pending sync item;
- the worker's origin.

## Model

| member | source | states |
|---|---|---|
| Common.RoundDiv | src/utils/adaptiveLearning.js:179-180 | `Math.round(num/den)` with halves rounded up: the result is the integer within half a unit of the quotient |
| Common.RoundPercent | src/utils/adaptiveLearning.js:179-180 | `Math.round(num/den*100)`: 2·den·r ≤ 200·num + den < 2·den·(r+1) |
| Common.RoundPercentAtMost100 | src/utils/adaptiveLearning.js:178-180 | a share of at most the whole rounds to at most 100 |
| Common.RoundPercentEnds | src/utils/adaptiveLearning.js:178-180 | a full share is exactly 100 and none is exactly 0 |
| Common.CeilDiv | src/utils/adaptiveLearning.js:259-261 | `Math.ceil(a/b)` for positive b: the least r with a ≤ b·r |
| Common.DaysUntil | src/utils/adaptiveLearning.js:259-261 | days until a date, rounded up: the date lies in the d-th day counted from now |
| Common.Toggle | src/pages/Glosario.jsx:137 | clicking a card (a glossary term, or a syllabus chapter at Temario.jsx:137) closes it if open, otherwise opens it |
| Common.Lower | src/pages/Glosario.jsx:25-27 | `toLowerCase` keeps the length and maps each character |
| Common.Upper | src/pages/Glosario.jsx:53 | `toUpperCase` keeps the length and maps each character |
| Common.EmptyIsContained | src/pages/Glosario.jsx:25-27 | the empty search is found in every text |
| Common.LastN | src/utils/adaptiveLearning.js:157-158 | `slice(-n)` keeps the last min(n, length) elements in order |
| Common.Without | src/utils/adaptiveLearning.js:143 | `filter(t => t !== v)` removes every v and keeps every other element |
| Common.WithoutAppend | src/utils/adaptiveLearning.js:143-158 | the filter of a concatenation is the concatenation of the filters, so the kept topics keep their order and multiplicity, which decides the five that `slice(-5)` keeps |
| Common.WithoutAbsent | src/utils/adaptiveLearning.js:143 | removing a topic that is not in the list leaves the list unchanged |
| Common.WithoutKeepsNoDuplicates | src/utils/adaptiveLearning.js:143-144 | removing a topic keeps a duplicate-free list duplicate-free |
| Common.LastNKeepsNoDuplicates | src/utils/adaptiveLearning.js:157-158 | trimming to the last five keeps a list duplicate-free |
| Profile.CountCorrect | src/utils/adaptiveLearning.js:56-61 | correct answers are at most the answers |
| Profile.TopicTally | src/utils/adaptiveLearning.js:64-72 | a topic's correct count is at most its total, which is at most the session |
| Profile.DifficultyTally | src/utils/adaptiveLearning.js:74-79 | a difficulty's correct count is at most its total |
| Profile.SpeedCount | src/utils/adaptiveLearning.js:81-88 | a speed bucket holds at most the session |
| Profile.Topics | src/utils/adaptiveLearning.js:64-68 | topics in order of first appearance, without duplicates, exactly those with an answer |
| Profile.TopicMap | src/utils/adaptiveLearning.js:64-72 | `topicPerformance` has exactly the session's topics as keys |
| Profile.TopicTallyAppend | src/utils/adaptiveLearning.js:64-72 | one more answer adds one to its topic's total, and one to its correct count when correct |
| Profile.SumTopicTalliesStep | src/utils/adaptiveLearning.js:64-72 | one more answer adds one to the sum over the listed topics iff its topic is listed |
| Profile.TopicTalliesAddUp | src/utils/adaptiveLearning.js:64-72 | per-topic totals and correct counts add up to the session's |
| Profile.DifficultyTallyAppend | src/utils/adaptiveLearning.js:74-79 | one more answer counts under its own difficulty only |
| Profile.DifficultyTalliesAddUp | src/utils/adaptiveLearning.js:74-79 | with every difficulty known, the three tallies cover the session |
| Profile.SessionAppend | src/utils/adaptiveLearning.js:56-89 | one more answer: the correct count grows by its correctness, its topic is appended if new, its speed bucket grows by one |
| Profile.TopicMapAppend | src/utils/adaptiveLearning.js:64-72 | one more answer changes only its own topic's tally |
| Profile.AnalysisAppend | src/utils/adaptiveLearning.js:56-89 | the analysis of a longer session is one loop step applied to the shorter one's |
| Profile.AnalysisAppendTopics | src/utils/adaptiveLearning.js:64-72 | the topic order and tallies after one more answer are the loop's create-then-increment step |
| Profile.SpeedCountsAddUp | src/utils/adaptiveLearning.js:81-88 | every answer is fast, normal or slow exactly once |
| Profile.MissingFieldsDefaults | src/utils/adaptiveLearning.js:64-81 | a missing chapter is `unknown`, a missing difficulty `medium`, a missing time counts as 60 s (normal) |
| Profile.AnalysisOf | src/utils/adaptiveLearning.js:38-92 | the record `analyzePerformance` builds for a session of known difficulties: the total is the session length and correct + incorrect make it up; the breakdowns are stated by `AnalysisConsistent` and the loop by `AnalysisAppend` |
| Profile.AnalysisConsistent | src/utils/adaptiveLearning.js:38-92 | correct + incorrect = total = session length; topic, difficulty and speed tallies all add up to it |
| Profile.LevelFor | src/utils/adaptiveLearning.js:120-133 | the level chosen by the lifetime count and the session accuracy: an empty session gives beginner, advanced needs 100 answers, any level above beginner 50 answers and a non-empty session; the exact thresholds are `LevelThresholds` and the order `LevelMonotone` |
| Profile.LevelThresholds | src/utils/adaptiveLearning.js:120-133 | advanced iff ≥100 answers and ≥85%; intermediate iff not advanced and ≥50 and ≥70%; an empty session gives beginner |
| Profile.LevelMonotone | src/utils/adaptiveLearning.js:120-133 | more answers or a better session never lower the level |
| Profile.StrengthStepProperties | src/utils/adaptiveLearning.js:137-154 | a strong topic moves to the end of the strong list, the other entries stay in their order (a new topic is just appended), the weak list is untouched and the topic leaves the weak set; likewise for weak; others change nothing; lists stay duplicate-free and the sets disjoint |
| Profile.StrengthsFoldInvariant | src/utils/adaptiveLearning.js:137-154 | the loop keeps both lists duplicate-free and the two sets disjoint |
| Profile.StrengthsFoldClassifies | src/utils/adaptiveLearning.js:137-154 | after the loop a strong session topic is strong and not weak, a weak one the reverse, any other keeps its membership |
| Profile.StrengthsAfter | src/utils/adaptiveLearning.js:136-159 | the loop over the session topics followed by `slice(-5)`: each list keeps exactly min(5, n) of the n topics the loop leaves; what the loop does is `StrengthStepProperties`, `StrengthsFoldInvariant` and `StrengthsFoldClassifies` |
| Profile.StrengthsAfterBounded | src/utils/adaptiveLearning.js:136-159 | after the update both lists hold at most five topics, duplicate-free, with disjoint sets |
| Profile.PersistedListsCanOverlap | src/utils/adaptiveLearning.js:141-152 | a topic turning strong stays in the persisted weak list: the two lists can share a topic |
| Profile.StrongWhileListedWeak | src/utils/adaptiveLearning.js:141-152 | for any topic found strong by a one-topic session while it is in the persisted weak list, it ends in both persisted lists and outside `weakAreas` |
| Profile.ProgressFold | src/utils/adaptiveLearning.js:162-182 | the `forEach` of `updateChapterProgress` over the session topics: no entry is dropped and at most one is added per topic; the per-entry counts are `ProgressFoldCounts` and the mastery invariant `ProgressFoldConsistent` |
| Profile.ProgressFoldCounts | src/utils/adaptiveLearning.js:162-182 | each session topic's entry grows by its tally, is stamped now and gets mastery round(100·correct/answered) in [0,100]; other entries are untouched |
| Profile.ProgressFoldConsistent | src/utils/adaptiveLearning.js:162-182 | every stored entry keeps correct ≤ answered and a mastery matching its counts |
| Profile.StreakAfter | src/utils/adaptiveLearning.js:185-206 | the case table of the update (same day keeps, next day adds one, otherwise 1), so a day never adds more than one |
| Profile.StreakFrozenInsideUpdate | src/utils/adaptiveLearning.js:102-114 | since `lastActivity` is stamped before the streak update, the streak never moves inside `updateProfile` |
| Profile.StreakExamples | src/utils/adaptiveLearning.js:190-205 | activity on consecutive days extends the streak; a three-day gap resets it |
| AdaptiveLearning.AdaptiveLearningSystem.constructor | src/utils/adaptiveLearning.js:3-30 | the stored profile if any, else the default record; both topic sets empty |
| AdaptiveLearning.AdaptiveLearningSystem.AnalyzePerformance | src/utils/adaptiveLearning.js:38-92 | succeeds iff every difficulty is easy/medium/hard and then equals the specification; otherwise names the first unknown difficulty |
| AdaptiveLearning.AdaptiveLearningSystem.UpdateUserLevel | src/utils/adaptiveLearning.js:120-133 | sets only the level, from the lifetime count and the session accuracy |
| AdaptiveLearning.AdaptiveLearningSystem.UpdateTopicStrengths | src/utils/adaptiveLearning.js:136-159 | lists and sets become the specified fold plus trim; a valid profile keeps at most five topics per list |
| AdaptiveLearning.AdaptiveLearningSystem.UpdateChapterProgress | src/utils/adaptiveLearning.js:162-182 | chapter progress becomes the specified fold; validity is kept |
| AdaptiveLearning.AdaptiveLearningSystem.UpdateStudyStreak | src/utils/adaptiveLearning.js:185-206 | sets only the streak, as `StreakAfter` |
| AdaptiveLearning.AdaptiveLearningSystem.UpdateProfile | src/utils/adaptiveLearning.js:95-117 | on a well-formed session: counters grow by the session, activity is stamped, level, strengths and progress follow the session, the streak stays; otherwise nothing changes |
| AdaptiveLearning.AdaptiveLearningSystem.GenerateStudyPlan | src/utils/adaptiveLearning.js:282-327 | the plan has the specified length and focus areas, one goal per day cycling the areas, and ⌈days/7⌉ numbered milestones |
| AdaptiveLearning.AdaptiveLearningSystem.Stats | src/utils/adaptiveLearning.js:370-384 | accuracy is round(100·correct/answered) (0 before any answer, ≤100); study time rounded to tenths of an hour; level, answer count, streak, both topic lists and the chapter progress passed through unchanged |
| AdaptiveLearning.RoundPercentAtMost100Guarded | src/utils/adaptiveLearning.js:371-372 | with at least one answer, an accuracy over no more correct answers than answers is at most 100 |
| AdaptiveLearning.AdaptiveLearningSystem.SetStudyGoal | src/utils/adaptiveLearning.js:387-393 | sets the goal; the exam date only when given |
| AdaptiveLearning.AdaptiveLearningSystem.ResetProgress | src/utils/adaptiveLearning.js:396-411 | the default record; the in-memory topic sets stay |
| Recommendations.Routine | src/utils/adaptiveLearning.js:212-255 | at most three routine items in strictly increasing priority rank |
| Recommendations.WeakItems | src/utils/adaptiveLearning.js:213-222 | at most one item, of priority high |
| Recommendations.LevelItems | src/utils/adaptiveLearning.js:225-243 | at most one item, of priority medium |
| Recommendations.StudyTimeItems | src/utils/adaptiveLearning.js:246-255 | at most one item, of priority low |
| Recommendations.Insert | src/utils/adaptiveLearning.js:275-278 | inserting lengthens the list by one, and the new head is the item or the old head |
| Recommendations.InsertPermutes | src/utils/adaptiveLearning.js:275-278 | inserting adds exactly the one item |
| Recommendations.InsertKeepsSorted | src/utils/adaptiveLearning.js:275-278 | inserting into a list in priority order keeps it in priority order |
| Recommendations.SortByPriority | src/utils/adaptiveLearning.js:275-278 | the sorted list has the same length and is ordered by priority |
| Recommendations.SortIsPermutation | src/utils/adaptiveLearning.js:275-278 | the sort only reorders: every item occurs as often as before |
| Recommendations.SortKeepsSorted | src/utils/adaptiveLearning.js:275-278 | a list already in priority order is left unchanged (stability) |
| Recommendations.SortMovesMostUrgentFirst | src/utils/adaptiveLearning.js:263-278 | an appended item more urgent than all others moves to the front, the rest keep their order |
| Recommendations.RecommendationsFor | src/utils/adaptiveLearning.js:209-279 | `generateRecommendations`: the pushed items, reordered into priority order and otherwise kept as often as pushed; the resulting list is `RecommendationsShape`, `RecommendationsOrdered` and `RecommendedIffPushed` |
| Recommendations.RecommendationsShape | src/utils/adaptiveLearning.js:209-279 | the result is the exam item (if any) followed by the weak-area, level and routine items |
| Recommendations.RecommendationsOrdered | src/utils/adaptiveLearning.js:209-279 | at most four items, in strictly increasing priority rank |
| Recommendations.RecommendationsExam | src/utils/adaptiveLearning.js:258-273 | the exam item is present iff a date is set and at most 7 days away, and then comes first with the days left |
| Recommendations.RecommendedIffPushed | src/utils/adaptiveLearning.js:209-279 | an item is recommended iff one of the four groups pushes it |
| Recommendations.GroupKinds | src/utils/adaptiveLearning.js:213-273 | the exam group pushes only the exam item, the weak group only the weak-area item, the level group only level items, and the routine item comes iff less than 300 minutes were studied |
| Recommendations.RecommendationsWeakAreas | src/utils/adaptiveLearning.js:213-222 | the weak-area item is present iff there are weak topics, and carries the first three |
| Recommendations.RecommendationsLevel | src/utils/adaptiveLearning.js:225-243 | beginners get chapter I, advanced users hard exams, intermediate users no level item |
| Recommendations.RecommendationsStudyTime | src/utils/adaptiveLearning.js:246-255 | the routine item appears iff less than 300 minutes were studied |
| StudyPlans.TotalDays | src/utils/adaptiveLearning.js:283-295 | 30 days without a target, otherwise the larger of 7 and the days until it |
| StudyPlans.FocusAreas | src/utils/adaptiveLearning.js:297-302 | the weak topics if any, otherwise the five default areas; never empty |
| StudyPlans.DailyActivities | src/utils/adaptiveLearning.js:330-356 | study, practice and review, each a third of the day's minutes, together the whole day |
| StudyPlans.PlanProperties | src/utils/adaptiveLearning.js:304-324 | a plan of at least a week has ⌈days/7⌉ milestones, and each day's activities add up to its estimated time |
| CacheStore.MatchIn | public/sw.js:85 | `caches.match` finds a response iff some cache holds the URL, and returns one held by the first such cache in creation order |
| CacheStore.Stored | public/sw.js:31 | after `addAll` the cache's keys are its old keys plus the URLs |
| CacheStore.StoredKeepsEach | public/sw.js:31 | with distinct URLs each URL holds its own fetched response |
| CacheStore.CacheStorage.constructor | public/sw.js:24-28 | the browser's cache storage before the first install: no caches |
| CacheStore.CacheStorage.Open | public/sw.js:28 | `caches.open` creates an empty cache at the end of the order if missing, else changes nothing |
| CacheStore.CacheStorage.Match | public/sw.js:85 | only GET requests match; a GET matches as `MatchIn` |
| CacheStore.CacheStorage.Put | public/sw.js:97 | stores iff the request is GET and the status is not 206; only that entry changes |
| CacheStore.CacheStorage.Delete | public/sw.js:57 | reports whether the cache existed and removes it from the map and the order |
| CacheStore.CacheStorage.AddAll | public/sw.js:31 | all-or-nothing: stores every response iff the URLs are distinct and every fetch is ok and not 206 |
| CacheStore.MatchAfterStore | public/sw.js:95-98 | after a response is stored, a GET for its URL finds a response |
| SwRouting.RouteOf | public/sw.js:70-155 | ignored iff the URL does not start with `http`; cache-first iff a static path, `.js` or `.css`; network-first iff another GET; otherwise passed through |
| SwRouting.StaticAssetsAreCacheFirst | public/sw.js:80 | every static asset requested by a URL starting with `http` is served cache-first |
| SwRouting.IsOutdatedCache | public/sw.js:53-55 | activation deletes only caches of this app (prefix `tutor-ict-`); `SweepsAgree` names the ones it keeps |
| SwRouting.SweepsAgree | public/sw.js:53-55 | activation deletes exactly the app caches other than the current static and dynamic ones, including the legacy `tutor-ict-v1.0.0` |
| SwRouting.ShouldCacheDynamically | public/sw.js:17-21 | the `some` test of line 122 over these patterns: a URL is copied to the dynamic cache iff it starts with one of the two Google Fonts origins or matches the ending pattern as written |
| SwRouting.EndingPatternIsSuffixList | public/sw.js:20 | the pattern `/\.(?:js\|css\|woff2?\|ttf\|eot)$/` accepts a URL iff it ends with one of `.js`, `.css`, `.woff`, `.woff2`, `.ttf`, `.eot` |
| SwRouting.DynamicPatternExamples | public/sw.js:17-21 | three sample URLs classified as the patterns do: a Google Fonts file and an `.eot` file are cached dynamically, a `.json` URL is not |
| ServiceWorker.StaticUrls | public/sw.js:7-14 | one absolute URL per static asset, in order |
| ServiceWorker.StaticUrlsAreDistinct | public/sw.js:7-14 | the static asset URLs are distinct, so `addAll` can succeed |
| ServiceWorker.Install | public/sw.js:24-41 | opens the static cache and adds the assets; `skipWaiting` iff that succeeded; a failure is swallowed |
| ServiceWorker.InstallSucceedsIff | public/sw.js:27-39 | install succeeds iff every asset is fetched ok and not 206, and then each asset URL holds its response |
| ServiceWorker.Kept | public/sw.js:51-59 | the names a sweep keeps are exactly those not condemned, in order |
| ServiceWorker.SweepStep | public/sw.js:51-59 | one step of the sweep over the snapshot deletes the current name iff it is condemned |
| ServiceWorker.SweepCaches | public/sw.js:48-60 | after the sweep exactly the uncondemned caches remain, unchanged, in order |
| ServiceWorker.Activate | public/sw.js:44-67 | activation keeps exactly the caches that are not outdated, unchanged |
| ServiceWorker.CacheFirstServes | public/sw.js:84-108 | the cache-first outcome never rejects, keeps every cache and changes none but the static cache; the cases are stated by `CacheFirstFetch` and `CacheFirstSecondVisitHits` |
| ServiceWorker.NetworkFirstServes | public/sw.js:113-155 | the network-first outcome keeps every cache and changes none but the dynamic cache; the cases are stated by `NetworkFirstFetch`, `OfflineFailureOnlyWhenUncached` and `NetworkFirstStoresDynamic` |
| ServiceWorker.CacheFirstFetch | public/sw.js:84-108 | a hit is served as is; a miss fetches and stores in the static cache; a failed fetch gives `/index.html` to a navigation and nothing otherwise |
| ServiceWorker.NetworkFirstFetch | public/sw.js:113-155 | a fetched response is returned, and a 200 for a dynamic URL is stored; on failure the cached copy, then `/index.html` for a navigation, else a rejection |
| ServiceWorker.HandleFetch | public/sw.js:70-156 | not intercepted iff ignored or passed through (nothing changes then); otherwise the chosen strategy |
| ServiceWorker.CacheFirstSecondVisitHits | public/sw.js:84-101 | after a successful first fetch of an uncached GET asset, the second request is served from the cache |
| ServiceWorker.OfflineFailureOnlyWhenUncached | public/sw.js:136-152 | network-first rejects iff the fetch failed, no cache holds the URL and it is not a navigation |
| ServiceWorker.NetworkFirstStoresDynamic | public/sw.js:115-135 | a 200 for a dynamic URL is returned and is in the caches afterwards |
| ServiceWorker.HandleMessage | public/sw.js:159-215 | skip-waiting iff asked; the version is the cache name; CACHE_URLS adds all or reports an error; CLEAR_CACHE leaves no cache whose name starts with `tutor-ict-` and keeps every other cache, unchanged and in order |
| ServiceWorker.SyncedIds | public/sw.js:238-245 | the removed ids are exactly those of items whose sync succeeded |
| ServiceWorker.WithoutIds | public/sw.js:263-266 | removing by id keeps exactly the items whose id was not removed, in order |
| ServiceWorker.WithoutIdsTwice | public/sw.js:238-245 | removing one more id after a set equals removing the larger set |
| ServiceWorker.SyncOfflineData | public/sw.js:218-250 | for `background-sync` the queue loses exactly the synced ids; other tags leave it |
| ServiceWorker.WithoutIdsNone | public/sw.js:238-245 | with nothing synced the queue is unchanged |
| ServiceWorker.SyncKeepsFailures | public/sw.js:238-245 | an item whose sync failed (and shares no id with a synced one) stays queued; every synced item is gone |
| TimeFormat.Decimal | src/pages/Simulacro.jsx:134-136 | `toString` gives a non-empty string of digits |
| TimeFormat.DecimalRoundTrip | src/pages/Simulacro.jsx:134-136 | a numeral reads back as its number |
| TimeFormat.Pad2 | src/pages/Simulacro.jsx:134 | `padStart(2,'0')` below 100 gives two digits that read back as the number |
| TimeFormat.ClockParts | src/pages/Simulacro.jsx:129-131 | hours·3600 + minutes·60 + seconds = total, with minutes and seconds below 60 |
| TimeFormat.FormatClock | src/pages/Simulacro.jsx:128-137 | the exam clock is digits and colons ending in `:ss`, the two-digit seconds; `ClockRoundTrip` reads it back |
| TimeFormat.FormatMinSec | src/pages/Preguntas.jsx:134-138 | the quiz clock is whole minutes in digits, a colon and the two-digit seconds, with no hour field; `MinSecRoundTrip` reads it back |
| TimeFormat.MinSecReadsBack | src/pages/Preguntas.jsx:134-138 | `m:ss` reads back as m·60 + s |
| TimeFormat.ClockRoundTrip | src/pages/Simulacro.jsx:128-137 | the exam clock text reads back as the seconds shown |
| TimeFormat.MinSecRoundTrip | src/pages/Preguntas.jsx:134-138 | the quiz clock reads back as its seconds, and below an hour equals the exam clock |
| ExamQuestions.Select | src/pages/Preguntas.jsx:20-24 | the filter keeps exactly the questions meeting both criteria, and no more questions than the pool |
| ExamQuestions.SelectAppend | src/pages/Preguntas.jsx:20-24 | filtering a concatenation filters each part and keeps the parts in order, so the kept questions stay in pool order |
| ExamQuestions.SelectOne | src/pages/Preguntas.jsx:20-24 | a single question is kept iff it meets both criteria |
| ExamQuestions.SelectInTwoPasses | src/pages/Simulacro.jsx:27-35 | filtering by difficulty then by chapter equals one combined filter |
| ExamQuestions.SelectAll | src/pages/Preguntas.jsx:20-24 | with no criterion every question is kept, in order |
| ExamQuestions.FoldAccents | src/pages/Simulacro.jsx:31-34 | accent folding keeps the length and maps each character |
| ExamQuestions.ContainsAt | src/pages/Simulacro.jsx:33 | `includes` holds only where the needle actually occurs |
| ExamQuestions.ChapterOptionMissesAccentedLabel | src/pages/Simulacro.jsx:31-34 | the option value `capitulo` is not found in `Capítulo I` |
| ExamQuestions.ChapterOptionFindsFoldedLabel | src/pages/Simulacro.jsx:236 | ignoring accents, `capitulo` is found in `Capítulo I` |
| ExamQuestions.FoldingKeepsMatches | src/pages/Simulacro.jsx:31-34 | a term that matches as written still matches ignoring accents |
| ExamQuestions.FoldedOccurrence | src/pages/Simulacro.jsx:31-34 | an occurrence survives accent folding |
| MockExam.Available | src/pages/Simulacro.jsx:24-35 | the questions `generateExamQuestions` may draw, as written: no more than the pool, and a question is available iff it is in the pool and meets the difficulty and the case-insensitive chapter filter; `AvailableIsOneFilter` shows the order is the pool's |
| MockExam.AvailableIsOneFilter | src/pages/Simulacro.jsx:24-35 | the two filters, skipped on `mixed`/`all`, keep in order exactly the questions of the chosen difficulty whose chapter label contains the chapter term ignoring case (not accents) |
| MockExam.Drawn | src/pages/Simulacro.jsx:39 | the draw takes min(count, available) questions from the shuffled list |
| MockExam.DrawnQuestionsMatch | src/pages/Simulacro.jsx:24-40 | whatever the shuffle, min(questionCount, #matching) questions are drawn, each of the chosen difficulty and with the chapter term in its label ignoring case; with no match the exam is empty |
| MockExam.ChapterOptionDrawsNothing | src/pages/Simulacro.jsx:31-34 | as written, the "Solo Capítulos" option (`capitulo`) draws nothing from a pool of `Capítulo I` questions |
| MockExam.AvailableIntended | src/pages/Simulacro.jsx:24-35 | the draw the chapter options evidently intend (accents ignored): only pool questions of the chosen difficulty, and the same draw as written when the chapter option is `all`; `AvailableIntendedKeepsMore` shows it keeps more |
| MockExam.AvailableIntendedKeepsMore | src/pages/Simulacro.jsx:31-34 | the accent-ignoring draw keeps every question the written one keeps, and with `capitulo` it finds the `Capítulo I` questions |
| MockExam.NextIndexAsWritten | src/pages/Simulacro.jsx:506-507 | "Siguiente" as written: from a question it moves forward by at most one and stays within the exam; on an empty exam it moves to -1 |
| MockExam.NextOnEmptyExamAsWritten | src/pages/Simulacro.jsx:506-507 | on an empty exam the enabled "Siguiente" moves the index to -1 |
| MockExam.NextIndex | src/pages/Simulacro.jsx:506-507 | corrected "Siguiente": the index stays within the exam and agrees with the source whenever it is on a question |
| MockExam.PreviousIndex | src/pages/Simulacro.jsx:499-500 | "Anterior" steps back by one and never goes below 0 |
| MockExam.AnsweredCount | src/pages/Simulacro.jsx:103-105 | answered questions are at most the questions |
| MockExam.CorrectCount | src/pages/Simulacro.jsx:106-108 | correct questions are at most the answered ones |
| MockExam.AnsweringIsMonotone | src/pages/Simulacro.jsx:88-93 | recording an answer never lowers the answered count, and re-answering keeps it |
| MockExam.StatusOf | src/pages/Simulacro.jsx:139-147 | a position is answered iff it is within the exam and its question id has an answer |
| MockExam.AllAnsweredIffCountFull | src/pages/Simulacro.jsx:99-147 | the answered count equals the question count iff every grid position shows answered |
| MockExam.Exam.constructor | src/pages/Simulacro.jsx:11-21 | setup state, index 0, no answers, 3600 s, default configuration |
| MockExam.Exam.Configure | src/pages/Simulacro.jsx:184-233 | the setup selects replace the configuration only |
| MockExam.Exam.StartExam | src/pages/Simulacro.jsx:24-66 | running with the questions drawn, as written, from a shuffle of `Available` (possibly none), a full clock, the start time, index 0 and no answers |
| MockExam.Exam.PauseExam | src/pages/Simulacro.jsx:68-70 | running becomes paused, nothing else changes |
| MockExam.Exam.ResumeExam | src/pages/Simulacro.jsx:72-74 | paused becomes running, nothing else changes |
| MockExam.Exam.FinishExam | src/pages/Simulacro.jsx:76-78 | the exam becomes completed, nothing else changes |
| MockExam.Exam.RestartExam | src/pages/Simulacro.jsx:80-86 | back to setup with index 0, no answers, a full clock and no start time |
| MockExam.Exam.Tick | src/pages/Simulacro.jsx:45-56 | running with time left loses one second; running at zero completes; otherwise nothing changes |
| MockExam.Exam.SelectAnswer | src/pages/Simulacro.jsx:88-93 | records the choice under the question id, nothing else changes |
| MockExam.Exam.NavigateTo | src/pages/Simulacro.jsx:95-97 | sets the index, nothing else changes |
| MockExam.Exam.Previous | src/pages/Simulacro.jsx:499-500 | moves as `PreviousIndex` |
| MockExam.Exam.Next | src/pages/Simulacro.jsx:506-507 | moves as written: on a question it moves as `NextIndex` and stays within the exam; on an empty exam it sets the index to −1 |
| MockExam.Exam.Results | src/pages/Simulacro.jsx:99-126 | counts equal the specification; incorrect + correct = answered; percentages rounded and at most 100; passed iff totalPercentage ≥ 60; time spent within the duration |
| MockExam.FormatTime | src/pages/Simulacro.jsx:128-137 | the exam clock text reads back as the seconds |
| PracticeQuiz.QuizQuestions | src/pages/Preguntas.jsx:20-24 | a question is listed iff it matches difficulty (`all` or equal) and chapter (`all` or contained ignoring case); with both `all`, every question in order |
| PracticeQuiz.CorrectAttempts | src/pages/Preguntas.jsx:141 | correct attempts are at most the attempts |
| PracticeQuiz.CorrectAttemptsAppend | src/pages/Preguntas.jsx:141 | one more attempt adds one iff it was judged correct |
| PracticeQuiz.Results | src/pages/Preguntas.jsx:140-145 | correct counts `isCorrect` entries, total is the log length, the percentage is absent (NaN) iff the log is empty and otherwise ≤ 100 |
| PracticeQuiz.ResultsAfterAttempt | src/pages/Preguntas.jsx:38-68 | each attempt adds one to the total; a time-out or wrong answer never raises the score, a correct one raises it by one |
| PracticeQuiz.FormatTime | src/pages/Preguntas.jsx:134-138 | the quiz clock text reads back as the seconds |
| PracticeQuiz.Quiz.constructor | src/pages/Preguntas.jsx:10-24 | the filtered questions, index 0, nothing selected, empty log, 180 s, timer active, not completed |
| PracticeQuiz.Quiz.Tick | src/pages/Preguntas.jsx:29-47 | a second passes while active with time and no explanation; at zero the question times out, logging one attempt with no selection; with no question the time-out throws and nothing changes |
| PracticeQuiz.Quiz.SelectAnswer | src/pages/Preguntas.jsx:49-52 | selection is ignored while the explanation shows |
| PracticeQuiz.Quiz.ConfirmAnswer | src/pages/Preguntas.jsx:54-68 | a no-op without a selection; otherwise logs exactly one attempt with its verdict and 180 − timeLeft, stops the timer and shows the explanation |
| PracticeQuiz.Quiz.NextQuestion | src/pages/Preguntas.jsx:70-80 | advances with a fresh question state, or at the last question completes in place; the log is kept |
| PracticeQuiz.Quiz.PreviousQuestion | src/pages/Preguntas.jsx:82-90 | steps back with a fresh question state, a no-op at index 0; the log is kept |
| PracticeQuiz.Quiz.ResetTest | src/pages/Preguntas.jsx:92-100 | index 0, nothing selected, empty log, 180 s, timer active, not completed |
| Glossary.Filter | src/pages/Glosario.jsx:24-30 | a term is shown iff the search occurs, ignoring case, in its term, full name or definition, and the category is `all` or its own |
| Glossary.EmptySearchShowsAll | src/pages/Glosario.jsx:24-30 | an empty search with `all` shows every term in order |
| Glossary.CountIn | src/pages/Glosario.jsx:18-21 | a category count is at most the number of terms |
| Glossary.Categories | src/pages/Glosario.jsx:16-22 | five buttons; `all` counts every term; each count equals the terms that button shows with an empty search |
| Glossary.CountMatchesEmptySearch | src/pages/Glosario.jsx:16-30 | a category count equals the number of terms shown when it is selected with an empty search |
| Glossary.CategoryCountsCover | src/pages/Glosario.jsx:18-21 | the four category counts add up to at most the total, and exactly to it when every term has one of those categories |
| Glossary.Bucket | src/pages/Glosario.jsx:52-59 | the terms under a letter are exactly those whose upper-cased initial is that letter |
| Glossary.Group | src/pages/Glosario.jsx:52-59 | `termsByLetter`: no section is empty and there are at most as many sections as terms; `GroupIsBuckets` states which terms each section holds |
| Glossary.GroupIsBuckets | src/pages/Glosario.jsx:52-59 | the `reduce` creates a section iff some term has that initial, holding exactly those terms in order |
| Glossary.LetterEnabledIffSection | src/pages/Glosario.jsx:101-104 | a letter button is enabled iff the list has a section for that letter |
| Glossary.ResultCountText | src/pages/Glosario.jsx:124 | the count line starts with the number and takes the plural endings iff the count is not 1 |
| ArticleView.Split | src/pages/ArticleView.jsx:54 | `split('\n\n')` gives at least one piece, the first a prefix of the text |
| ArticleView.SplitJoin | src/pages/ArticleView.jsx:54 | joining the paragraphs with blank lines gives the text back |
| ArticleView.SplitCutsLeftmost | src/pages/ArticleView.jsx:54 | the cuts are the leftmost ones: no paragraph but the last ends with a line break |
| ArticleView.SplitPiecesUnbroken | src/pages/ArticleView.jsx:54 | no paragraph contains a blank line |
| ArticleView.StripBold | src/pages/ArticleView.jsx:58 | removing `**` leaves no `**` and keeps a leading non-star character |
| ArticleView.StripBoldKeepsText | src/pages/ArticleView.jsx:58 | removing `**` keeps every other character in order |
| ArticleView.LeadingDigits | src/pages/ArticleView.jsx:62 | the leading run of digits is maximal |
| ArticleView.IsNumbered | src/pages/ArticleView.jsx:62 | a numbered paragraph starts with a digit and holds a dot; `NumberedIffPattern` shows the scan is `/^\d+\./` |
| ArticleView.NumberedIffPattern | src/pages/ArticleView.jsx:62 | the greedy scan agrees with `/^\d+\./`: some non-empty digit prefix is followed by a dot |
| ArticleView.Classify | src/pages/ArticleView.jsx:55-73 | heading iff it starts and ends with `**` (text without `**`, other characters kept); numbered iff not a heading and numbered; otherwise plain; non-headings keep their text |
| ArticleView.Render | src/pages/ArticleView.jsx:12-74 | not found iff there is no article; otherwise one block per paragraph, in order |
| ArticleView.NumberedIsNotHeading | src/pages/ArticleView.jsx:55-67 | a paragraph starting with a numbered prefix is shown as a numbered block |
| Syllabus.FindArticle | src/pages/Temario.jsx:20 | `find` returns none iff no article has the id, else the first one that has it |
| Syllabus.Lookup | src/pages/Temario.jsx:16-20 | none iff no chapter holds the id; else the first chapter holding it and an article of it with that id |
| Syllabus.SelectedArticleResolves | src/pages/Temario.jsx:16-29 | opening any article of a chapter shows an article page for that id |
| Syllabus.UnknownArticleNotFound | src/pages/Temario.jsx:16-29 | an id no chapter holds shows the not-found view |
| Syllabus.OpenItem | src/pages/Temario.jsx:174-178 | clicking an item opens it only in a chapter with articles |
| Syllabus.Search | src/pages/Temario.jsx:34-42 | a chapter is listed iff its title, an article title or a section title contains the term ignoring case |
| Syllabus.EmptySearchListsAll | src/pages/Temario.jsx:32-42 | an empty search lists every chapter and annex in order |
| Syllabus.Listed | src/pages/Temario.jsx:32-42 | the list is drawn from the chapters followed by the annexes |
| Syllabus.ReadCount | src/pages/Temario.jsx:47 | read articles are at most the articles |
| Syllabus.ReadCountIsReadIds | src/pages/Temario.jsx:129-131 | with distinct ids `completedItems` is the number of the chapter's ids in the read set |
| Syllabus.ArticleProgress | src/pages/Temario.jsx:44-49 | absent (NaN) iff there are no articles; else at most 100, 100 when all are read, 0 when none is |
| Syllabus.AllReadIffFullCount | src/pages/Temario.jsx:44-49 | the read count is full iff every article id is in the read set |
| Syllabus.TotalArticles | src/pages/Temario.jsx:65 | `totalArticles` is 0 iff no chapter has an article; `AllIds` bounds the distinct ids by it |
| Syllabus.AllIds | src/pages/Temario.jsx:65 | the regulation has at most as many distinct ids as articles |
| Syllabus.OverallProgress | src/pages/Temario.jsx:65-67 | with no articles, `NaN` iff nothing is read and `Infinity` iff something is; otherwise a rounded percentage, at most 100 when the read ids are the regulation's |
| Syllabus.MockReadOverNoArticles | src/pages/Temario.jsx:14 | the page's mock read set `{'art1','art2'}` over no articles shows `Infinity` |
| Syllabus.ReadWithinTotal | src/pages/Temario.jsx:65-67 | a read set drawn from the regulation's ids gives an overall progress of at most 100 |

## Left out

- Persistence is not modelled: `localStorage`, JSON (de)serialisation and `saveUserProfile`. The stored profile is a constructor parameter.
- Clocks are not read: `Date.now()`, `new Date()` and `toDateString`/`toISOString` become parameters (milliseconds and a calendar day number).
- Timers are not modelled. Each `setTimeout` tick of the countdowns is one call of a `Tick` method.
- `Math.random` is not modelled. The question shuffle is an arbitrary permutation given as a parameter. The annexes' random progress and `completedItems` (src/pages/Temario.jsx:52, 131, 168) are left out.
- Floating point is not modelled. `Math.round(x/y*100)` and the tenths-of-an-hour study time are exact rational rounding, half up. They can differ from the floating-point result when a quotient lands within rounding error of a half.
- StudyPlans.DailyActivities: `hoursPerDay` is a natural number. A fractional value, which would give a fractional minute count per activity, is not modelled.
- Case mapping covers ASCII only. `toLowerCase`/`toUpperCase` are modelled as ASCII case mapping; other letters are left unchanged. Accent folding covers the Spanish vowels only.
- Key order is not modelled. Object key order is taken as insertion order, which holds for the non-numeric topic names used here. The alphabetical order of the glossary's letter sections (`Object.keys(...).sort()`) is not modelled.
- Prototype keys such as `constructor` used as a topic name, and their effect on `topicPerformance[topic]`, are not modelled.
- `learningPath` is never used by the source and is left out.
- Service worker asynchrony is not modelled. Each event handler runs atomically. The deferred `cache.put` in the fetch handlers happens before the reply is observed.
- Service worker URLs are taken as given. `new URL(...)` parsing is replaced by a given `pathname`. Static asset paths are resolved by prefixing the origin. `CACHE_URLS` URLs are taken as absolute.
- Service worker error text is not kept. `error.message` in the `CACHE_ERROR` reply is abstracted to one error value, and `console.log` is dropped.
- `getPendingData`, `syncDataItem` and `removePendingData` are stubs in the source. The pending queue and each item's sync success are parameters. `push` and `notificationclick` are not modelled.
- `src/pages/Dashboard.jsx`, `src/utils/pwaUtils.js`, the components and `src/App.jsx` are not part of this model. They are display tables and browser-API wrappers.
- JSX rendering, styling and icons are not modelled. Neither are the article page's two display toggles for key points and tips.
- Prototype keys used as a difficulty (`toString`, `constructor`) are not modelled either: the source increments a field of the inherited member instead of throwing, while the model reports `UnknownDifficulty` for every difficulty other than `easy`, `medium` and `hard`.
- Glossary.Bucket, Glossary.GroupIsBuckets and Glossary.LetterEnabledIffSection: require every shown term to have a non-empty name. For an empty name `term.term[0]` is undefined and `toUpperCase` throws, and the model does not represent that crash.
- PracticeQuiz.Quiz.ConfirmAnswer: requires a question on screen, because the confirm button exists only there. The time-out crash with no question is modelled in `Tick`.
- MockExam.Exam.PauseExam: requires a running exam, the only screen with the pause button. `ResumeExam` likewise requires a paused exam, and `FinishExam` a running or paused one.

## Findings

| source | as written | input that shows it | evidently intended | confidence | as-written member | corrected member |
|---|---|---|---|---|---|---|
| src/pages/Simulacro.jsx:506-507 | "Siguiente" is disabled only when `index === length - 1` and moves to `Math.min(length - 1, index + 1)` | an exam with no questions, for example difficulty `easy` with chapters `anexo` (no easy annex question), or the "Solo Capítulos" option of the next row: index 0 ≠ −1, so the button is enabled and sets the index to −1 | the index stays on a question; with no questions it stays 0 | high, not executed | MockExam.NextOnEmptyExamAsWritten | MockExam.NextIndex |
| src/pages/Simulacro.jsx:31-34 | the "Solo Capítulos" option (value `capitulo`, line 236) is searched case-insensitively but accent-sensitively | every chapter label is `Capítulo …`, so `capitulo` matches none and the option yields an empty exam | the option selects the chapter questions, ignoring the accent | high, not executed | MockExam.ChapterOptionDrawsNothing | MockExam.AvailableIntendedKeepsMore |

The exam class `MockExam.Exam` follows the code in both rows: `StartExam` draws from `Available`, the filter as written, and `Next` steps with `NextIndexAsWritten`. The corrected definitions, `AvailableIntended` and `NextIndex`, stand beside it with their properties proved.

=== FILE: adaptive_learning.dfy ===
/** The `AdaptiveLearningSystem` object: the learner profile plus the two
    in-memory topic sets, updated in place after every quiz session.
    Persistence is left to the caller: the constructor receives what was
    stored, if anything. The clock is an explicit `Instant` parameter. */
module AdaptiveLearning {
  import opened Common
  import opened Profile
  import opened StudyPlans

  /** The record `getUserStats` returns; `studyTimeTenths` is the study time in
      tenths of an hour (the one-decimal hour figure times ten). */
  datatype UserStats = UserStats(
    level: Level,
    accuracy: nat,
    questionsAnswered: nat,
    studyTimeTenths: nat,
    streakDays: nat,
    weakTopics: seq<string>,
    strongTopics: seq<string>,
    chapterProgress: map<string, TopicProgress>)

  class AdaptiveLearningSystem {
    var profile: UserProfile
    var weakAreas: set<string>
    var strongAreas: set<string>

    ghost predicate Valid()
      reads this
    {
      WellFormedProfile(profile) && weakAreas !! strongAreas
    }

    /** The stored profile if there is one, the default record otherwise; both
        topic sets start empty. */
    constructor(saved: Option<UserProfile>)
      ensures profile == (if saved.Some? then saved.value else DefaultProfile)
      ensures weakAreas == {} && strongAreas == {}
      ensures (saved.None? || WellFormedProfile(saved.value)) ==> Valid()
    {
      profile := if saved.Some? then saved.value else DefaultProfile;
      weakAreas := {};
      strongAreas := {};
    }

    /** `analyzePerformance`: tallies the session, or stops at the first answer
        whose difficulty is not easy, medium or hard. */
    method AnalyzePerformance(answers: seq<Answer>) returns (r: AnalysisOutcome)
      ensures AllDifficultiesKnown(answers) <==> r.Analyzed?
      ensures r.Analyzed? ==> r.analysis == AnalysisOf(answers)
      ensures r.UnknownDifficulty? ==>
        exists i :: 0 <= i < |answers| && AllDifficultiesKnown(answers[..i])
          && DifficultyOf(answers[i]) == r.difficulty && DifficultyKey(answers[i]).None?
    {
      var analysis := Analysis(|answers|, 0, 0, [], map[], Tally(0, 0), Tally(0, 0), Tally(0, 0), 0, 0, 0);
      var i := 0;
      while i < |answers|
        invariant 0 <= i <= |answers|
        invariant AllDifficultiesKnown(answers[..i])
        invariant analysis == AnalysisOf(answers[..i]).(totalQuestions := |answers|)
      {
        var a := answers[i];
        assert answers[..i + 1] == answers[..i] + [a];
        var ok;
        analysis, ok := CountAnswer(analysis, a);
        if !ok {
          assert DifficultyKey(answers[i]).None? && !AllDifficultiesKnown(answers);
          return UnknownDifficulty(DifficultyOf(a));
        }
        AnalysisAppend(answers[..i], a, |answers|);
        KnownPrefixGrows(answers, i);
        i := i + 1;
      }
      assert answers[..i] == answers;
      return Analyzed(analysis);
    }

    /** The callback `analyzePerformance` runs per answer. It throws (here:
        `ok` is false) when the difficulty names no entry, after counting the
        answer as correct or incorrect and under its topic. */
    static method CountAnswer(analysis: Analysis, a: Answer) returns (next: Analysis, ok: bool)
      ensures ok <==> DifficultyKey(a).Some?
      ensures ok ==> next == AnalysisStep(analysis, a)
    {
      var c := Indicator(a.isCorrect);
      next := analysis;
      if a.isCorrect {
        next := next.(correctAnswers := next.correctAnswers + 1);
      } else {
        next := next.(incorrectAnswers := next.incorrectAnswers + 1);
      }
      assert next == analysis.(correctAnswers := analysis.correctAnswers + c,
                               incorrectAnswers := analysis.incorrectAnswers + 1 - c);

      var topic := TopicOf(a);
      var isNew := topic !in next.topicPerformance;
      var tp := if isNew then Tally(0, 0) else next.topicPerformance[topic];
      tp := tp.(total := tp.total + 1);
      if a.isCorrect {
        tp := tp.(correct := tp.correct + 1);
      }
      assert tp == Tally((if isNew then 0 else analysis.topicPerformance[topic].correct) + c,
                         (if isNew then 0 else analysis.topicPerformance[topic].total) + 1);
      next := next.(topics := if isNew then next.topics + [topic] else next.topics,
                    topicPerformance := next.topicPerformance[topic := tp]);
      assert next.topicPerformance == CountUnder(analysis.topicPerformance, topic, c);
      ghost var counted := next;

      match DifficultyKey(a) {
        case Some(Easy) =>
          next := next.(easy := Tally(next.easy.correct + c, next.easy.total + 1));
        case Some(Medium) =>
          next := next.(medium := Tally(next.medium.correct + c, next.medium.total + 1));
        case Some(Hard) =>
          next := next.(hard := Tally(next.hard.correct + c, next.hard.total + 1));
        case None =>
          return next, false;
      }
      ghost var expected := AnalysisStep(analysis, a);
      assert next.easy == expected.easy && next.medium == expected.medium && next.hard == expected.hard;
      assert next == counted.(easy := expected.easy, medium := expected.medium, hard := expected.hard);

      var time := TimeOf(a);
      if time < 30 {
        next := next.(fast := next.fast + 1);
      } else if time <= 120 {
        next := next.(normal := next.normal + 1);
      } else {
        next := next.(slow := next.slow + 1);
      }
      assert next.fast == expected.fast && next.normal == expected.normal && next.slow == expected.slow;
      AnalysisFieldsEqual(next, expected);
      ok := true;
    }

    /** `updateUserLevel`: the lifetime answer count (already including the
        session) with the session's accuracy. */
    method UpdateUserLevel(a: Analysis)
      modifies this
      ensures profile == old(profile).(level := LevelFor(old(profile).questionsAnswered, a.correctAnswers, a.totalQuestions))
      ensures weakAreas == old(weakAreas) && strongAreas == old(strongAreas)
    {
      var lifetime := profile.questionsAnswered;
      if lifetime >= 100 && AccuracyAtLeast(a.correctAnswers, a.totalQuestions, 85) {
        profile := profile.(level := Advanced);
      } else if lifetime >= 50 && AccuracyAtLeast(a.correctAnswers, a.totalQuestions, 70) {
        profile := profile.(level := Intermediate);
      } else {
        profile := profile.(level := Beginner);
      }
    }

    /** `updateTopicStrengths` over the topics `ts` in key order. */
    method UpdateTopicStrengths(ts: seq<string>, perf: map<string, Tally>)
      requires forall t :: t in ts ==> t in perf
      modifies this
      ensures var st := StrengthsAfter(Strengths(old(profile).weakTopics, old(profile).strongTopics,
                                                 old(weakAreas), old(strongAreas)), ts, perf);
        && profile == old(profile).(weakTopics := st.weakTopics, strongTopics := st.strongTopics)
        && weakAreas == st.weakAreas && strongAreas == st.strongAreas
      ensures old(Valid()) ==> Valid() && |profile.weakTopics| <= 5 && |profile.strongTopics| <= 5
    {
      ghost var st0 := Strengths(profile.weakTopics, profile.strongTopics, weakAreas, strongAreas);
      ghost var p0 := profile;
      var i := 0;
      while i < |ts|
        invariant 0 <= i <= |ts|
        invariant Strengths(profile.weakTopics, profile.strongTopics, weakAreas, strongAreas)
                  == StrengthsFold(st0, ts[..i], perf)
        invariant profile == p0.(weakTopics := profile.weakTopics, strongTopics := profile.strongTopics)
      {
        assert ts[..i + 1] == ts[..i] + [ts[i]];
        assert Init(ts[..i + 1]) == ts[..i];
        var t := ts[i];
        var p := perf[t];
        if p.total >= 3 {
          if 100 * p.correct >= 80 * p.total {
            profile := profile.(strongTopics := Without(profile.strongTopics, t) + [t]);
            strongAreas := strongAreas + {t};
            weakAreas := weakAreas - {t};
          } else if 100 * p.correct < 60 * p.total {
            profile := profile.(weakTopics := Without(profile.weakTopics, t) + [t]);
            weakAreas := weakAreas + {t};
            strongAreas := strongAreas - {t};
          }
        }
        i := i + 1;
      }
      assert ts[..i] == ts;
      profile := profile.(weakTopics := LastN(profile.weakTopics, 5), strongTopics := LastN(profile.strongTopics, 5));
      if WellFormedProfile(p0) && st0.weakAreas !! st0.strongAreas {
        StrengthsAfterBounded(st0, ts, perf);
      }
    }

    /** `updateChapterProgress`: each topic's entry (created empty when missing)
        grows by the session's tally and gets a fresh mastery. */
    method UpdateChapterProgress(ts: seq<string>, perf: map<string, Tally>, nowMs: int)
      requires forall t :: t in ts ==> t in perf
      modifies this
      ensures profile == old(profile).(chapterProgress := ProgressFold(old(profile).chapterProgress, ts, perf, nowMs))
      ensures weakAreas == old(weakAreas) && strongAreas == old(strongAreas)
      ensures old(Valid()) && (forall t :: t in perf ==> perf[t].correct <= perf[t].total) ==> Valid()
    {
      ghost var p0 := profile;
      var i := 0;
      while i < |ts|
        invariant 0 <= i <= |ts|
        invariant profile == p0.(chapterProgress := ProgressFold(p0.chapterProgress, ts[..i], perf, nowMs))
        invariant weakAreas == old(weakAreas) && strongAreas == old(strongAreas)
      {
        assert ts[..i + 1] == ts[..i] + [ts[i]];
        assert Init(ts[..i + 1]) == ts[..i];
        var t := ts[i];
        var cp := profile.chapterProgress;
        ghost var before := cp;
        if t !in cp {
          cp := cp[t := TopicProgress(0, 0, None, 0)];
        }
        var e := cp[t];
        assert e == ProgressOf(before, t);
        var answered := e.questionsAnswered + perf[t].total;
        var correct := e.correctAnswers + perf[t].correct;
        var mastery := if answered > 0 then RoundPercent(correct, answered) else 0;
        cp := cp[t := TopicProgress(answered, correct, Some(nowMs), mastery)];
        assert cp == ProgressStep(before, t, perf[t], nowMs);
        profile := profile.(chapterProgress := cp);
        i := i + 1;
      }
      assert ts[..i] == ts;
      if WellFormedProfile(p0) && (forall t :: t in perf ==> perf[t].correct <= perf[t].total) {
        ProgressFoldConsistent(p0.chapterProgress, ts, perf, nowMs);
      }
    }

    /** `updateStudyStreak` on calendar day `today`. */
    method UpdateStudyStreak(today: int)
      modifies this
      ensures profile == old(profile).(streakDays := StreakAfter(old(profile).streakDays, old(profile).lastActivity, today))
      ensures weakAreas == old(weakAreas) && strongAreas == old(strongAreas)
    {
      var last := profile.lastActivity;
      if last.Some? && last.value.day == today {
        return;
      }
      if last.Some? && last.value.day == today - 1 {
        profile := profile.(streakDays := profile.streakDays + 1);
      } else {
        profile := profile.(streakDays := 1);
      }
    }

    /** `updateProfile` at moment `now`. When an answer has an unknown
        difficulty the analysis throws and nothing changes (`ok` is false).
        Otherwise the lifetime counters grow by exactly the session's counts,
        `lastActivity` becomes `now`, the level, topic lists and chapter
        progress follow the session, and the streak stays as it was. */
    method UpdateProfile(session: Session, now: Instant) returns (ok: bool)
      modifies this
      ensures ok <==> AllDifficultiesKnown(session.answers)
      ensures !ok ==> profile == old(profile) && weakAreas == old(weakAreas) && strongAreas == old(strongAreas)
      ensures ok ==>
        var s := session.answers;
        var st := StrengthsAfter(Strengths(old(profile).weakTopics, old(profile).strongTopics,
                                           old(weakAreas), old(strongAreas)), Topics(s), TopicMap(s));
        && profile.questionsAnswered == old(profile).questionsAnswered + |s|
        && profile.correctAnswers == old(profile).correctAnswers + CountCorrect(s)
        && profile.studyTime == old(profile).studyTime + session.timeSpent
        && profile.lastActivity == Some(now)
        && profile.level == LevelFor(profile.questionsAnswered, CountCorrect(s), |s|)
        && profile.weakTopics == st.weakTopics && profile.strongTopics == st.strongTopics
        && weakAreas == st.weakAreas && strongAreas == st.strongAreas
        && profile.chapterProgress == ProgressFold(old(profile).chapterProgress, Topics(s), TopicMap(s), now.ms)
        && profile.streakDays == old(profile).streakDays
        && profile.examDate == old(profile).examDate && profile.studyGoal == old(profile).studyGoal
      ensures old(Valid()) ==> Valid()
    {
      var outcome := AnalyzePerformance(session.answers);
      if outcome.UnknownDifficulty? {
        return false;
      }
      var a := outcome.analysis;
      ghost var s := session.answers;
      profile := profile.(questionsAnswered := profile.questionsAnswered + a.totalQuestions,
                          correctAnswers := profile.correctAnswers + a.correctAnswers,
                          studyTime := profile.studyTime + session.timeSpent,
                          lastActivity := Some(now));
      UpdateUserLevel(a);
      UpdateTopicStrengths(a.topics, a.topicPerformance);
      forall t | t in a.topicPerformance
        ensures a.topicPerformance[t].correct <= a.topicPerformance[t].total
      {
      }
      UpdateChapterProgress(a.topics, a.topicPerformance, now.ms);
      StreakFrozenInsideUpdate(profile.streakDays, now);
      UpdateStudyStreak(now.day);
      return true;
    }

    /** `generateStudyPlan`: daily goals and weekly milestones for the days up
        to `targetDate` (at least 7) or for 30 days. */
    method GenerateStudyPlan(targetDate: Option<int>, nowMs: int, hoursPerDay: nat) returns (plan: StudyPlan)
      ensures plan.totalDays == TotalDays(targetDate, nowMs)
      ensures plan.focusAreas == FocusAreas(profile.weakTopics)
      ensures WellFormedPlan(plan, hoursPerDay)
    {
      var totalDays := TotalDays(targetDate, nowMs);
      var focus := if |profile.weakTopics| > 0 then profile.weakTopics else DefaultFocusAreas;
      var goals: seq<DailyGoal> := [];
      var day := 1;
      while day <= totalDays
        invariant 1 <= day <= totalDays + 1
        invariant |goals| == day - 1
        invariant forall k :: 0 <= k < |goals| ==> goals[k] == DailyGoalFor(k + 1, focus, hoursPerDay)
      {
        var area := focus[(day - 1) % |focus|];
        goals := goals + [DailyGoal(day, area, DailyActivities(area, hoursPerDay), hoursPerDay * 60)];
        day := day + 1;
      }
      var weeks := CeilDiv(totalDays, 7);
      var milestones: seq<Milestone> := [];
      var week := 1;
      while week <= weeks
        invariant weeks >= 0
        invariant 1 <= week <= weeks + 1
        invariant |milestones| == week - 1
        invariant forall k :: 0 <= k < |milestones| ==> milestones[k] == Milestone(k + 1, WeeklyGoalFor(k + 1, weeks), "quiz")
      {
        milestones := milestones + [Milestone(week, WeeklyGoalFor(week, weeks), "quiz")];
        week := week + 1;
      }
      plan := StudyPlan(totalDays, goals, milestones, focus);
    }

    /** `getUserStats`: the accuracy percentage (0 before any answer), the
        study time in tenths of an hour, and the profile's other figures. */
    function Stats(): (s: UserStats)
      reads this
      ensures profile.questionsAnswered == 0 ==> s.accuracy == 0
      ensures profile.questionsAnswered > 0 ==>
        2 * profile.questionsAnswered * s.accuracy <= 200 * profile.correctAnswers + profile.questionsAnswered
          < 2 * profile.questionsAnswered * (s.accuracy + 1)
      ensures profile.correctAnswers <= profile.questionsAnswered ==> s.accuracy <= 100
      ensures 12 * s.studyTimeTenths <= 2 * profile.studyTime + 6 < 12 * (s.studyTimeTenths + 1)
      ensures s.level == profile.level && s.streakDays == profile.streakDays
      ensures s.questionsAnswered == profile.questionsAnswered
      ensures s.weakTopics == profile.weakTopics && s.strongTopics == profile.strongTopics
      ensures s.chapterProgress == profile.chapterProgress
    {
      var p := profile;
      if p.questionsAnswered > 0 then
        RoundPercentAtMost100Guarded(p.correctAnswers, p.questionsAnswered);
        UserStats(p.level, RoundPercent(p.correctAnswers, p.questionsAnswered), p.questionsAnswered,
                  RoundDiv(p.studyTime, 6), p.streakDays, p.weakTopics, p.strongTopics, p.chapterProgress)
      else
        UserStats(p.level, 0, p.questionsAnswered, RoundDiv(p.studyTime, 6), p.streakDays,
                  p.weakTopics, p.strongTopics, p.chapterProgress)
    }

    /** `setStudyGoal`: the goal always, the exam date only when one is given. */
    method SetStudyGoal(goal: string, examDate: Option<int>)
      modifies this
      ensures profile == old(profile).(studyGoal := goal,
                                       examDate := if examDate.Some? then examDate else old(profile).examDate)
      ensures weakAreas == old(weakAreas) && strongAreas == old(strongAreas)
      ensures old(Valid()) ==> Valid()
    {
      profile := profile.(studyGoal := goal);
      if examDate.Some? {
        profile := profile.(examDate := examDate);
      }
    }

    /** `resetProgress`: the default record; the in-memory topic sets are not
        cleared. */
    method ResetProgress()
      modifies this
      ensures profile == DefaultProfile
      ensures weakAreas == old(weakAreas) && strongAreas == old(strongAreas)
      ensures old(Valid()) ==> Valid()
    {
      profile := DefaultProfile;
    }
  }

  lemma RoundPercentAtMost100Guarded(num: nat, den: nat)
    requires den > 0
    ensures num <= den ==> RoundPercent(num, den) <= 100
  {
    if num <= den {
      RoundPercentAtMost100(num, den);
    }
  }
}

=== FILE: article_view.dfy ===
/** The article page: an article's text is cut into paragraphs at blank lines
    and each paragraph is shown as a heading, a numbered block or plain text;
    a missing article shows the not-found view. */
module ArticleView {
  import opened Common
  import opened TimeFormat

  /** The paragraph separator, a blank line. */
  const Break: string := "\n\n"

  /** No blank line occurs inside `p`. */
  predicate Unbroken(p: string)
  {
    forall i :: 0 <= i < |p| - 1 ==> !(p[i] == '\n' && p[i + 1] == '\n')
  }

  /** `content.split('\n\n')`: cuts at each blank line, scanning from the left,
      so that `"\n\n\n"` gives `""` and `"\n"`. */
  function Split(s: string): (r: seq<string>)
    ensures |r| >= 1
    ensures StartsWith(s, r[0])
  {
    if s == [] then [[]]
    else if StartsWith(s, Break) then [[]] + Split(s[2..])
    else
      var rest := Split(s[1..]);
      assert s[1..][..|rest[0]|] == s[1..|rest[0]| + 1];
      [[s[0]] + rest[0]] + rest[1..]
  }

  /** The pieces put back together with the separator between them. */
  function Join(pieces: seq<string>): string
    requires |pieces| >= 1
  {
    if |pieces| == 1 then pieces[0] else pieces[0] + Break + Join(pieces[1..])
  }

  /** Joining the paragraphs with blank lines gives the article text back. */
  lemma {:induction false} SplitJoin(s: string)
    ensures Join(Split(s)) == s
  {
    if s == [] {
    } else if StartsWith(s, Break) {
      SplitJoin(s[2..]);
      var rest := Split(s[2..]);
      assert Split(s) == [[]] + rest;
      JoinCons([], rest);
      assert s == Break + s[2..];
    } else {
      SplitJoin(s[1..]);
      var rest := Split(s[1..]);
      assert Split(s) == [[s[0]] + rest[0]] + rest[1..];
      assert rest == [rest[0]] + rest[1..];
      JoinFirst(s[0], rest[0], rest[1..]);
      assert s == [s[0]] + s[1..];
    }
  }

  /** Joining after a first piece puts a separator between it and the rest. */
  lemma JoinCons(p: string, rest: seq<string>)
    requires |rest| >= 1
    ensures Join([p] + rest) == p + Break + Join(rest)
  {
    assert ([p] + rest)[1..] == rest;
  }

  /** Prefixing a character to the first piece prefixes it to the joined text. */
  lemma JoinFirst(c: char, head: string, tail: seq<string>)
    ensures Join([[c] + head] + tail) == [c] + Join([head] + tail)
  {
    if tail == [] {
      assert [[c] + head] + tail == [[c] + head];
      assert [head] + tail == [head];
    } else {
      JoinCons([c] + head, tail);
      JoinCons(head, tail);
      var j := Join(tail);
      assert ([c] + head) + Break + j == [c] + (head + Break + j);
    }
  }

  /** No paragraph contains a blank line. */
  lemma {:induction false} SplitPiecesUnbroken(s: string)
    ensures forall i :: 0 <= i < |Split(s)| ==> Unbroken(Split(s)[i])
  {
    if s == [] {
    } else if StartsWith(s, Break) {
      SplitPiecesUnbroken(s[2..]);
      assert Split(s)[1..] == Split(s[2..]);
    } else {
      SplitPiecesUnbroken(s[1..]);
      var rest := Split(s[1..]);
      var head := [s[0]] + rest[0];
      assert rest[0] != [] ==> rest[0][0] == s[1];
      assert s[0] == '\n' && |s| >= 2 ==> s[1] != '\n' by {
        if s[0] == '\n' && |s| >= 2 {
          assert s[..2] != Break;
        }
      }
      assert Unbroken(head) by {
        forall i | 0 <= i < |head| - 1
          ensures !(head[i] == '\n' && head[i + 1] == '\n')
        {
          if i > 0 {
            assert head[i] == rest[0][i - 1] && head[i + 1] == rest[0][i];
          }
        }
      }
      assert Split(s)[1..] == rest[1..];
    }
  }

  /** The cuts are the leftmost ones: no paragraph but the last ends with a
      line break, since that break and the separator after it would have
      formed an earlier blank line. */
  lemma {:induction false} SplitCutsLeftmost(s: string)
    ensures forall i :: 0 <= i < |Split(s)| - 1 ==> !EndsWith(Split(s)[i], "\n")
  {
    if s == [] {
    } else if StartsWith(s, Break) {
      SplitCutsLeftmost(s[2..]);
      assert Split(s)[1..] == Split(s[2..]);
    } else {
      SplitCutsLeftmost(s[1..]);
      var rest := Split(s[1..]);
      var head := [s[0]] + rest[0];
      assert Split(s)[1..] == rest[1..];
      if |rest| >= 2 {
        if rest[0] == [] {
          EmptyFirstPieceIsBreak(s[1..]);
          assert s[..2] != Break;
          assert s[0] != '\n';
        } else {
          assert head[|head| - 1] == rest[0][|rest[0]| - 1];
        }
      }
    }
  }

  /** An empty first paragraph followed by others means the text starts with
      a blank line. */
  lemma EmptyFirstPieceIsBreak(t: string)
    requires |Split(t)| >= 2 && Split(t)[0] == []
    ensures StartsWith(t, Break)
  {
  }

  // ---------------------------------------------------------------------------
  // Headings
  // ---------------------------------------------------------------------------

  const Bold: string := "**"

  /** The global replace of `**` by nothing: deletes each `**`, scanning from
      the left. */
  function StripBold(s: string): (r: string)
    ensures |r| <= |s|
    ensures s != [] && s[0] != '*' ==> r != [] && r[0] == s[0]
    ensures !Contains(r, Bold)
  {
    if s == [] then []
    else if StartsWith(s, Bold) then StripBold(s[2..])
    else
      var rest := StripBold(s[1..]);
      var r := [s[0]] + rest;
      assert |s| >= 2 && s[0] == '*' ==> s[1] != '*' by {
        if |s| >= 2 && s[0] == '*' {
          assert s[..2] != Bold;
        }
      }
      NoBoldCons(s[0], rest);
      r
  }

  /** Putting a character in front of a text free of `**` keeps it free of
      `**` unless both are stars. */
  lemma NoBoldCons(c: char, rest: string)
    requires !Contains(rest, Bold)
    requires c == '*' ==> rest == [] || rest[0] != '*'
    ensures !Contains([c] + rest, Bold)
  {
    var r := [c] + rest;
    assert r[1..] == rest;
    if |r| >= 2 {
      assert r[1] == rest[0];
      assert r[..2][0] != '*' || r[..2][1] != '*';
    }
  }

  /** The characters of a text other than `*`. */
  function NonStars(s: string): string
  {
    if s == [] then [] else (if s[0] == '*' then [] else [s[0]]) + NonStars(s[1..])
  }

  /** Deleting the `**` marks keeps every other character, in order. */
  lemma {:induction false} StripBoldKeepsText(s: string)
    ensures NonStars(StripBold(s)) == NonStars(s)
  {
    if s != [] {
      if StartsWith(s, Bold) {
        StripBoldKeepsText(s[2..]);
        assert s[1..][1..] == s[2..];
      } else {
        StripBoldKeepsText(s[1..]);
        assert ([s[0]] + StripBold(s[1..]))[1..] == StripBold(s[1..]);
      }
    }
  }

  // ---------------------------------------------------------------------------
  // Numbered blocks
  // ---------------------------------------------------------------------------

  /** Length of the run of decimal digits at the start of `s`. */
  function LeadingDigits(s: string): (n: nat)
    ensures n <= |s|
    ensures forall i :: 0 <= i < n ==> IsDigit(s[i])
    ensures n < |s| ==> !IsDigit(s[n])
  {
    if s == [] || !IsDigit(s[0]) then 0 else 1 + LeadingDigits(s[1..])
  }

  /** `/^\d+\./` decided by one greedy scan: the leading digits, then a dot. */
  predicate IsNumbered(s: string)
    ensures IsNumbered(s) ==> |s| >= 2 && IsDigit(s[0]) && '.' in s
  {
    var n := LeadingDigits(s);
    1 <= n < |s| && s[n] == '.'
  }

  /** The greedy scan agrees with the pattern: some non-empty prefix of
      digits is followed by a dot. */
  lemma NumberedIffPattern(s: string)
    ensures IsNumbered(s) <==> exists k :: 1 <= k < |s| && s[k] == '.' && AllDigits(s[..k])
  {
    var n := LeadingDigits(s);
    if IsNumbered(s) {
      assert AllDigits(s[..n]);
    }
    if exists k :: 1 <= k < |s| && s[k] == '.' && AllDigits(s[..k]) {
      var k :| 1 <= k < |s| && s[k] == '.' && AllDigits(s[..k]);
      assert forall i :: 0 <= i < k ==> s[..k][i] == s[i];
      LeadingDigitsExact(s, k);
    }
  }

  /** A run of `k` digits ended by a non-digit (or the end) is the leading run. */
  lemma {:induction false} LeadingDigitsExact(s: string, k: nat)
    requires k <= |s|
    requires forall i :: 0 <= i < k ==> IsDigit(s[i])
    requires k < |s| ==> !IsDigit(s[k])
    ensures LeadingDigits(s) == k
  {
    if k > 0 {
      assert forall i :: 0 <= i < k - 1 ==> s[1..][i] == s[i + 1];
      LeadingDigitsExact(s[1..], k - 1);
    }
  }

  predicate AllDigits(s: string)
  {
    forall i :: 0 <= i < |s| ==> IsDigit(s[i])
  }

  // ---------------------------------------------------------------------------
  // Rendering
  // ---------------------------------------------------------------------------

  datatype Block = Heading(text: string) | NumberedBlock(text: string) | Plain(text: string)

  /** How one paragraph is shown; the heading test comes first. */
  function Classify(p: string): (b: Block)
    ensures b.Heading? <==> StartsWith(p, Bold) && EndsWith(p, Bold)
    ensures b.Heading? ==> !Contains(b.text, Bold) && NonStars(b.text) == NonStars(p)
    ensures b.NumberedBlock? <==> !(StartsWith(p, Bold) && EndsWith(p, Bold)) && IsNumbered(p)
    ensures !b.Heading? ==> b.text == p
  {
    if StartsWith(p, Bold) && EndsWith(p, Bold) then
      StripBoldKeepsText(p);
      Heading(StripBold(p))
    else if IsNumbered(p) then NumberedBlock(p)
    else Plain(p)
  }

  /** An article of the syllabus as the page reads it. */
  datatype Article = Article(id: string, number: string, title: string, content: string)

  datatype View = NotFound | Page(title: string, blocks: seq<Block>)

  /** The page for the requested article: not found when there is none,
      otherwise one block per paragraph, in order. */
  function Render(article: Option<Article>): (v: View)
    ensures v.NotFound? <==> article.None?
    ensures v.Page? ==>
      var paragraphs := Split(article.value.content);
      && |v.blocks| == |paragraphs|
      && forall i :: 0 <= i < |paragraphs| ==> v.blocks[i] == Classify(paragraphs[i])
  {
    match article
    case None => NotFound
    case Some(a) =>
      var paragraphs := Split(a.content);
      Page(a.title, seq(|paragraphs|, i requires 0 <= i < |paragraphs| => Classify(paragraphs[i])))
  }

  /** A numbered block starting with a digit is never taken for a heading. */
  lemma NumberedIsNotHeading(p: string)
    requires IsNumbered(p)
    ensures Classify(p) == NumberedBlock(p)
  {
    assert IsDigit(p[0]);
    assert |p| >= 2 ==> p[..2][0] != '*';
  }
}

=== FILE: cache_store.dfy ===
/** The part of the browser's Cache API the service worker relies on: named
    caches in creation order, each mapping a request URL to a response.
    `caches.match` searches every cache in creation order, `cache.put` refuses
    non-GET requests and partial (206) responses, and `cache.addAll` stores all
    of its URLs or none of them (section 5.4.4 of the W3C Service Workers
    specification). The network is an input: each fetch is a `FetchOutcome`. */
module CacheStore {
  import opened Common

  datatype Response = Response(status: int, body: string)

  /** A request as the worker sees it: its absolute URL, the URL's path, the
      HTTP method and the request mode (`"navigate"` for page loads). */
  datatype Request = Request(url: string, pathname: string, httpMethod: string, mode: string)

  datatype FetchOutcome = Received(response: Response) | NetworkError

  type Entries = map<string, Response>

  predicate OkStatus(status: int)
  {
    200 <= status <= 299
  }

  /** The response for `url` in the first of `names` (in creation order) that
      holds one. */
  function MatchIn(names: seq<string>, caches: map<string, Entries>, url: string): (r: Option<Response>)
    ensures r.Some? <==> exists i :: 0 <= i < |names| && names[i] in caches && url in caches[names[i]]
    ensures r.Some? ==> exists i :: 0 <= i < |names| && names[i] in caches && url in caches[names[i]]
                                    && r.value == caches[names[i]][url]
  {
    if names == [] then None
    else if names[0] in caches && url in caches[names[0]] then Some(caches[names[0]][url])
    else
      var r := MatchIn(names[1..], caches, url);
      assert forall i :: 0 < i < |names| ==> names[i] == names[1..][i - 1];
      r
  }

  /** `cache.addAll(urls)` succeeds when no URL is repeated and every fetch
      answers with an ok status other than 206. */
  predicate AddAllSucceeds(urls: seq<string>, outcomes: seq<FetchOutcome>)
    requires |outcomes| == |urls|
  {
    && NoDuplicates(urls)
    && forall i :: 0 <= i < |urls| ==>
         outcomes[i].Received? && OkStatus(outcomes[i].response.status) && outcomes[i].response.status != 206
  }

  /** The entries after storing each fetched response under its URL. */
  function Stored(entries: Entries, urls: seq<string>, outcomes: seq<FetchOutcome>): (r: Entries)
    requires |outcomes| == |urls|
    requires forall i :: 0 <= i < |outcomes| ==> outcomes[i].Received?
    ensures r.Keys == entries.Keys + set u | u in urls
  {
    if urls == [] then entries
    else
      var r := Stored(entries, Init(urls), Init(outcomes));
      assert forall u :: u in urls <==> u in Init(urls) || u == Last(urls);
      r[Last(urls) := Last(outcomes).response]
  }

  /** With no URL repeated, every URL maps to its own response. */
  lemma {:induction false} StoredKeepsEach(entries: Entries, urls: seq<string>, outcomes: seq<FetchOutcome>)
    requires |outcomes| == |urls| && NoDuplicates(urls)
    requires forall i :: 0 <= i < |outcomes| ==> outcomes[i].Received?
    ensures forall i :: 0 <= i < |urls| ==> Stored(entries, urls, outcomes)[urls[i]] == outcomes[i].response
  {
    if urls != [] {
      var us, os := Init(urls), Init(outcomes);
      StoredKeepsEach(entries, us, os);
      forall i | 0 <= i < |urls|
        ensures Stored(entries, urls, outcomes)[urls[i]] == outcomes[i].response
      {
        if i < |urls| - 1 {
          assert us[i] == urls[i] && os[i] == outcomes[i];
          assert urls[i] != Last(urls);
        }
      }
    }
  }

  /** The caches of one origin, as `self.caches` holds them. */
  class CacheStorage {
    var names: seq<string>
    var caches: map<string, Entries>

    ghost predicate Valid()
      reads this
    {
      && NoDuplicates(names)
      && forall n :: n in caches <==> n in names
    }

    constructor()
      ensures names == [] && caches == map[]
      ensures Valid()
    {
      names := [];
      caches := map[];
    }

    /** `caches.open(name)`: creates an empty cache at the end of the creation
        order when there is none of that name. */
    method Open(name: string)
      requires Valid()
      modifies this
      ensures Valid()
      ensures names == (if name in old(caches) then old(names) else old(names) + [name])
      ensures caches == (if name in old(caches) then old(caches) else old(caches)[name := map[]])
    {
      if name !in caches {
        names := names + [name];
        caches := caches[name := map[]];
      }
    }

    /** `caches.match(request)`: only GET requests match. */
    function Match(req: Request): (r: Option<Response>)
      reads this
      ensures req.httpMethod != "GET" ==> r.None?
      ensures req.httpMethod == "GET" ==> r == MatchIn(names, caches, req.url)
    {
      if req.httpMethod == "GET" then MatchIn(names, caches, req.url) else None
    }

    /** `cache.put(request, response)` on the cache `name`; `ok` is false when
        the platform rejects the call, and nothing is stored then. */
    method Put(name: string, req: Request, resp: Response) returns (ok: bool)
      requires Valid() && name in caches
      modifies this
      ensures Valid()
      ensures ok <==> req.httpMethod == "GET" && resp.status != 206
      ensures names == old(names)
      ensures caches == if ok then old(caches)[name := old(caches)[name][req.url := resp]] else old(caches)
    {
      ok := req.httpMethod == "GET" && resp.status != 206;
      if ok {
        caches := caches[name := caches[name][req.url := resp]];
      }
    }

    /** `caches.delete(name)`. */
    method Delete(name: string) returns (found: bool)
      requires Valid()
      modifies this
      ensures Valid()
      ensures found <==> name in old(caches)
      ensures names == Without(old(names), name)
      ensures caches == old(caches) - {name}
    {
      found := name in caches;
      WithoutKeepsNoDuplicates(names, name);
      names := Without(names, name);
      caches := caches - {name};
    }

    /** `cache.addAll(urls)` on the cache `name`, the fetch of `urls[i]`
        having ended in `outcomes[i]`. */
    method AddAll(name: string, urls: seq<string>, outcomes: seq<FetchOutcome>) returns (ok: bool)
      requires Valid() && name in caches && |outcomes| == |urls|
      modifies this
      ensures Valid()
      ensures ok <==> AddAllSucceeds(urls, outcomes)
      ensures names == old(names)
      ensures caches == if ok then old(caches)[name := Stored(old(caches)[name], urls, outcomes)] else old(caches)
    {
      ok := AddAllSucceeds(urls, outcomes);
      if ok {
        caches := caches[name := Stored(caches[name], urls, outcomes)];
      }
    }
  }

  /** After a response is stored in a cache, a GET for the same URL finds a
      response (possibly an older one from a cache created earlier). */
  lemma MatchAfterStore(names: seq<string>, caches: map<string, Entries>, name: string, url: string, resp: Response)
    requires name in names && name in caches
    ensures MatchIn(names, caches[name := caches[name][url := resp]], url).Some?
  {
    var i :| 0 <= i < |names| && names[i] == name;
    assert url in caches[name := caches[name][url := resp]][names[i]];
  }
}

=== FILE: common.dfy ===
/** Shared vocabulary of the model: optional values, the rounding that
    `Math.round(a / b * 100)` performs on non-negative operands, the whole-day
    ceiling used for date differences, ASCII case mapping and the string
    tests (`startsWith`, `endsWith`, `includes`) the pages rely on. */
module Common {

  datatype Option<+T> = None | Some(value: T)

  // ---------------------------------------------------------------------------
  // Arithmetic
  // ---------------------------------------------------------------------------

  /** `Math.round(num / den)` on exact rationals: the nearest integer, halves
      rounded up. */
  function RoundDiv(num: nat, den: nat): (r: nat)
    requires den > 0
    ensures 2 * den * r <= 2 * num + den < 2 * den * (r + 1)
  {
    (2 * num + den) / (2 * den)
  }

  /** `Math.round(num / den * 100)`, the percentage every page displays. */
  function RoundPercent(num: nat, den: nat): (r: nat)
    requires den > 0
    ensures 2 * den * r <= 200 * num + den < 2 * den * (r + 1)
  {
    RoundDiv(100 * num, den)
  }

  /** A rounded share of a whole never exceeds 100. */
  lemma RoundPercentAtMost100(num: nat, den: nat)
    requires 0 < den && num <= den
    ensures RoundPercent(num, den) <= 100
  {
    var r := RoundPercent(num, den);
    if r > 100 {
      assert 2 * den * r >= 2 * den * 101 by {
        MulMonotone(2 * den, 101, r);
      }
      assert false;
    }
  }

  lemma MulMonotone(k: nat, a: nat, b: nat)
    requires a <= b
    ensures k * a <= k * b
  {
  }

  /** Rounding is exact on whole percentages: a full share is 100, none is 0. */
  lemma RoundPercentEnds(den: nat)
    requires den > 0
    ensures RoundPercent(den, den) == 100 && RoundPercent(0, den) == 0
  {
    var r := RoundPercent(den, den);
    assert 2 * den * r <= 201 * den < 2 * den * (r + 1);
    if r < 100 {
      MulMonotone(2 * den, r + 1, 100);
    } else if r > 100 {
      MulMonotone(2 * den, 101, r);
    }
  }

  /** The remainder is determined by any quotient-remainder split. */
  lemma ModUnique(x: int, q: int, r: int, n: int)
    requires n > 0 && 0 <= r < n && x == q * n + r
    ensures x % n == r
  {
    var q', r' := x / n, x % n;
    assert x == q' * n + r';
    if q' > q {
      MulLe(q + 1, q', n);
      assert false;
    } else if q' < q {
      MulLe(q' + 1, q, n);
      assert false;
    }
  }

  lemma MulLe(a: int, b: int, n: int)
    requires a <= b && n > 0
    ensures a * n <= b * n
  {
  }

  /** Remainders repeat with period `n`. */
  lemma ModShift(k: nat, n: nat)
    requires n > 0
    ensures (k + n) % n == k % n
  {
    ModUnique(k + n, k / n + 1, k % n, n);
  }

  /** `Math.ceil(a / b)` for a positive divisor. */
  function CeilDiv(a: int, b: int): (r: int)
    requires b > 0
    ensures b * (r - 1) < a <= b * r
  {
    -((-a) / b)
  }

  const MillisPerDay: nat := 1000 * 60 * 60 * 24

  /** Whole days from `nowMs` to `dateMs`, rounded up:
      `Math.ceil((date - now) / (1000 * 60 * 60 * 24))`; negative once the date
      is past. */
  function DaysUntil(dateMs: int, nowMs: int): (d: int)
    ensures MillisPerDay * (d - 1) < dateMs - nowMs <= MillisPerDay * d
  {
    CeilDiv(dateMs - nowMs, MillisPerDay)
  }

  /** 1 for true, 0 for false: one step of a counter. */
  function Indicator(b: bool): nat
  {
    if b then 1 else 0
  }

  function Max(a: int, b: int): (r: int)
    ensures r >= a && r >= b && (r == a || r == b)
  {
    if a >= b then a else b
  }

  function Min(a: int, b: int): (r: int)
    ensures r <= a && r <= b && (r == a || r == b)
  {
    if a <= b then a else b
  }

  /** Clicking a card that expands in place: the open one closes, any other
      opens (and the previously open one closes). */
  function Toggle<T(==)>(open: Option<T>, clicked: T): (r: Option<T>)
    ensures r.None? <==> open == Some(clicked)
    ensures r.Some? ==> r.value == clicked
  {
    if open == Some(clicked) then None else Some(clicked)
  }

  // ---------------------------------------------------------------------------
  // Text (ASCII case mapping stands for the Unicode one)
  // ---------------------------------------------------------------------------

  function LowerChar(c: char): char
  {
    if 'A' <= c <= 'Z' then (c as int + 32) as char else c
  }

  function UpperChar(c: char): char
  {
    if 'a' <= c <= 'z' then (c as int - 32) as char else c
  }

  /** `s.toLowerCase()` */
  function Lower(s: string): (r: string)
    ensures |r| == |s|
    ensures forall i :: 0 <= i < |s| ==> r[i] == LowerChar(s[i])
  {
    seq(|s|, i requires 0 <= i < |s| => LowerChar(s[i]))
  }

  /** `s.toUpperCase()` */
  function Upper(s: string): (r: string)
    ensures |r| == |s|
    ensures forall i :: 0 <= i < |s| ==> r[i] == UpperChar(s[i])
  {
    seq(|s|, i requires 0 <= i < |s| => UpperChar(s[i]))
  }

  /** `s.startsWith(p)` */
  predicate StartsWith(s: string, p: string)
  {
    |p| <= |s| && s[..|p|] == p
  }

  /** `s.endsWith(p)` */
  predicate EndsWith(s: string, p: string)
  {
    |p| <= |s| && s[|s| - |p|..] == p
  }

  /** `hay.includes(needle)`: the needle starts at some position of `hay`. */
  predicate Contains(hay: string, needle: string)
  {
    StartsWith(hay, needle) || (hay != [] && Contains(hay[1..], needle))
  }

  /** Case-insensitive `includes`, as the pages write it:
      `hay.toLowerCase().includes(needle.toLowerCase())`. */
  predicate ContainsIgnoringCase(hay: string, needle: string)
  {
    Contains(Lower(hay), Lower(needle))
  }

  /** The empty search term is found in every text. */
  lemma EmptyIsContained(hay: string)
    ensures ContainsIgnoringCase(hay, "")
  {
    assert Lower("") == [];
    assert StartsWith(Lower(hay), []);
  }

  // ---------------------------------------------------------------------------
  // Sequences
  // ---------------------------------------------------------------------------

  function Last<T>(s: seq<T>): T
    requires s != []
  {
    s[|s| - 1]
  }

  function Init<T>(s: seq<T>): seq<T>
    requires s != []
  {
    s[..|s| - 1]
  }

  /** No element occurs twice. */
  predicate NoDuplicates<T(==)>(s: seq<T>)
  {
    forall i, j :: 0 <= i < j < |s| ==> s[i] != s[j]
  }

  /** `s.slice(-n)`: the last `n` elements (all of them if fewer). */
  function LastN<T>(s: seq<T>, n: nat): (r: seq<T>)
    ensures |r| == Min(|s|, n)
    ensures forall i :: 0 <= i < |r| ==> r[i] == s[|s| - |r| + i]
  {
    if |s| <= n then s else s[|s| - n..]
  }

  /** `s.filter(x => x !== v)` */
  function Without<T(==,!new)>(s: seq<T>, v: T): (r: seq<T>)
    ensures forall x :: x in r <==> x in s && x != v
    ensures |r| <= |s|
  {
    if s == [] then []
    else if s[0] == v then Without(s[1..], v)
    else [s[0]] + Without(s[1..], v)
  }

  /** A non-empty list holds its head and its tail. */
  lemma MultisetHeadTail<T>(s: seq<T>)
    requires s != []
    ensures multiset(s) == multiset(s[1..]) + multiset{s[0]}
  {
    assert s == [s[0]] + s[1..];
  }

  /** Appending an element not yet present keeps a list free of duplicates. */
  lemma AppendFresh<T>(s: seq<T>, v: T)
    requires NoDuplicates(s) && v !in s
    ensures NoDuplicates(s + [v])
  {
    var r := s + [v];
    forall i, j | 0 <= i < j < |r|
      ensures r[i] != r[j]
    {
      if j == |s| {
        assert r[i] == s[i];
      } else {
        assert r[i] == s[i] && r[j] == s[j];
      }
    }
  }

  lemma {:induction false} WithoutKeepsNoDuplicates<T(!new)>(s: seq<T>, v: T)
    requires NoDuplicates(s)
    ensures NoDuplicates(Without(s, v))
  {
    if s != [] {
      WithoutKeepsNoDuplicates(s[1..], v);
      if s[0] != v {
        assert s[0] !in s[1..];
        assert s[0] !in Without(s[1..], v);
      }
    }
  }

  /** Filtering a concatenation filters each part: the kept elements keep
      their order and multiplicity. */
  lemma {:induction false} WithoutAppend<T(!new)>(a: seq<T>, b: seq<T>, v: T)
    ensures Without(a + b, v) == Without(a, v) + Without(b, v)
  {
    if a == [] {
      assert a + b == b;
    } else {
      var x, rest := a[0], a[1..];
      assert a == [x] + rest && a + b == [x] + (rest + b);
      WithoutAppend(rest, b, v);
      WithoutCons(x, rest, v);
      WithoutCons(x, rest + b, v);
      if x != v {
        ConsAppend(x, Without(rest, v), Without(b, v));
      }
    }
  }

  lemma ConsAppend<T>(x: T, p: seq<T>, q: seq<T>)
    ensures [x] + (p + q) == ([x] + p) + q
  {
  }

  /** The filter decides the head and goes on with the tail. */
  lemma WithoutCons<T(!new)>(x: T, s: seq<T>, v: T)
    ensures Without([x] + s, v) == if x == v then Without(s, v) else [x] + Without(s, v)
  {
    assert ([x] + s)[1..] == s;
  }

  /** Removing a value that does not occur leaves the list as it is. */
  lemma {:induction false} WithoutAbsent<T(!new)>(s: seq<T>, v: T)
    requires v !in s
    ensures Without(s, v) == s
  {
    if s != [] {
      WithoutAbsent(s[1..], v);
    }
  }

  lemma LastNKeepsNoDuplicates<T>(s: seq<T>, n: nat)
    requires NoDuplicates(s)
    ensures NoDuplicates(LastN(s, n))
  {
  }
}

=== FILE: glossary.dfy ===
/** The glossary page: category counts, the search-and-category filter, the
    grouping of the shown terms by initial letter, the alphabet bar, the
    result count text and the expand/collapse toggle of one term. */
module Glossary {
  import opened Common
  import opened TimeFormat

  /** An entry of the glossary. */
  datatype Term = Term(term: string, fullName: string, definition: string, category: string)

  /** The search text occurs, ignoring case, in the term, its full name or
      its definition. */
  predicate MatchesSearch(t: Term, search: string)
  {
    || ContainsIgnoringCase(t.term, search)
    || ContainsIgnoringCase(t.fullName, search)
    || ContainsIgnoringCase(t.definition, search)
  }

  predicate MatchesCategory(t: Term, category: string)
  {
    category == "all" || t.category == category
  }

  /** `filteredTerms`: the terms, in order, that match both the search and
      the selected category. */
  function Filter(terms: seq<Term>, search: string, category: string): (r: seq<Term>)
    ensures |r| <= |terms|
    ensures forall t :: t in r <==> t in terms && MatchesSearch(t, search) && MatchesCategory(t, category)
  {
    if terms == [] then []
    else
      var r := Filter(Init(terms), search, category);
      assert forall t :: t in terms <==> t in Init(terms) || t == Last(terms);
      if MatchesSearch(Last(terms), search) && MatchesCategory(Last(terms), category)
      then r + [Last(terms)] else r
  }

  /** With an empty search and `'all'`, every term is shown, in order. */
  lemma {:induction false} EmptySearchShowsAll(terms: seq<Term>)
    ensures Filter(terms, "", "all") == terms
  {
    if terms != [] {
      EmptySearchShowsAll(Init(terms));
      EmptyIsContained(Last(terms).term);
      assert Init(terms) + [Last(terms)] == terms;
    }
  }

  // ---------------------------------------------------------------------------
  // Category buttons
  // ---------------------------------------------------------------------------

  /** Terms of one category. */
  function CountIn(terms: seq<Term>, category: string): (n: nat)
    ensures n <= |terms|
  {
    if terms == [] then 0 else CountIn(Init(terms), category) + Indicator(Last(terms).category == category)
  }

  datatype CategoryButton = CategoryButton(id: string, name: string, count: nat)

  /** The count shown on a category button: all terms for `'all'`, otherwise
      the terms of that category. */
  function CategoryCount(terms: seq<Term>, id: string): nat
  {
    if id == "all" then |terms| else CountIn(terms, id)
  }

  /** `categories`: the five buttons in their fixed order. */
  function Categories(terms: seq<Term>): (r: seq<CategoryButton>)
    ensures |r| == 5 && r[0].id == "all" && r[0].count == |terms|
    ensures forall i :: 0 <= i < |r| ==> r[i].count == |Filter(terms, "", r[i].id)|
  {
    var ids := ["all", "general", "recintos", "conexiones", "servicios"];
    var names := ["Todos", "General", "Recintos", "Conexiones", "Servicios"];
    forall i | 0 <= i < 5 {
      CountMatchesEmptySearch(terms, ids[i]);
    }
    seq(5, i requires 0 <= i < 5 => CategoryButton(ids[i], names[i], CategoryCount(terms, ids[i])))
  }

  /** A category button counts exactly the terms that selecting it shows
      while the search box is empty. */
  lemma {:induction false} CountMatchesEmptySearch(terms: seq<Term>, id: string)
    ensures CategoryCount(terms, id) == |Filter(terms, "", id)|
  {
    if terms != [] {
      CountMatchesEmptySearch(Init(terms), id);
      EmptyIsContained(Last(terms).term);
    }
  }

  /** The four category counts never exceed the total, and add up to it when
      every term belongs to one of the four categories. */
  lemma {:induction false} CategoryCountsCover(terms: seq<Term>)
    ensures CountIn(terms, "general") + CountIn(terms, "recintos") + CountIn(terms, "conexiones")
            + CountIn(terms, "servicios") <= |terms|
    ensures (forall i :: 0 <= i < |terms| ==>
               terms[i].category in {"general", "recintos", "conexiones", "servicios"}) ==>
            CountIn(terms, "general") + CountIn(terms, "recintos") + CountIn(terms, "conexiones")
            + CountIn(terms, "servicios") == |terms|
  {
    if terms != [] {
      CategoryCountsCover(Init(terms));
      var c := Last(terms).category;
      assert "general" != "recintos" && "general" != "conexiones" && "general" != "servicios";
      assert "recintos" != "conexiones" && "recintos" != "servicios" && "conexiones" != "servicios";
      if forall i :: 0 <= i < |terms| ==> terms[i].category in {"general", "recintos", "conexiones", "servicios"} {
        assert forall i :: 0 <= i < |Init(terms)| ==> Init(terms)[i] == terms[i];
        assert c == terms[|terms| - 1].category;
      }
    }
  }

  // ---------------------------------------------------------------------------
  // Letter sections and the alphabet bar
  // ---------------------------------------------------------------------------

  /** Every term has a first character (the grouping reads `term.term[0]`). */
  predicate Named(terms: seq<Term>)
  {
    forall i :: 0 <= i < |terms| ==> terms[i].term != []
  }

  /** The section a term is listed under: its first character, upper-cased. */
  function Initial(t: Term): char
    requires t.term != []
  {
    UpperChar(t.term[0])
  }

  /** The terms, in order, whose initial is `letter`. */
  function Bucket(terms: seq<Term>, letter: char): (r: seq<Term>)
    requires Named(terms)
    ensures forall t :: t in r <==> t in terms && Initial(t) == letter
  {
    if terms == [] then []
    else
      assert Named(Init(terms)) && Last(terms).term != [];
      var r := Bucket(Init(terms), letter);
      assert forall t :: t in terms <==> t in Init(terms) || t == Last(terms);
      if Initial(Last(terms)) == letter then r + [Last(terms)] else r
  }

  /** `termsByLetter`: the `reduce` that appends each term, in turn, to the
      list under its initial, creating the list on first use. */
  function Group(terms: seq<Term>): (m: map<char, seq<Term>>)
    requires Named(terms)
    ensures forall c :: c in m ==> m[c] != []
    ensures |m| <= |terms|
  {
    if terms == [] then map[]
    else
      assert Named(Init(terms)) && Last(terms).term != [];
      var m := Group(Init(terms));
      var k := Initial(Last(terms));
      m[k := (if k in m then m[k] else []) + [Last(terms)]]
  }

  /** The sections partition the terms: a letter has a section iff some term
      starts with it, and that section holds exactly the terms with that
      initial, in their original order. */
  lemma {:induction false} GroupIsBuckets(terms: seq<Term>, letter: char)
    requires Named(terms)
    ensures letter in Group(terms) <==> Bucket(terms, letter) != []
    ensures letter in Group(terms) ==> Group(terms)[letter] == Bucket(terms, letter)
  {
    if terms != [] {
      assert Named(Init(terms));
      GroupIsBuckets(Init(terms), letter);
    }
  }

  /** The alphabet bar's `hasTerms`: some shown term, upper-cased, starts
      with the letter. */
  predicate HasTerms(shown: seq<Term>, letter: char)
  {
    exists i :: 0 <= i < |shown| && StartsWith(Upper(shown[i].term), [letter])
  }

  /** A letter button is enabled exactly when the list has a section for it. */
  lemma LetterEnabledIffSection(shown: seq<Term>, letter: char)
    requires Named(shown)
    ensures HasTerms(shown, letter) <==> letter in Group(shown)
  {
    GroupIsBuckets(shown, letter);
    if HasTerms(shown, letter) {
      var i :| 0 <= i < |shown| && StartsWith(Upper(shown[i].term), [letter]);
      assert Upper(shown[i].term)[0] == letter;
      assert shown[i] in Bucket(shown, letter);
    }
    if letter in Group(shown) {
      var t := Bucket(shown, letter)[0];
      assert t in shown;
      var i :| 0 <= i < |shown| && shown[i] == t;
      assert Upper(t.term)[..1] == [letter];
    }
  }

  // ---------------------------------------------------------------------------
  // Result count
  // ---------------------------------------------------------------------------

  function Plural(n: nat): string
  {
    if n != 1 then "s" else ""
  }

  /** The words after the count. */
  function ResultWords(n: nat): string
  {
    " término" + Plural(n) + " encontrado" + Plural(n)
  }

  lemma ResultWordsEndings(n: nat)
    ensures n == 1 ==> ResultWords(n) == " término encontrado"
    ensures n != 1 ==> ResultWords(n) == " términos encontrados"
  {
  }

  /** The result line, e.g. `3 términos encontrados` or `1 término encontrado`. */
  function ResultCountText(n: nat): (t: string)
    ensures StartsWith(t, Decimal(n))
    ensures EndsWith(t, "s") <==> n != 1
    ensures EndsWith(t, "términos encontrados") <==> n != 1
  {
    var d, w := Decimal(n), ResultWords(n);
    assert (d + w)[..|d|] == d;
    ResultEndings(d, n);
    d + w
  }

  /** The plural endings appear after any prefix exactly when the count is not one. */
  lemma ResultEndings(d: string, n: nat)
    ensures EndsWith(d + ResultWords(n), "s") <==> n != 1
    ensures EndsWith(d + ResultWords(n), "términos encontrados") <==> n != 1
  {
    var w := ResultWords(n);
    ResultWordsEndings(n);
    EndsWithAppend(d, w, "s");
    if n != 1 {
      EndsWithAppend(d, w, "términos encontrados");
    } else {
      var t := d + w;
      assert t[|t| - 1] == 'o';
    }
  }

  /** A short enough ending of a concatenation is an ending of its second part. */
  lemma EndsWithAppend(a: string, b: string, e: string)
    requires |e| <= |b|
    ensures EndsWith(a + b, e) <==> EndsWith(b, e)
  {
    assert (a + b)[|a + b| - |e|..] == b[|b| - |e|..];
  }
}

=== FILE: mock_exam.dfy ===
/** The timed mock exam: a setup form, a drawn set of questions, a countdown
    that can be paused, an answer per question id and a result summary. The
    shuffle and the clock are inputs. */
module MockExam {
  import opened Common
  import opened ExamQuestions
  import opened TimeFormat

  datatype ExamState = Setup | Running | Paused | Completed

  /** Minutes, number of questions, `'mixed'` or a difficulty, `'all'` or a
      chapter search term. */
  datatype ExamConfig = ExamConfig(duration: nat, questionCount: nat, difficulty: string, chapters: string)

  const DefaultConfig: ExamConfig := ExamConfig(60, 20, "mixed", "all")

  function DifficultyFilter(config: ExamConfig): DifficultyCriterion
  {
    if config.difficulty == "mixed" then AnyDifficulty else DifficultyIs(config.difficulty)
  }

  /** The chapter filter as the page writes it: the label must contain the
      term, ignoring case only. */
  function ChapterFilter(config: ExamConfig): ChapterCriterion
  {
    if config.chapters == "all" then AnyChapter else ChapterContains(config.chapters)
  }

  /** The questions `generateExamQuestions` may draw: the difficulty filter,
      then the chapter filter, each skipped for its catch-all value. */
  function Available(pool: seq<Question>, config: ExamConfig): (r: seq<Question>)
    ensures |r| <= |pool|
    ensures forall q :: q in r <==> q in pool && Keeps(q, DifficultyFilter(config), ChapterFilter(config))
  {
    var byDifficulty := if config.difficulty != "mixed" then Select(pool, DifficultyIs(config.difficulty), AnyChapter) else pool;
    if config.chapters != "all" then Select(byDifficulty, AnyDifficulty, ChapterContains(config.chapters))
    else byDifficulty
  }

  /** The draw as the chapter options evidently intend it: the chapter term
      is also compared ignoring the accents of Spanish vowels. */
  function AvailableIntended(pool: seq<Question>, config: ExamConfig): (r: seq<Question>)
    ensures forall q :: q in r ==> q in pool && (config.difficulty != "mixed" ==> q.difficulty == config.difficulty)
    ensures config.chapters == "all" ==> r == Available(pool, config)
  {
    SelectAll(pool);
    var dc := DifficultyFilter(config);
    if config.chapters == "all" then Select(pool, dc, AnyChapter)
    else Select(pool, dc, ChapterContainsFolded(config.chapters))
  }

  /** A one-question pool holding a question of chapter I. */
  const ChapterOnePool: seq<Question> := [Question(1, "easy", "Capítulo I", 0)]

  /** The "Solo Capítulos" option as written draws nothing from a pool of
      chapter questions. */
  lemma ChapterOptionDrawsNothing()
    ensures Available(ChapterOnePool, ExamConfig(60, 20, "mixed", "capitulo")) == []
  {
    ChapterOptionMissesAccentedLabel();
    var q := ChapterOnePool[0];
    assert !Keeps(q, AnyDifficulty, ChapterContains("capitulo"));
    assert Init(ChapterOnePool) == [];
  }

  /** The intended draw keeps every question the written one keeps, and the
      "Solo Capítulos" option then finds the chapter questions. */
  lemma AvailableIntendedKeepsMore(pool: seq<Question>, config: ExamConfig)
    ensures forall q :: q in Available(pool, config) ==> q in AvailableIntended(pool, config)
    ensures AvailableIntended(ChapterOnePool, ExamConfig(60, 20, "mixed", "capitulo")) == ChapterOnePool
  {
    AvailableIsOneFilter(pool, config);
    forall q | q in Available(pool, config)
      ensures q in AvailableIntended(pool, config)
    {
      if config.chapters != "all" {
        FoldingKeepsMatches(q.chapter, config.chapters);
      }
    }
    ChapterOptionFindsFoldedLabel();
    var q := ChapterOnePool[0];
    assert Keeps(q, AnyDifficulty, ChapterContainsFolded("capitulo"));
    assert Init(ChapterOnePool) == [];
  }

  /** The two filters in turn keep exactly the questions meeting both. */
  lemma {:induction false} AvailableIsOneFilter(pool: seq<Question>, config: ExamConfig)
    ensures Available(pool, config) == Select(pool, DifficultyFilter(config), ChapterFilter(config))
  {
    var dc, cc := DifficultyFilter(config), ChapterFilter(config);
    SelectInTwoPasses(pool, dc, cc);
    SelectAll(pool);
    if dc == AnyDifficulty && cc != AnyChapter {
      SelectInTwoPasses(pool, AnyDifficulty, cc);
    }
    if cc == AnyChapter {
      SelectAll(Select(pool, dc, AnyChapter));
      SelectInTwoPasses(pool, dc, AnyChapter);
    }
  }

  /** `shuffled.slice(0, Math.min(questionCount, shuffled.length))` */
  function Drawn(shuffled: seq<Question>, count: nat): (r: seq<Question>)
    ensures |r| == Min(count, |shuffled|)
    ensures multiset(r) <= multiset(shuffled)
  {
    var r := shuffled[..Min(count, |shuffled|)];
    assert shuffled == r + shuffled[|r|..];
    r
  }

  /** Whatever the shuffle, the exam has `min(questionCount, #matching)`
      questions and every one of them meets the configured filters. */
  lemma DrawnQuestionsMatch(pool: seq<Question>, config: ExamConfig, shuffled: seq<Question>)
    requires multiset(shuffled) == multiset(Available(pool, config))
    ensures |Drawn(shuffled, config.questionCount)| == Min(config.questionCount, |Available(pool, config)|)
    ensures forall q :: q in Drawn(shuffled, config.questionCount) ==>
              q in pool && Keeps(q, DifficultyFilter(config), ChapterFilter(config))
  {
    AvailableIsOneFilter(pool, config);
    assert |shuffled| == |multiset(shuffled)| == |Available(pool, config)|;
    forall q | q in Drawn(shuffled, config.questionCount)
      ensures q in Available(pool, config)
    {
      assert q in multiset(Drawn(shuffled, config.questionCount));
      assert q in multiset(Available(pool, config));
    }
  }

  // ---------------------------------------------------------------------------
  // Navigation
  // ---------------------------------------------------------------------------

  /** "Siguiente" as written: enabled unless the index is `length - 1`, and
      then `Math.min(length - 1, index + 1)`. */
  function NextIndexAsWritten(index: int, count: nat): (r: int)
    ensures 0 <= index < count ==> index <= r < count
    ensures count == 0 && index >= 0 ==> r == -1
  {
    if index == count - 1 then index else Min(count - 1, index + 1)
  }

  /** On an exam with no questions the button is enabled and moves the index
      to -1. */
  lemma NextOnEmptyExamAsWritten()
    ensures NextIndexAsWritten(0, 0) == -1
  {
  }

  /** "Siguiente" kept within the exam: it advances only while a next
      question exists. */
  function NextIndex(index: int, count: nat): (r: int)
    ensures 0 <= index <= Max(0, count - 1) ==> 0 <= r <= Max(0, count - 1)
    ensures 0 <= index < count ==> r == NextIndexAsWritten(index, count)
  {
    if index + 1 < count then index + 1 else index
  }

  /** "Anterior": enabled unless the index is 0, then `Math.max(0, index - 1)`. */
  function PreviousIndex(index: int): (r: int)
    ensures index >= 0 ==> 0 <= r <= index
    ensures index > 0 ==> r == index - 1
  {
    if index == 0 then index else Max(0, index - 1)
  }

  // ---------------------------------------------------------------------------
  // Results
  // ---------------------------------------------------------------------------

  /** Questions of the exam with an entry in `answers`. */
  function AnsweredCount(qs: seq<Question>, answers: map<int, int>): (n: nat)
    ensures n <= |qs|
  {
    if qs == [] then 0 else AnsweredCount(Init(qs), answers) + Indicator(Last(qs).id in answers)
  }

  /** Questions whose entry is the correct option. */
  function CorrectCount(qs: seq<Question>, answers: map<int, int>): (n: nat)
    ensures n <= AnsweredCount(qs, answers)
  {
    if qs == [] then 0
    else CorrectCount(Init(qs), answers) + Indicator(Last(qs).id in answers && answers[Last(qs).id] == Last(qs).correct)
  }

  /** Recording an answer never lowers the number of answered questions. */
  lemma {:induction false} AnsweringIsMonotone(qs: seq<Question>, answers: map<int, int>, id: int, choice: int)
    ensures AnsweredCount(qs, answers) <= AnsweredCount(qs, answers[id := choice])
    ensures id in answers ==> AnsweredCount(qs, answers) == AnsweredCount(qs, answers[id := choice])
  {
    if qs != [] {
      AnsweringIsMonotone(Init(qs), answers, id, choice);
    }
  }

  datatype QuestionStatus = Answered | Unanswered

  /** `getQuestionStatus`: a position outside the exam counts as unanswered. */
  function StatusOf(qs: seq<Question>, answers: map<int, int>, i: int): (s: QuestionStatus)
    ensures s == Answered <==> 0 <= i < |qs| && qs[i].id in answers
  {
    if 0 <= i < |qs| && qs[i].id in answers then Answered else Unanswered
  }

  /** The answered count reaches the number of questions exactly when the
      question grid shows every position as answered. */
  lemma {:induction false} AllAnsweredIffCountFull(qs: seq<Question>, answers: map<int, int>)
    ensures AnsweredCount(qs, answers) == |qs| <==>
            forall i :: 0 <= i < |qs| ==> StatusOf(qs, answers, i) == Answered
  {
    if qs != [] {
      var init := Init(qs);
      AllAnsweredIffCountFull(init, answers);
      assert forall i :: 0 <= i < |init| ==> StatusOf(init, answers, i) == StatusOf(qs, answers, i);
      assert StatusOf(qs, answers, |qs| - 1) == Answered <==> Last(qs).id in answers;
    }
  }

  /** The summary `getResults` returns. */
  datatype ExamResults = ExamResults(
    correct: nat,
    incorrect: nat,
    unanswered: nat,
    answered: nat,
    total: nat,
    percentage: nat,
    totalPercentage: nat,
    timeSpent: int,
    passed: bool)

  class Exam {
    var state: ExamState
    var index: int
    var answers: map<int, int>
    var timeLeft: int
    var startTime: Option<int>
    var config: ExamConfig
    var questions: seq<Question>

    /** The index stays on a question, except on an empty exam where it is 0
        or the -1 that "Siguiente" sets; the clock is never negative, and
        outside the setup screen it never exceeds the configured duration. */
    ghost predicate Valid()
      reads this
    {
      && (if questions == [] then -1 <= index <= 0 else 0 <= index < |questions|)
      && 0 <= timeLeft
      && (state != Setup ==> timeLeft <= config.duration * 60)
    }

    constructor()
      ensures state == Setup && index == 0 && answers == map[] && timeLeft == 3600
      ensures startTime == None && config == DefaultConfig && questions == []
      ensures Valid()
    {
      state := Setup;
      index := 0;
      answers := map[];
      timeLeft := 3600;
      startTime := None;
      config := DefaultConfig;
      questions := [];
    }

    /** The selects of the setup screen. */
    method Configure(c: ExamConfig)
      requires Valid() && state == Setup
      modifies this
      ensures Valid()
      ensures config == c
      ensures state == old(state) && index == old(index) && answers == old(answers)
      ensures timeLeft == old(timeLeft) && startTime == old(startTime) && questions == old(questions)
    {
      config := c;
    }

    /** `startExam`; `shuffled` is the random order of the available questions. */
    method StartExam(pool: seq<Question>, shuffled: seq<Question>, nowMs: int)
      requires Valid()
      requires multiset(shuffled) == multiset(Available(pool, config))
      modifies this
      ensures Valid()
      ensures questions == Drawn(shuffled, config.questionCount)
      ensures state == Running && index == 0 && answers == map[]
      ensures timeLeft == config.duration * 60 && startTime == Some(nowMs)
      ensures config == old(config)
    {
      questions := Drawn(shuffled, config.questionCount);
      timeLeft := config.duration * 60;
      startTime := Some(nowMs);
      state := Running;
      index := 0;
      answers := map[];
    }

    /** The pause button, shown while the exam runs. */
    method PauseExam()
      requires Valid() && state == Running
      modifies this
      ensures Valid()
      ensures state == Paused
      ensures index == old(index) && answers == old(answers) && timeLeft == old(timeLeft)
      ensures startTime == old(startTime) && config == old(config) && questions == old(questions)
    {
      state := Paused;
    }

    /** The resume button, shown instead while the exam is paused. */
    method ResumeExam()
      requires Valid() && state == Paused
      modifies this
      ensures Valid()
      ensures state == Running
      ensures index == old(index) && answers == old(answers) && timeLeft == old(timeLeft)
      ensures startTime == old(startTime) && config == old(config) && questions == old(questions)
    {
      state := Running;
    }

    /** The finish button of the exam screen. */
    method FinishExam()
      requires Valid() && (state == Running || state == Paused)
      modifies this
      ensures Valid()
      ensures state == Completed
      ensures index == old(index) && answers == old(answers) && timeLeft == old(timeLeft)
      ensures startTime == old(startTime) && config == old(config) && questions == old(questions)
    {
      state := Completed;
    }

    /** `restartExam`: back to the setup screen with a full clock and no
        answers; the drawn questions stay until the next start. */
    method RestartExam()
      requires Valid()
      modifies this
      ensures Valid()
      ensures state == Setup && index == 0 && answers == map[]
      ensures timeLeft == config.duration * 60 && startTime == None
      ensures config == old(config) && questions == old(questions)
    {
      state := Setup;
      index := 0;
      answers := map[];
      timeLeft := config.duration * 60;
      startTime := None;
    }

    /** One run of the timer effect: a second passes while running with time
        left; at zero a running exam completes; otherwise nothing happens. */
    method Tick()
      requires Valid()
      modifies this
      ensures Valid()
      ensures old(state) == Running && old(timeLeft) > 0 ==> timeLeft == old(timeLeft) - 1 && state == Running
      ensures old(state) == Running && old(timeLeft) == 0 ==> timeLeft == 0 && state == Completed
      ensures old(state) != Running ==> timeLeft == old(timeLeft) && state == old(state)
      ensures index == old(index) && answers == old(answers) && startTime == old(startTime)
      ensures config == old(config) && questions == old(questions)
    {
      if state == Running && timeLeft > 0 {
        timeLeft := timeLeft - 1;
      } else if timeLeft == 0 && state == Running {
        state := Completed;
      }
    }

    /** `handleAnswerSelect`: records the choice for one question id and
        leaves every other entry alone. */
    method SelectAnswer(questionId: int, choice: int)
      requires Valid()
      modifies this
      ensures Valid()
      ensures answers == old(answers)[questionId := choice]
      ensures forall id :: id != questionId && id in old(answers) ==> id in answers && answers[id] == old(answers)[id]
      ensures state == old(state) && index == old(index) && timeLeft == old(timeLeft)
      ensures startTime == old(startTime) && config == old(config) && questions == old(questions)
    {
      answers := answers[questionId := choice];
    }

    /** A click on the question grid. */
    method NavigateTo(i: int)
      requires Valid() && 0 <= i < |questions|
      modifies this
      ensures Valid()
      ensures index == i
      ensures state == old(state) && answers == old(answers) && timeLeft == old(timeLeft)
      ensures startTime == old(startTime) && config == old(config) && questions == old(questions)
    {
      index := i;
    }

    method Previous()
      requires Valid()
      modifies this
      ensures Valid()
      ensures index == PreviousIndex(old(index))
      ensures state == old(state) && answers == old(answers) && timeLeft == old(timeLeft)
      ensures startTime == old(startTime) && config == old(config) && questions == old(questions)
    {
      index := PreviousIndex(index);
    }

    /** "Siguiente" as the page writes it: on a question it moves as the
        corrected `NextIndex` does, and on an empty exam it sets -1. */
    method Next()
      requires Valid()
      modifies this
      ensures Valid()
      ensures index == NextIndexAsWritten(old(index), |questions|)
      ensures questions != [] ==> index == NextIndex(old(index), |questions|)
      ensures questions == [] ==> index == -1
      ensures state == old(state) && answers == old(answers) && timeLeft == old(timeLeft)
      ensures startTime == old(startTime) && config == old(config) && questions == old(questions)
    {
      index := NextIndexAsWritten(index, |questions|);
    }

    /** `getResults`: counts the answered and the correct questions in one
        pass and derives the rest. */
    method Results() returns (r: ExamResults)
      requires Valid()
      ensures r.answered == AnsweredCount(questions, answers) && r.correct == CorrectCount(questions, answers)
      ensures r.total == |questions|
      ensures r.correct + r.incorrect == r.answered && r.answered + r.unanswered == r.total
      ensures r.percentage == if r.answered > 0 then RoundPercent(r.correct, r.answered) else 0
      ensures r.totalPercentage == if r.total > 0 then RoundPercent(r.correct, r.total) else 0
      ensures r.percentage <= 100 && r.totalPercentage <= 100
      ensures r.passed <==> r.totalPercentage >= 60
      ensures r.timeSpent == config.duration * 60 - timeLeft
      ensures state != Setup ==> 0 <= r.timeSpent <= config.duration * 60
    {
      var correct, answered := 0, 0;
      var i := 0;
      while i < |questions|
        invariant 0 <= i <= |questions|
        invariant answered == AnsweredCount(questions[..i], answers)
        invariant correct == CorrectCount(questions[..i], answers)
      {
        assert Init(questions[..i + 1]) == questions[..i];
        var q := questions[i];
        if q.id in answers {
          answered := answered + 1;
          if answers[q.id] == q.correct {
            correct := correct + 1;
          }
        }
        i := i + 1;
      }
      assert questions[..i] == questions;
      var percentage := if answered > 0 then RoundPercent(correct, answered) else 0;
      var totalPercentage := if |questions| > 0 then RoundPercent(correct, |questions|) else 0;
      if answered > 0 {
        RoundPercentAtMost100(correct, answered);
      }
      if |questions| > 0 {
        RoundPercentAtMost100(correct, |questions|);
      }
      r := ExamResults(correct, answered - correct, |questions| - answered, answered, |questions|,
                       percentage, totalPercentage, config.duration * 60 - timeLeft, totalPercentage >= 60);
    }
  }

  /** The clock of the exam screen. */
  function FormatTime(seconds: nat): (t: string)
    ensures ParseClock(t) == seconds
  {
    ClockRoundTrip(seconds);
    FormatClock(seconds)
  }
}

=== FILE: practice_quiz.dfy ===
/** The practice quiz: one question at a time with a three-minute countdown,
    an explanation after each answer or time-out, and a log of the attempts
    from which the final score is computed. */
module PracticeQuiz {
  import opened Common
  import opened ExamQuestions
  import opened TimeFormat

  /** Seconds allowed per question. */
  const QuestionSeconds: nat := 180

  function QuizDifficulty(difficulty: string): DifficultyCriterion
  {
    if difficulty == "all" then AnyDifficulty else DifficultyIs(difficulty)
  }

  function QuizChapter(chapter: string): ChapterCriterion
  {
    if chapter == "all" then AnyChapter else ChapterContains(chapter)
  }

  /** The quiz's question list: the exam questions, in order, whose difficulty
      is the chosen one (or any, for `'all'`) and whose chapter contains the
      chosen term ignoring case (or any, for `'all'`). */
  lemma QuizQuestions(pool: seq<Question>, difficulty: string, chapter: string, q: Question)
    ensures q in Select(pool, QuizDifficulty(difficulty), QuizChapter(chapter)) <==>
            && q in pool
            && (difficulty == "all" || q.difficulty == difficulty)
            && (chapter == "all" || ContainsIgnoringCase(q.chapter, chapter))
    ensures difficulty == "all" && chapter == "all" ==>
            Select(pool, QuizDifficulty(difficulty), QuizChapter(chapter)) == pool
  {
    SelectAll(pool);
  }

  /** One entry of the `answers` log. A time-out has no selection and no
      verdict; a confirmed answer has both and the seconds it took. */
  datatype Attempt = Attempt(
    questionId: int,
    selected: Option<int>,
    correct: int,
    isCorrect: Option<bool>,
    timeSpent: Option<int>,
    timeUp: bool)

  /** Attempts judged correct. */
  function CorrectAttempts(log: seq<Attempt>): (n: nat)
    ensures n <= |log|
  {
    if log == [] then 0 else CorrectAttempts(Init(log)) + Indicator(Last(log).isCorrect == Some(true))
  }

  lemma CorrectAttemptsAppend(log: seq<Attempt>, a: Attempt)
    ensures CorrectAttempts(log + [a]) == CorrectAttempts(log) + Indicator(a.isCorrect == Some(true))
  {
    assert Init(log + [a]) == log;
  }

  datatype QuizResults = QuizResults(correct: nat, total: nat, percentage: Option<nat>)

  /** `getResults`; with no attempts the percentage is `NaN`, here `None`. */
  function Results(log: seq<Attempt>): (r: QuizResults)
    ensures r.correct == CorrectAttempts(log) && r.total == |log|
    ensures r.percentage.None? <==> |log| == 0
    ensures r.percentage.Some? ==> r.percentage.value <= 100
  {
    var correct := CorrectAttempts(log);
    if |log| == 0 then QuizResults(correct, 0, None)
    else
      RoundPercentAtMost100(correct, |log|);
      QuizResults(correct, |log|, Some(RoundPercent(correct, |log|)))
  }

  /** A time-out never raises the score; a correct confirmation raises it by
      one, an incorrect one leaves it. */
  lemma ResultsAfterAttempt(log: seq<Attempt>, a: Attempt)
    ensures Results(log + [a]).total == Results(log).total + 1
    ensures a.timeUp && a.isCorrect.None? ==> Results(log + [a]).correct == Results(log).correct
    ensures a.isCorrect == Some(true) ==> Results(log + [a]).correct == Results(log).correct + 1
    ensures a.isCorrect == Some(false) ==> Results(log + [a]).correct == Results(log).correct
  {
    CorrectAttemptsAppend(log, a);
  }

  /** The quiz's clock text, `m:ss`. */
  function FormatTime(seconds: nat): (t: string)
    ensures ParseClock(t) == seconds
  {
    MinSecRoundTrip(seconds);
    FormatMinSec(seconds)
  }

  class Quiz {
    const questions: seq<Question>
    var index: int
    var selected: Option<int>
    var showExplanation: bool
    var log: seq<Attempt>
    var timeLeft: int
    var timerActive: bool
    var completed: bool

    /** The index stays on a question (on 0 when there is none) and the clock
        within the three minutes. */
    ghost predicate Valid()
      reads this
    {
      && 0 <= index <= Max(0, |questions| - 1)
      && 0 <= timeLeft <= QuestionSeconds
    }

    /** The page as first shown, with the difficulty and chapter choices. */
    constructor(pool: seq<Question>, difficulty: string, chapter: string)
      ensures questions == Select(pool, QuizDifficulty(difficulty), QuizChapter(chapter))
      ensures index == 0 && selected == None && !showExplanation && log == []
      ensures timeLeft == QuestionSeconds && timerActive && !completed
      ensures Valid()
    {
      questions := Select(pool, QuizDifficulty(difficulty), QuizChapter(chapter));
      index := 0;
      selected := None;
      showExplanation := false;
      log := [];
      timeLeft := QuestionSeconds;
      timerActive := true;
      completed := false;
    }

    /** One run of the timer effect. A second passes while the timer is active,
        time is left and no explanation is shown. At zero, without an
        explanation, the question times out: the timer stops, the explanation
        shows and an attempt with no selection is logged. With no question on
        screen the time-out throws (`crashed`) and nothing changes. */
    method Tick() returns (crashed: bool)
      requires Valid()
      modifies this
      ensures Valid()
      ensures crashed <==> old(timeLeft) == 0 && !old(showExplanation) && index >= |questions|
      ensures old(timerActive) && old(timeLeft) > 0 && !old(showExplanation) ==>
        && !crashed && timeLeft == old(timeLeft) - 1 && timerActive == old(timerActive)
        && log == old(log) && showExplanation == old(showExplanation)
      ensures old(timeLeft) == 0 && !old(showExplanation) && !crashed ==>
        && log == old(log) + [Attempt(questions[index].id, None, questions[index].correct, None, None, true)]
        && !timerActive && showExplanation && timeLeft == 0
      ensures index == old(index) && selected == old(selected) && completed == old(completed)
      ensures (crashed || old(showExplanation) || (old(timeLeft) > 0 && !old(timerActive))) ==>
        log == old(log) && timeLeft == old(timeLeft) && showExplanation == old(showExplanation)
        && timerActive == old(timerActive)
    {
      crashed := false;
      if timerActive && timeLeft > 0 && !showExplanation {
        timeLeft := timeLeft - 1;
      } else if timeLeft == 0 && !showExplanation {
        if index >= |questions| {
          return true;
        }
        var q := questions[index];
        timerActive := false;
        showExplanation := true;
        log := log + [Attempt(q.id, None, q.correct, None, None, true)];
      }
    }

    /** `handleAnswerSelect`: ignored once the explanation shows. */
    method SelectAnswer(choice: int)
      requires Valid()
      modifies this
      ensures Valid()
      ensures selected == if old(showExplanation) then old(selected) else Some(choice)
      ensures index == old(index) && showExplanation == old(showExplanation) && log == old(log)
      ensures timeLeft == old(timeLeft) && timerActive == old(timerActive) && completed == old(completed)
    {
      if showExplanation {
        return;
      }
      selected := Some(choice);
    }

    /** `handleConfirmAnswer`, offered on a question screen: without a
        selection nothing happens; otherwise the timer stops, the explanation
        shows and exactly one attempt is logged with its verdict and the
        seconds used. */
    method ConfirmAnswer()
      requires Valid() && 0 <= index < |questions|
      modifies this
      ensures Valid()
      ensures old(selected).None? ==>
        log == old(log) && showExplanation == old(showExplanation) && timerActive == old(timerActive)
      ensures old(selected).Some? ==>
        var q := questions[index];
        && log == old(log) + [Attempt(q.id, old(selected), q.correct, Some(old(selected).value == q.correct),
                                      Some(QuestionSeconds - old(timeLeft)), false)]
        && !timerActive && showExplanation
      ensures index == old(index) && selected == old(selected) && timeLeft == old(timeLeft)
      ensures completed == old(completed)
    {
      if selected.None? {
        return;
      }
      var q := questions[index];
      timerActive := false;
      showExplanation := true;
      log := log + [Attempt(q.id, selected, q.correct, Some(selected.value == q.correct),
                            Some(QuestionSeconds - timeLeft), false)];
    }

    /** `handleNextQuestion`: moves on with a fresh question state, or at the
        last question ends the quiz in place. */
    method NextQuestion()
      requires Valid()
      modifies this
      ensures Valid()
      ensures old(index) < |questions| - 1 ==>
        && index == old(index) + 1 && selected == None && !showExplanation
        && timeLeft == QuestionSeconds && timerActive && completed == old(completed)
      ensures old(index) >= |questions| - 1 ==>
        && completed && index == old(index) && selected == old(selected)
        && showExplanation == old(showExplanation) && timeLeft == old(timeLeft) && timerActive == old(timerActive)
      ensures log == old(log)
    {
      if index < |questions| - 1 {
        index := index + 1;
        selected := None;
        showExplanation := false;
        timeLeft := QuestionSeconds;
        timerActive := true;
      } else {
        completed := true;
      }
    }

    /** `handlePreviousQuestion`: a no-op on the first question. */
    method PreviousQuestion()
      requires Valid()
      modifies this
      ensures Valid()
      ensures old(index) > 0 ==>
        && index == old(index) - 1 && selected == None && !showExplanation
        && timeLeft == QuestionSeconds && timerActive
      ensures old(index) == 0 ==>
        && index == 0 && selected == old(selected) && showExplanation == old(showExplanation)
        && timeLeft == old(timeLeft) && timerActive == old(timerActive)
      ensures log == old(log) && completed == old(completed)
    {
      if index > 0 {
        index := index - 1;
        selected := None;
        showExplanation := false;
        timeLeft := QuestionSeconds;
        timerActive := true;
      }
    }

    /** `resetTest` */
    method ResetTest()
      requires Valid()
      modifies this
      ensures Valid()
      ensures index == 0 && selected == None && !showExplanation && log == []
      ensures timeLeft == QuestionSeconds && timerActive && !completed
    {
      index := 0;
      selected := None;
      showExplanation := false;
      log := [];
      timeLeft := QuestionSeconds;
      timerActive := true;
      completed := false;
    }
  }
}

=== FILE: profile.dfy ===
/** The persisted learner profile of the adaptive-learning system and the pure
    rules it is updated by: how a quiz session is tallied, which level a
    session earns, how weak and strong topics are tracked, how per-topic
    mastery is recomputed and how the daily streak moves.

    Clock values are abstracted: an `Instant` carries a moment in milliseconds
    and the local calendar day it falls on (what `toDateString` compares). */
module Profile {
  import opened Common

  datatype Level = Beginner | Intermediate | Advanced

  /** Position of a level in the order beginner < intermediate < advanced. */
  function LevelRank(l: Level): nat
  {
    match l
    case Beginner => 0
    case Intermediate => 1
    case Advanced => 2
  }

  datatype Instant = Instant(ms: int, day: int)

  /** One entry of `chapterProgress`. */
  datatype TopicProgress = TopicProgress(
    questionsAnswered: nat,
    correctAnswers: nat,
    lastStudied: Option<int>,
    mastery: nat)

  datatype UserProfile = UserProfile(
    level: Level,
    studyTime: nat,                  // minutes
    questionsAnswered: nat,
    correctAnswers: nat,
    chapterProgress: map<string, TopicProgress>,
    weakTopics: seq<string>,
    strongTopics: seq<string>,
    examDate: Option<int>,           // milliseconds
    studyGoal: string,
    lastActivity: Option<Instant>,
    streakDays: nat)

  /** What every profile the system builds satisfies: no more correct answers
      than answers, duplicate-free topic lists and consistent chapter entries. */
  predicate WellFormedProfile(p: UserProfile)
  {
    && p.correctAnswers <= p.questionsAnswered
    && NoDuplicates(p.weakTopics) && NoDuplicates(p.strongTopics)
    && ProgressConsistent(p.chapterProgress)
  }

  /** The record created on first run and by `resetProgress`. */
  const DefaultProfile: UserProfile :=
    UserProfile(Beginner, 0, 0, 0, map[], [], [], None, "general", None, 0)

  // ---------------------------------------------------------------------------
  // Session answers and their tallies
  // ---------------------------------------------------------------------------

  /** One answered question as the quiz pages hand it over. The empty string
      stands for a missing (falsy) `chapter` or `difficulty`, and 0 for a
      missing `timeSpent`. */
  datatype Answer = Answer(isCorrect: bool, chapter: string, difficulty: string, timeSpent: int)

  /** A quiz session: its answers (`answers || []`) and its minutes (`timeSpent || 0`). */
  datatype Session = Session(answers: seq<Answer>, timeSpent: nat)

  datatype Tally = Tally(correct: nat, total: nat)

  function Plus(a: Tally, b: Tally): Tally
  {
    Tally(a.correct + b.correct, a.total + b.total)
  }

  datatype Speed = Fast | Normal | Slow

  function TopicOf(a: Answer): string
  {
    if a.chapter == "" then "unknown" else a.chapter
  }

  function DifficultyOf(a: Answer): string
  {
    if a.difficulty == "" then "medium" else a.difficulty
  }

  function TimeOf(a: Answer): int
  {
    if a.timeSpent == 0 then 60 else a.timeSpent
  }

  /** The buckets `< 30`, `30..120` and `> 120` seconds. */
  function SpeedOf(a: Answer): Speed
  {
    var t := TimeOf(a);
    if t < 30 then Fast else if t <= 120 then Normal else Slow
  }

  /** The three keys of `difficultyPerformance`. */
  datatype Difficulty = Easy | Medium | Hard

  /** The entry of `difficultyPerformance` an answer is counted under, or
      `None` when its difficulty names no entry. */
  function DifficultyKey(a: Answer): Option<Difficulty>
  {
    var d := DifficultyOf(a);
    if d == "easy" then Some(Easy)
    else if d == "medium" then Some(Medium)
    else if d == "hard" then Some(Hard)
    else None
  }

  function CountCorrect(s: seq<Answer>): (n: nat)
    ensures n <= |s|
  {
    if s == [] then 0 else CountCorrect(Init(s)) + Indicator(Last(s).isCorrect)
  }

  /** Number of answers of the session on topic `t`. */
  function TopicCount(s: seq<Answer>, t: string): (n: nat)
    ensures n <= |s|
  {
    if s == [] then 0 else TopicCount(Init(s), t) + Indicator(TopicOf(Last(s)) == t)
  }

  /** Number of correct answers of the session on topic `t`. */
  function TopicCorrect(s: seq<Answer>, t: string): (n: nat)
    ensures n <= TopicCount(s, t)
  {
    if s == [] then 0 else TopicCorrect(Init(s), t) + Indicator(TopicOf(Last(s)) == t && Last(s).isCorrect)
  }

  /** Correct and total answers of the session on topic `t`. */
  function TopicTally(s: seq<Answer>, t: string): (r: Tally)
    ensures r.correct <= r.total <= |s|
  {
    Tally(TopicCorrect(s, t), TopicCount(s, t))
  }

  function DifficultyCount(s: seq<Answer>, d: Difficulty): (n: nat)
    ensures n <= |s|
  {
    if s == [] then 0 else DifficultyCount(Init(s), d) + Indicator(DifficultyKey(Last(s)) == Some(d))
  }

  function DifficultyCorrect(s: seq<Answer>, d: Difficulty): (n: nat)
    ensures n <= DifficultyCount(s, d)
  {
    if s == [] then 0 else DifficultyCorrect(Init(s), d) + Indicator(DifficultyKey(Last(s)) == Some(d) && Last(s).isCorrect)
  }

  function DifficultyTally(s: seq<Answer>, d: Difficulty): (r: Tally)
    ensures r.correct <= r.total <= |s|
  {
    Tally(DifficultyCorrect(s, d), DifficultyCount(s, d))
  }

  function SpeedCount(s: seq<Answer>, b: Speed): (n: nat)
    ensures n <= |s|
  {
    if s == [] then 0 else SpeedCount(Init(s), b) + Indicator(SpeedOf(Last(s)) == b)
  }

  /** The session's topics in order of first appearance (the key order of
      `topicPerformance`). */
  function Topics(s: seq<Answer>): (r: seq<string>)
    ensures NoDuplicates(r)
    ensures forall t :: t in r <==> TopicTally(s, t).total > 0
  {
    if s == [] then []
    else
      var p := Topics(Init(s));
      var t := TopicOf(Last(s));
      if t in p then p else p + [t]
  }

  /** `topicPerformance` as a map. */
  function TopicMap(s: seq<Answer>): (m: map<string, Tally>)
    ensures m.Keys == set t | t in Topics(s)
  {
    map t | t in Topics(s) :: TopicTally(s, t)
  }

  /** The record `analyzePerformance` returns. */
  datatype Analysis = Analysis(
    totalQuestions: nat,
    correctAnswers: nat,
    incorrectAnswers: nat,
    topics: seq<string>,
    topicPerformance: map<string, Tally>,
    easy: Tally,
    medium: Tally,
    hard: Tally,
    fast: nat,
    normal: nat,
    slow: nat)

  /** `analyzePerformance` either returns its tallies or throws a TypeError at
      the first answer whose difficulty has no entry in the record. */
  datatype AnalysisOutcome = Analyzed(analysis: Analysis) | UnknownDifficulty(difficulty: string)

  predicate AllDifficultiesKnown(s: seq<Answer>)
  {
    forall i :: 0 <= i < |s| ==> DifficultyKey(s[i]).Some?
  }

  /** A known prefix followed by an answer of known difficulty is a known prefix. */
  lemma KnownPrefixGrows(s: seq<Answer>, i: nat)
    requires i < |s| && AllDifficultiesKnown(s[..i]) && DifficultyKey(s[i]).Some?
    ensures AllDifficultiesKnown(s[..i + 1])
  {
    assert forall j :: 0 <= j < i ==> s[..i + 1][j] == s[..i][j];
  }

  /** The analysis of a session whose difficulties are all known. */
  function AnalysisOf(s: seq<Answer>): (a: Analysis)
    ensures a.totalQuestions == |s| && a.correctAnswers + a.incorrectAnswers == |s|
  {
    var c := CountCorrect(s);
    Analysis(|s|, c, |s| - c, Topics(s), TopicMap(s),
             DifficultyTally(s, Easy), DifficultyTally(s, Medium), DifficultyTally(s, Hard),
             SpeedCount(s, Fast), SpeedCount(s, Normal), SpeedCount(s, Slow))
  }

  // ---------------------------------------------------------------------------
  // The tallies of a session are consistent
  // ---------------------------------------------------------------------------

  /** Number of answers on the topics `ts`. */
  function SumTopicCounts(ts: seq<string>, s: seq<Answer>): nat
  {
    if ts == [] then 0 else SumTopicCounts(Init(ts), s) + TopicCount(s, Last(ts))
  }

  /** Number of correct answers on the topics `ts`. */
  function SumTopicCorrect(ts: seq<string>, s: seq<Answer>): nat
  {
    if ts == [] then 0 else SumTopicCorrect(Init(ts), s) + TopicCorrect(s, Last(ts))
  }

  lemma TopicTallyAppend(s: seq<Answer>, a: Answer, t: string)
    ensures TopicCount(s + [a], t) == TopicCount(s, t) + Indicator(TopicOf(a) == t)
    ensures TopicCorrect(s + [a], t) == TopicCorrect(s, t) + Indicator(TopicOf(a) == t && a.isCorrect)
  {
    assert Init(s + [a]) == s;
  }

  lemma {:induction false} SumTopicTalliesStep(ts: seq<string>, s: seq<Answer>, a: Answer)
    requires NoDuplicates(ts)
    ensures SumTopicCounts(ts, s + [a]) == SumTopicCounts(ts, s) + Indicator(TopicOf(a) in ts)
    ensures SumTopicCorrect(ts, s + [a]) == SumTopicCorrect(ts, s) + Indicator(TopicOf(a) in ts && a.isCorrect)
  {
    if ts != [] {
      var init, last := Init(ts), Last(ts);
      assert ts == init + [last];
      SumTopicTalliesStep(init, s, a);
      TopicTallyAppend(s, a, last);
    }
  }

  /** The per-topic totals add up to the session: every answer is counted under
      exactly one topic. */
  lemma {:induction false} TopicTalliesAddUp(s: seq<Answer>)
    ensures SumTopicCounts(Topics(s), s) == |s|
    ensures SumTopicCorrect(Topics(s), s) == CountCorrect(s)
  {
    if s != [] {
      var p, a := Init(s), Last(s);
      assert s == p + [a];
      TopicTalliesAddUp(p);
      SumTopicTalliesStep(Topics(p), p, a);
      var t := TopicOf(a);
      if t !in Topics(p) {
        var ts := Topics(p) + [t];
        assert Topics(s) == ts;
        assert Init(ts) == Topics(p);
        TopicTallyAppend(p, a, t);
        assert TopicCount(p, t) == 0;
      }
    }
  }

  lemma DifficultyTallyAppend(s: seq<Answer>, a: Answer, d: Difficulty)
    ensures DifficultyCount(s + [a], d) == DifficultyCount(s, d) + Indicator(DifficultyKey(a) == Some(d))
    ensures DifficultyCorrect(s + [a], d) == DifficultyCorrect(s, d) + Indicator(DifficultyKey(a) == Some(d) && a.isCorrect)
  {
    assert Init(s + [a]) == s;
  }

  /** With every difficulty known, the three difficulty tallies cover the session. */
  lemma {:induction false} DifficultyTalliesAddUp(s: seq<Answer>)
    requires AllDifficultiesKnown(s)
    ensures DifficultyCount(s, Easy) + DifficultyCount(s, Medium) + DifficultyCount(s, Hard) == |s|
    ensures DifficultyCorrect(s, Easy) + DifficultyCorrect(s, Medium) + DifficultyCorrect(s, Hard)
            == CountCorrect(s)
  {
    if s != [] {
      var p, a := Init(s), Last(s);
      assert s == p + [a];
      assert AllDifficultiesKnown(p) by {
        forall i | 0 <= i < |p| ensures DifficultyKey(p[i]).Some? {
          assert p[i] == s[i];
        }
      }
      DifficultyTalliesAddUp(p);
      assert DifficultyKey(s[|s| - 1]).Some?;
      DifficultyTallyAppend(p, a, Easy);
      DifficultyTallyAppend(p, a, Medium);
      DifficultyTallyAppend(p, a, Hard);
    }
  }

  /** How one more answer changes the correct count, the topic list and the
      speed buckets: the step `analyzePerformance` takes per answer. */
  lemma SessionAppend(s: seq<Answer>, a: Answer)
    ensures CountCorrect(s + [a]) == CountCorrect(s) + Indicator(a.isCorrect)
    ensures Topics(s + [a]) == if TopicOf(a) in Topics(s) then Topics(s) else Topics(s) + [TopicOf(a)]
    ensures forall b :: SpeedCount(s + [a], b) == SpeedCount(s, b) + Indicator(SpeedOf(a) == b)
  {
    assert Init(s + [a]) == s;
  }

  /** One more answer changes the tally of its own topic only. */
  lemma TopicMapAppend(s: seq<Answer>, a: Answer)
    ensures TopicMap(s + [a]) == TopicMap(s)[TopicOf(a) := TopicTally(s + [a], TopicOf(a))]
  {
    SessionAppend(s, a);
    var t := TopicOf(a);
    var m, m' := TopicMap(s), TopicMap(s + [a]);
    var n := m[t := TopicTally(s + [a], t)];
    assert m'.Keys == n.Keys;
    forall x | x in m'
      ensures m'[x] == n[x]
    {
      TopicTallyAppend(s, a, x);
    }
  }

  /** The tally of `t` (created empty when missing) with one more answer, `c`
      of them correct. */
  function CountUnder(m: map<string, Tally>, t: string, c: nat): map<string, Tally>
  {
    var prev := if t in m then m[t] else Tally(0, 0);
    m[t := Tally(prev.correct + c, prev.total + 1)]
  }

  /** The body of the `forEach` in `analyzePerformance` for an answer with a
      known difficulty: count it as correct or incorrect, under its topic
      (adding the topic at its first appearance), under its difficulty and
      under its speed. The total is set once, before the loop. */
  function AnalysisStep(acc: Analysis, a: Answer): Analysis
    requires DifficultyKey(a).Some?
  {
    var c := Indicator(a.isCorrect);
    var t := TopicOf(a);
    var k := DifficultyKey(a).value;
    acc.(correctAnswers := acc.correctAnswers + c,
         incorrectAnswers := acc.incorrectAnswers + 1 - c,
         topics := if t in acc.topicPerformance then acc.topics else acc.topics + [t],
         topicPerformance := CountUnder(acc.topicPerformance, t, c),
         easy := if k == Easy then Tally(acc.easy.correct + c, acc.easy.total + 1) else acc.easy,
         medium := if k == Medium then Tally(acc.medium.correct + c, acc.medium.total + 1) else acc.medium,
         hard := if k == Hard then Tally(acc.hard.correct + c, acc.hard.total + 1) else acc.hard,
         fast := acc.fast + Indicator(SpeedOf(a) == Fast),
         normal := acc.normal + Indicator(SpeedOf(a) == Normal),
         slow := acc.slow + Indicator(SpeedOf(a) == Slow))
  }

  /** Tallying one more answer with a known difficulty is one step of the loop. */
  lemma AnalysisAppend(s: seq<Answer>, a: Answer, n: nat)
    requires DifficultyKey(a).Some?
    ensures AnalysisOf(s + [a]).(totalQuestions := n) == AnalysisStep(AnalysisOf(s).(totalQuestions := n), a)
  {
    var x, y := AnalysisOf(s + [a]).(totalQuestions := n), AnalysisStep(AnalysisOf(s).(totalQuestions := n), a);
    SessionAppend(s, a);
    AnalysisAppendTopics(s, a);
    DifficultyStep(s, a, Easy);
    DifficultyStep(s, a, Medium);
    DifficultyStep(s, a, Hard);
    AnalysisFieldsEqual(x, y);
  }

  /** One more answer with a known difficulty adds to that difficulty's tally only. */
  lemma DifficultyStep(s: seq<Answer>, a: Answer, d: Difficulty)
    requires DifficultyKey(a).Some?
    ensures DifficultyTally(s + [a], d) ==
            if DifficultyKey(a).value == d
            then Tally(DifficultyTally(s, d).correct + Indicator(a.isCorrect), DifficultyTally(s, d).total + 1)
            else DifficultyTally(s, d)
  {
    DifficultyTallyAppend(s, a, d);
  }

  lemma AnalysisAppendTopics(s: seq<Answer>, a: Answer)
    ensures Topics(s + [a]) == (if TopicOf(a) in TopicMap(s) then Topics(s) else Topics(s) + [TopicOf(a)])
    ensures TopicMap(s + [a]) == CountUnder(TopicMap(s), TopicOf(a), Indicator(a.isCorrect))
  {
    SessionAppend(s, a);
    TopicMapAppend(s, a);
    var t, m, c := TopicOf(a), TopicMap(s), Indicator(a.isCorrect);
    var prev := if t in m then m[t] else Tally(0, 0);
    assert prev == TopicTally(s, t) by {
      if t !in m {
        assert t !in Topics(s);
      }
    }
    assert TopicTally(s + [a], t) == Tally(prev.correct + c, prev.total + 1) by {
      TopicTallyAppend(s, a, t);
    }
    CountUnderUpdate(m, t, c, prev);
  }

  lemma CountUnderUpdate(m: map<string, Tally>, t: string, c: nat, prev: Tally)
    requires prev == if t in m then m[t] else Tally(0, 0)
    ensures CountUnder(m, t, c) == m[t := Tally(prev.correct + c, prev.total + 1)]
  {
  }

  lemma AnalysisFieldsEqual(x: Analysis, y: Analysis)
    requires x.totalQuestions == y.totalQuestions
    requires x.correctAnswers == y.correctAnswers && x.incorrectAnswers == y.incorrectAnswers
    requires x.topics == y.topics && x.topicPerformance == y.topicPerformance
    requires x.easy == y.easy && x.medium == y.medium && x.hard == y.hard
    requires x.fast == y.fast && x.normal == y.normal && x.slow == y.slow
    ensures x == y
  {
  }

  /** Every answer falls in exactly one of the fast, normal and slow buckets;
      a missing time counts as 60 seconds, so as normal. */
  lemma {:induction false} SpeedCountsAddUp(s: seq<Answer>)
    ensures SpeedCount(s, Fast) + SpeedCount(s, Normal) + SpeedCount(s, Slow) == |s|
  {
    if s != [] {
      SpeedCountsAddUp(Init(s));
    }
  }

  lemma MissingFieldsDefaults(a: Answer)
    requires a.chapter == "" && a.difficulty == "" && a.timeSpent == 0
    ensures TopicOf(a) == "unknown" && DifficultyOf(a) == "medium" && SpeedOf(a) == Normal
  {
  }

  /** The whole record of a well-formed session: correct and incorrect answers
      split the session, and the topic, difficulty and speed breakdowns each
      cover it. */
  lemma AnalysisConsistent(s: seq<Answer>)
    requires AllDifficultiesKnown(s)
    ensures var a := AnalysisOf(s);
      && a.correctAnswers + a.incorrectAnswers == a.totalQuestions == |s|
      && SumTopicCounts(a.topics, s) == a.totalQuestions
      && SumTopicCorrect(a.topics, s) == a.correctAnswers
      && a.easy.total + a.medium.total + a.hard.total == a.totalQuestions
      && a.easy.correct + a.medium.correct + a.hard.correct == a.correctAnswers
      && a.fast + a.normal + a.slow == a.totalQuestions
  {
    TopicTalliesAddUp(s);
    DifficultyTalliesAddUp(s);
    SpeedCountsAddUp(s);
  }

  // ---------------------------------------------------------------------------
  // Level
  // ---------------------------------------------------------------------------

  /** `accuracy >= pct` where accuracy is `correct / total * 100`, or 0 for an
      empty session. */
  predicate AccuracyAtLeast(correct: nat, total: nat, pct: nat)
  {
    total > 0 && 100 * correct >= pct * total
  }

  /** The level earned from the LIFETIME answer count and the SESSION accuracy. */
  function LevelFor(lifetimeAnswered: nat, sessionCorrect: nat, sessionTotal: nat): (l: Level)
    ensures sessionTotal == 0 ==> l == Beginner
    ensures l == Advanced ==> lifetimeAnswered >= 100
    ensures l != Beginner ==> lifetimeAnswered >= 50 && sessionTotal > 0
  {
    if lifetimeAnswered >= 100 && AccuracyAtLeast(sessionCorrect, sessionTotal, 85) then Advanced
    else if lifetimeAnswered >= 50 && AccuracyAtLeast(sessionCorrect, sessionTotal, 70) then Intermediate
    else Beginner
  }

  /** The thresholds, first match wins; an empty session always gives beginner. */
  lemma LevelThresholds(lifetime: nat, correct: nat, total: nat)
    ensures LevelFor(lifetime, correct, total) == Advanced <==>
            lifetime >= 100 && total > 0 && 100 * correct >= 85 * total
    ensures LevelFor(lifetime, correct, total) == Intermediate <==>
            !(lifetime >= 100 && total > 0 && 100 * correct >= 85 * total) &&
            lifetime >= 50 && total > 0 && 100 * correct >= 70 * total
    ensures total == 0 ==> LevelFor(lifetime, correct, total) == Beginner
  {
  }

  /** More answers or a better session never lower the level. */
  lemma LevelMonotone(l1: nat, c1: nat, t1: nat, l2: nat, c2: nat, t2: nat)
    requires l1 <= l2
    requires t1 > 0 && t2 > 0 && c1 * t2 <= c2 * t1
    ensures LevelRank(LevelFor(l1, c1, t1)) <= LevelRank(LevelFor(l2, c2, t2))
  {
    forall pct: nat | 100 * c1 >= pct * t1 ensures 100 * c2 >= pct * t2 {
      calc {
        100 * c2 * t1;
        >= { MulMonotone(100, c1 * t2, c2 * t1); }
        100 * c1 * t2;
        >= { MulMonotone(t2, pct * t1, 100 * c1); }
        pct * t1 * t2;
      }
      if 100 * c2 < pct * t2 {
        MulStrict(t1, 100 * c2, pct * t2);
        assert false;
      }
    }
  }

  lemma MulStrict(k: nat, a: nat, b: nat)
    requires k > 0 && a < b
    ensures k * a < k * b
  {
  }

  // ---------------------------------------------------------------------------
  // Weak and strong topics
  // ---------------------------------------------------------------------------

  /** The persisted lists and the in-memory sets `updateTopicStrengths` edits. */
  datatype Strengths = Strengths(
    weakTopics: seq<string>,
    strongTopics: seq<string>,
    weakAreas: set<string>,
    strongAreas: set<string>)

  predicate IsStrong(p: Tally)
  {
    p.total >= 3 && 100 * p.correct >= 80 * p.total
  }

  predicate IsWeak(p: Tally)
  {
    p.total >= 3 && 100 * p.correct < 60 * p.total
  }

  /** One iteration of the `forEach` over `topicPerformance`. */
  function StrengthStep(st: Strengths, t: string, p: Tally): Strengths
  {
    if IsStrong(p) then
      st.(strongTopics := Without(st.strongTopics, t) + [t],
          strongAreas := st.strongAreas + {t},
          weakAreas := st.weakAreas - {t})
    else if IsWeak(p) then
      st.(weakTopics := Without(st.weakTopics, t) + [t],
          weakAreas := st.weakAreas + {t},
          strongAreas := st.strongAreas - {t})
    else st
  }

  /** The loop over the topics `ts`, in order. */
  function StrengthsFold(st: Strengths, ts: seq<string>, perf: map<string, Tally>): Strengths
    requires forall t :: t in ts ==> t in perf
  {
    if ts == [] then st
    else StrengthStep(StrengthsFold(st, Init(ts), perf), Last(ts), perf[Last(ts)])
  }

  /** The loop followed by `slice(-5)` of both lists. */
  function StrengthsAfter(st: Strengths, ts: seq<string>, perf: map<string, Tally>): (r: Strengths)
    requires forall t :: t in ts ==> t in perf
    ensures |r.weakTopics| <= 5 && |r.strongTopics| <= 5
    ensures var f := StrengthsFold(st, ts, perf);
      |r.weakTopics| == Min(|f.weakTopics|, 5) && |r.strongTopics| == Min(|f.strongTopics|, 5)
  {
    var f := StrengthsFold(st, ts, perf);
    f.(weakTopics := LastN(f.weakTopics, 5), strongTopics := LastN(f.strongTopics, 5))
  }

  /** A step moves the topic to the end of one list, keeping the list's other
      entries in their order (so a new topic is simply appended), edits only
      that list, and keeps both lists free of duplicates and the two sets
      disjoint. */
  lemma StrengthStepProperties(st: Strengths, t: string, p: Tally)
    requires NoDuplicates(st.weakTopics) && NoDuplicates(st.strongTopics)
    requires st.weakAreas !! st.strongAreas
    ensures var r := StrengthStep(st, t, p);
      && NoDuplicates(r.weakTopics) && NoDuplicates(r.strongTopics)
      && r.weakAreas !! r.strongAreas
      && (IsStrong(p) ==> Last(r.strongTopics) == t && r.weakTopics == st.weakTopics
                          && Init(r.strongTopics) == Without(st.strongTopics, t)
                          && (t !in st.strongTopics ==> r.strongTopics == st.strongTopics + [t])
                          && t in r.strongAreas && t !in r.weakAreas)
      && (IsWeak(p) ==> Last(r.weakTopics) == t && r.strongTopics == st.strongTopics
                        && Init(r.weakTopics) == Without(st.weakTopics, t)
                        && (t !in st.weakTopics ==> r.weakTopics == st.weakTopics + [t])
                        && t in r.weakAreas && t !in r.strongAreas)
      && (!IsStrong(p) && !IsWeak(p) ==> r == st)
  {
    WithoutKeepsNoDuplicates(st.strongTopics, t);
    WithoutKeepsNoDuplicates(st.weakTopics, t);
    AppendFresh(Without(st.strongTopics, t), t);
    AppendFresh(Without(st.weakTopics, t), t);
    if t !in st.strongTopics {
      WithoutAbsent(st.strongTopics, t);
    }
    if t !in st.weakTopics {
      WithoutAbsent(st.weakTopics, t);
    }
    assert Init(Without(st.strongTopics, t) + [t]) == Without(st.strongTopics, t);
    assert Init(Without(st.weakTopics, t) + [t]) == Without(st.weakTopics, t);
  }

  /** The loop keeps the lists duplicate-free and the sets disjoint. */
  lemma {:induction false} StrengthsFoldInvariant(st: Strengths, ts: seq<string>, perf: map<string, Tally>)
    requires forall t :: t in ts ==> t in perf
    requires NoDuplicates(st.weakTopics) && NoDuplicates(st.strongTopics)
    requires st.weakAreas !! st.strongAreas
    ensures var r := StrengthsFold(st, ts, perf);
      NoDuplicates(r.weakTopics) && NoDuplicates(r.strongTopics) && r.weakAreas !! r.strongAreas
  {
    if ts != [] {
      StrengthsFoldInvariant(st, Init(ts), perf);
      StrengthStepProperties(StrengthsFold(st, Init(ts), perf), Last(ts), perf[Last(ts)]);
    }
  }

  /** Only topics with at least three session answers change status, and each
      classified topic ends in the matching set and out of the other one; a
      topic outside the session keeps its membership. */
  lemma {:induction false} StrengthsFoldClassifies(st: Strengths, ts: seq<string>, perf: map<string, Tally>, t: string)
    requires forall x :: x in ts ==> x in perf
    requires NoDuplicates(ts)
    ensures var r := StrengthsFold(st, ts, perf);
      && (t in ts && IsStrong(perf[t]) ==> t in r.strongAreas && t !in r.weakAreas)
      && (t in ts && IsWeak(perf[t]) ==> t in r.weakAreas && t !in r.strongAreas)
      && (t !in ts || (!IsStrong(perf[t]) && !IsWeak(perf[t])) ==>
            (t in r.strongAreas <==> t in st.strongAreas) && (t in r.weakAreas <==> t in st.weakAreas))
  {
    if ts != [] {
      StrengthsFoldClassifies(st, Init(ts), perf, t);
      assert ts == Init(ts) + [Last(ts)];
      if t == Last(ts) {
        assert t !in Init(ts);
      }
    }
  }

  /** After the update both lists hold at most 5 topics, have no duplicates,
      and the sets stay disjoint. */
  lemma StrengthsAfterBounded(st: Strengths, ts: seq<string>, perf: map<string, Tally>)
    requires forall t :: t in ts ==> t in perf
    requires NoDuplicates(st.weakTopics) && NoDuplicates(st.strongTopics)
    requires st.weakAreas !! st.strongAreas
    ensures var r := StrengthsAfter(st, ts, perf);
      && |r.weakTopics| <= 5 && |r.strongTopics| <= 5
      && NoDuplicates(r.weakTopics) && NoDuplicates(r.strongTopics)
      && r.weakAreas !! r.strongAreas
  {
    StrengthsFoldInvariant(st, ts, perf);
    var f := StrengthsFold(st, ts, perf);
    LastNKeepsNoDuplicates(f.weakTopics, 5);
    LastNKeepsNoDuplicates(f.strongTopics, 5);
  }

  /** A strong topic leaves `weakAreas` but stays in the persisted `weakTopics`:
      the two persisted lists can share a topic. */
  lemma PersistedListsCanOverlap()
    ensures var r := StrengthsAfter(Strengths(["Anexo I"], [], {}, {}), ["Anexo I"], map["Anexo I" := Tally(3, 3)]);
      && "Anexo I" in r.weakTopics && "Anexo I" in r.strongTopics
      && "Anexo I" !in r.weakAreas
  {
    StrongWhileListedWeak("Anexo I", Tally(3, 3));
  }

  /** A weak-listed topic that a one-topic session finds strong ends in both
      persisted lists and out of `weakAreas`. */
  lemma StrongWhileListedWeak(t: string, p: Tally)
    requires IsStrong(p)
    ensures var r := StrengthsAfter(Strengths([t], [], {}, {}), [t], map[t := p]);
      && t in r.weakTopics && t in r.strongTopics && t !in r.weakAreas
  {
    var st, ts, perf := Strengths([t], [], {}, {}), [t], map[t := p];
    assert Init(ts) == [] && Last(ts) == t && perf[t] == p;
    assert StrengthsFold(st, [], perf) == st;
    var f := StrengthsFold(st, ts, perf);
    assert f == StrengthStep(st, t, p);
    assert Without([], t) == [];
    assert f.weakTopics == [t] && f.strongTopics == [t] && t !in f.weakAreas;
    var r := StrengthsAfter(st, ts, perf);
    assert r.weakTopics == LastN(f.weakTopics, 5) && r.strongTopics == LastN(f.strongTopics, 5);
  }

  // ---------------------------------------------------------------------------
  // Per-topic progress and mastery
  // ---------------------------------------------------------------------------

  /** `round(100 * correct / answered)`, or 0 when nothing was answered. */
  function Mastery(correct: nat, answered: nat): nat
  {
    if answered > 0 then RoundPercent(correct, answered) else 0
  }

  /** The entry of `t` before the update, a fresh zero entry if missing. */
  function ProgressOf(cp: map<string, TopicProgress>, t: string): TopicProgress
  {
    if t in cp then cp[t] else TopicProgress(0, 0, None, 0)
  }

  /** One iteration of `updateChapterProgress`. */
  function ProgressStep(cp: map<string, TopicProgress>, t: string, p: Tally, nowMs: int): map<string, TopicProgress>
  {
    var e := ProgressOf(cp, t);
    var answered := e.questionsAnswered + p.total;
    var correct := e.correctAnswers + p.correct;
    cp[t := TopicProgress(answered, correct, Some(nowMs), Mastery(correct, answered))]
  }

  /** The loop of `updateChapterProgress` over the topics `ts`, in order. */
  function ProgressFold(cp: map<string, TopicProgress>, ts: seq<string>, perf: map<string, Tally>, nowMs: int)
    : (r: map<string, TopicProgress>)
    requires forall t :: t in ts ==> t in perf
    ensures |cp| <= |r| <= |cp| + |ts|
  {
    if ts == [] then cp
    else
      ProgressStep(ProgressFold(cp, Init(ts), perf, nowMs), Last(ts), perf[Last(ts)], nowMs)
  }

  /** Every stored entry has mastery `round(100 * correct / answered)` and no
      more correct answers than answers. */
  predicate ProgressConsistent(cp: map<string, TopicProgress>)
  {
    forall t :: t in cp ==>
      cp[t].correctAnswers <= cp[t].questionsAnswered &&
      cp[t].mastery == Mastery(cp[t].correctAnswers, cp[t].questionsAnswered)
  }

  /** Each session topic's counters grow by exactly its session tally, its
      mastery is recomputed and lies in [0, 100]; other topics are untouched. */
  lemma {:induction false} ProgressFoldCounts(cp: map<string, TopicProgress>, ts: seq<string>,
                                             perf: map<string, Tally>, nowMs: int, t: string)
    requires forall x :: x in ts ==> x in perf
    requires NoDuplicates(ts)
    requires forall x :: x in perf ==> perf[x].correct <= perf[x].total
    requires t in cp ==> cp[t].correctAnswers <= cp[t].questionsAnswered
    ensures var r := ProgressFold(cp, ts, perf, nowMs);
      && (t in ts ==>
            && t in r
            && r[t].questionsAnswered == ProgressOf(cp, t).questionsAnswered + perf[t].total
            && r[t].correctAnswers == ProgressOf(cp, t).correctAnswers + perf[t].correct
            && r[t].lastStudied == Some(nowMs)
            && r[t].mastery == Mastery(r[t].correctAnswers, r[t].questionsAnswered)
            && r[t].mastery <= 100)
      && (t !in ts ==> (t in r <==> t in cp) && (t in cp ==> r[t] == cp[t]))
  {
    if ts != [] {
      ProgressFoldCounts(cp, Init(ts), perf, nowMs, t);
      assert ts == Init(ts) + [Last(ts)];
      if t == Last(ts) {
        assert t !in Init(ts);
        var r := ProgressFold(cp, ts, perf, nowMs);
        if r[t].questionsAnswered > 0 {
          RoundPercentAtMost100(r[t].correctAnswers, r[t].questionsAnswered);
        }
      }
    }
  }

  /** Updating progress keeps every entry consistent. */
  lemma {:induction false} ProgressFoldConsistent(cp: map<string, TopicProgress>, ts: seq<string>,
                                                 perf: map<string, Tally>, nowMs: int)
    requires forall x :: x in ts ==> x in perf
    requires forall x :: x in perf ==> perf[x].correct <= perf[x].total
    requires ProgressConsistent(cp)
    ensures ProgressConsistent(ProgressFold(cp, ts, perf, nowMs))
  {
    if ts != [] {
      ProgressFoldConsistent(cp, Init(ts), perf, nowMs);
    }
  }

  // ---------------------------------------------------------------------------
  // Streak
  // ---------------------------------------------------------------------------

  /** `updateStudyStreak`: same day keeps the streak, the day after extends it,
      anything else (including no previous activity) restarts it at 1. */
  function StreakAfter(streak: nat, lastActivity: Option<Instant>, today: int): (r: nat)
    ensures lastActivity.Some? && lastActivity.value.day == today ==> r == streak
    ensures lastActivity.Some? && lastActivity.value.day == today - 1 ==> r == streak + 1
    ensures (lastActivity.None? || (lastActivity.value.day != today && lastActivity.value.day != today - 1))
            ==> r == 1
    ensures r <= streak + 1
  {
    if lastActivity.Some? && lastActivity.value.day == today then streak
    else if lastActivity.Some? && lastActivity.value.day == today - 1 then streak + 1
    else 1
  }

  /** Because `updateProfile` stamps `lastActivity` with the current moment
      before it updates the streak, the streak never moves inside it. */
  lemma StreakFrozenInsideUpdate(streak: nat, now: Instant)
    ensures StreakAfter(streak, Some(now), now.day) == streak
  {
  }

  /** Activity on day N then N+1 extends the streak by one; N then N+3 resets it. */
  lemma StreakExamples(streak: nat, n: int, ms1: int, ms3: int)
    ensures StreakAfter(streak, Some(Instant(ms1, n)), n + 1) == streak + 1
    ensures StreakAfter(streak, Some(Instant(ms3, n)), n + 3) == 1
  {
  }
}

=== FILE: questions.dfy ===
/** The exam questions both quiz pages draw from, and the difficulty and
    chapter filters they apply to them. */
module ExamQuestions {
  import opened Common

  /** An entry of `examQuestions`: its id, difficulty, chapter label and the
      index of the correct option. */
  datatype Question = Question(id: int, difficulty: string, chapter: string, correct: int)

  datatype DifficultyCriterion = AnyDifficulty | DifficultyIs(difficulty: string)

  /** How the chapter label is compared with a search term: as the pages write
      it (`chapter.toLowerCase().includes(term.toLowerCase())`), or also
      ignoring the accents of Spanish vowels. */
  datatype ChapterCriterion = AnyChapter | ChapterContains(term: string) | ChapterContainsFolded(term: string)

  predicate Keeps(q: Question, dc: DifficultyCriterion, cc: ChapterCriterion)
  {
    && (dc.DifficultyIs? ==> q.difficulty == dc.difficulty)
    && match cc
       case AnyChapter => true
       case ChapterContains(term) => ContainsIgnoringCase(q.chapter, term)
       case ChapterContainsFolded(term) => ContainsIgnoringAccents(q.chapter, term)
  }

  /** `pool.filter(q => ...)`: the questions that meet both criteria, in
      their original order. */
  function Select(pool: seq<Question>, dc: DifficultyCriterion, cc: ChapterCriterion): (r: seq<Question>)
    ensures |r| <= |pool|
    ensures forall q :: q in r <==> q in pool && Keeps(q, dc, cc)
  {
    if pool == [] then []
    else
      var r := Select(Init(pool), dc, cc);
      assert forall q :: q in pool <==> q in Init(pool) || q == Last(pool);
      if Keeps(Last(pool), dc, cc) then r + [Last(pool)] else r
  }

  /** Filtering by difficulty and then by chapter, as the mock exam does,
      keeps the same questions in the same order as one combined filter. */
  lemma {:induction false} SelectInTwoPasses(pool: seq<Question>, dc: DifficultyCriterion, cc: ChapterCriterion)
    ensures Select(Select(pool, dc, AnyChapter), AnyDifficulty, cc) == Select(pool, dc, cc)
  {
    if pool != [] {
      SelectInTwoPasses(Init(pool), dc, cc);
      var first := Select(Init(pool), dc, AnyChapter);
      if Keeps(Last(pool), dc, AnyChapter) {
        assert Init(first + [Last(pool)]) == first;
      }
    }
  }

  /** The filter works question by question: filtering a concatenation
      filters each part and keeps the parts in order. */
  lemma {:induction false} SelectAppend(a: seq<Question>, b: seq<Question>, dc: DifficultyCriterion, cc: ChapterCriterion)
    ensures Select(a + b, dc, cc) == Select(a, dc, cc) + Select(b, dc, cc)
  {
    if b == [] {
      assert a + b == a;
    } else {
      var init, last := Init(b), Last(b);
      assert a + b != [] && Init(a + b) == a + init && Last(a + b) == last;
      if Keeps(last, dc, cc) {
        calc {
          Select(a + b, dc, cc);
          Select(a + init, dc, cc) + [last];
          { SelectAppend(a, init, dc, cc); }
          (Select(a, dc, cc) + Select(init, dc, cc)) + [last];
          Select(a, dc, cc) + (Select(init, dc, cc) + [last]);
          Select(a, dc, cc) + Select(b, dc, cc);
        }
      } else {
        calc {
          Select(a + b, dc, cc);
          Select(a + init, dc, cc);
          { SelectAppend(a, init, dc, cc); }
          Select(a, dc, cc) + Select(init, dc, cc);
          Select(a, dc, cc) + Select(b, dc, cc);
        }
      }
    }
  }

  /** A single question is kept iff it meets both criteria. */
  lemma SelectOne(q: Question, dc: DifficultyCriterion, cc: ChapterCriterion)
    ensures Select([q], dc, cc) == if Keeps(q, dc, cc) then [q] else []
  {
    assert Init([q]) == [];
  }

  /** No criterion keeps every question. */
  lemma {:induction false} SelectAll(pool: seq<Question>)
    ensures Select(pool, AnyDifficulty, AnyChapter) == pool
  {
    if pool != [] {
      SelectAll(Init(pool));
      assert Init(pool) + [Last(pool)] == pool;
    }
  }

  // ---------------------------------------------------------------------------
  // Chapter search and accents
  // ---------------------------------------------------------------------------

  /** The accented vowels of Spanish mapped to their plain lower-case form. */
  function FoldAccent(c: char): char
  {
    if c == 'á' || c == 'Á' then 'a'
    else if c == 'é' || c == 'É' then 'e'
    else if c == 'í' || c == 'Í' then 'i'
    else if c == 'ó' || c == 'Ó' then 'o'
    else if c == 'ú' || c == 'Ú' then 'u'
    else c
  }

  function FoldAccents(s: string): (r: string)
    ensures |r| == |s|
    ensures forall i :: 0 <= i < |s| ==> r[i] == FoldAccent(s[i])
  {
    seq(|s|, i requires 0 <= i < |s| => FoldAccent(s[i]))
  }

  /** Case- and accent-insensitive `includes`. */
  predicate ContainsIgnoringAccents(hay: string, needle: string)
  {
    Contains(FoldAccents(Lower(hay)), FoldAccents(Lower(needle)))
  }

  /** `needle` occurs in `hay` from position `k` on. */
  predicate OccursAt(hay: string, needle: string, k: nat)
  {
    k + |needle| <= |hay| && hay[k..k + |needle|] == needle
  }

  /** A text contains a term only where the term occurs. */
  lemma {:induction false} ContainsAt(hay: string, needle: string) returns (k: nat)
    requires Contains(hay, needle)
    ensures OccursAt(hay, needle, k)
  {
    if StartsWith(hay, needle) {
      k := 0;
    } else {
      var j := ContainsAt(hay[1..], needle);
      assert hay[1..][j..j + |needle|] == hay[j + 1..j + 1 + |needle|];
      k := j + 1;
    }
  }

  /** The mock exam's "chapters only" option searches for `capitulo`, which
      the chapter label `Capítulo I` does not contain: the `í` is not an `i`. */
  lemma ChapterOptionMissesAccentedLabel()
    ensures !ContainsIgnoringCase("Capítulo I", "capitulo")
  {
    var hay, needle := Lower("Capítulo I"), Lower("capitulo");
    assert |hay| == 10 && |needle| == 8;
    assert hay[1] == 'a' && hay[2] == 'p' && hay[3] == 'í';
    assert needle[0] == 'c' && needle[3] == 'i';
    forall k: nat
      ensures !OccursAt(hay, needle, k)
    {
      if k <= 2 {
        if k == 0 {
          assert hay[k..k + 8][3] == 'í';
        } else {
          assert hay[k..k + 8][0] != 'c';
        }
      }
    }
    NoOccurrenceNotContained(hay, needle);
  }

  /** A text in which a term occurs nowhere does not contain it. */
  lemma NoOccurrenceNotContained(hay: string, needle: string)
    requires forall k: nat :: !OccursAt(hay, needle, k)
    ensures !Contains(hay, needle)
  {
    if Contains(hay, needle) {
      var k := ContainsAt(hay, needle);
    }
  }

  /** Ignoring accents, the same search finds the chapter. */
  lemma ChapterOptionFindsFoldedLabel()
    ensures ContainsIgnoringAccents("Capítulo I", "capitulo")
  {
    var hay, needle := FoldAccents(Lower("Capítulo I")), FoldAccents(Lower("capitulo"));
    assert hay[..8] == "capitulo";
    assert needle == "capitulo";
    assert StartsWith(hay, needle);
  }

  /** Folding only drops accents: a term that matches as written still matches. */
  lemma FoldingKeepsMatches(hay: string, needle: string)
    requires ContainsIgnoringCase(hay, needle)
    ensures ContainsIgnoringAccents(hay, needle)
  {
    var k := ContainsAt(Lower(hay), Lower(needle));
    FoldedOccurrence(Lower(hay), Lower(needle), k);
  }

  lemma {:induction false} FoldedOccurrence(h: string, n: string, k: nat)
    requires OccursAt(h, n, k)
    ensures Contains(FoldAccents(h), FoldAccents(n))
  {
    var fh, fn := FoldAccents(h), FoldAccents(n);
    if k == 0 {
      assert fh[..|fn|] == fn;
    } else {
      assert h[1..][k - 1..k - 1 + |n|] == h[k..k + |n|];
      FoldedOccurrence(h[1..], n, k - 1);
      assert FoldAccents(h[1..]) == fh[1..];
    }
  }
}

=== FILE: recommendations.dfy ===
/** The advice list `generateRecommendations` builds from the profile: up to
    four items pushed in a fixed order and then sorted stably by priority
    (urgent < high < medium < low). The clock is the parameter `nowMs`. */
module Recommendations {
  import opened Common
  import opened Profile

  datatype Priority = Urgent | High | Medium | Low

  function PriorityRank(p: Priority): nat
  {
    match p
    case Urgent => 0
    case High => 1
    case Medium => 2
    case Low => 3
  }

  datatype Recommendation =
    | WeakAreas(topics: seq<string>)         // 'weak_areas', high
    | StartWithBasics(chapter: string)       // 'level_based' for beginners, medium
    | PracticeExams(difficulty: string)      // 'level_based' for advanced users, medium
    | StudyRoutine                           // 'study_time', low
    | ExamPreparation(daysLeft: int)         // 'exam_preparation', urgent

  function PriorityOf(r: Recommendation): Priority
  {
    match r
    case WeakAreas(_) => High
    case StartWithBasics(_) => Priority.Medium
    case PracticeExams(_) => Priority.Medium
    case StudyRoutine => Low
    case ExamPreparation(_) => Urgent
  }

  function Rank(r: Recommendation): nat
  {
    PriorityRank(PriorityOf(r))
  }

  /** The exam is set and at most 7 days away (or already past). */
  predicate ExamIsNear(p: UserProfile, nowMs: int)
  {
    p.examDate.Some? && DaysUntil(p.examDate.value, nowMs) <= 7
  }

  /** The weak-area, level and study-time items, in the order they are
      pushed. Fewer than 5 hours studied is `studyTime / 60 < 5`, that is fewer
      than 300 minutes. */
  function Routine(p: UserProfile): (r: seq<Recommendation>)
    ensures |r| <= 3
    ensures forall i, j :: 0 <= i < j < |r| ==> Rank(r[i]) < Rank(r[j])
    ensures forall i :: 0 <= i < |r| ==> Rank(r[i]) > 0
  {
    WeakItems(p) + LevelItems(p) + StudyTimeItems(p)
  }

  function WeakItems(p: UserProfile): (r: seq<Recommendation>)
    ensures |r| <= 1 && forall i :: 0 <= i < |r| ==> Rank(r[i]) == 1
  {
    if |p.weakTopics| > 0 then [WeakAreas(p.weakTopics[..Min(3, |p.weakTopics|)])] else []
  }

  function LevelItems(p: UserProfile): (r: seq<Recommendation>)
    ensures |r| <= 1 && forall i :: 0 <= i < |r| ==> Rank(r[i]) == 2
  {
    match p.level
    case Beginner => [StartWithBasics("Capítulo I")]
    case Advanced => [PracticeExams("hard")]
    case Intermediate => []
  }

  function StudyTimeItems(p: UserProfile): (r: seq<Recommendation>)
    ensures |r| <= 1 && forall i :: 0 <= i < |r| ==> Rank(r[i]) == 3
  {
    if p.studyTime < 300 then [StudyRoutine] else []
  }

  /** The exam item, pushed last. */
  function ExamItems(p: UserProfile, nowMs: int): seq<Recommendation>
  {
    if ExamIsNear(p, nowMs) then [ExamPreparation(DaysUntil(p.examDate.value, nowMs))] else []
  }

  /** All items in the order they are pushed. */
  function Candidates(p: UserProfile, nowMs: int): seq<Recommendation>
  {
    Routine(p) + ExamItems(p, nowMs)
  }

  // ---------------------------------------------------------------------------
  // Stable sort by priority
  // ---------------------------------------------------------------------------

  predicate SortedByPriority(s: seq<Recommendation>)
  {
    forall i, j :: 0 <= i < j < |s| ==> Rank(s[i]) <= Rank(s[j])
  }

  /** Puts `x` in front of the first element of equal or lower priority, so an
      element that came first stays first among equals. */
  function Insert(x: Recommendation, s: seq<Recommendation>): (r: seq<Recommendation>)
    ensures |r| == |s| + 1 && (r[0] == x || (s != [] && r[0] == s[0]))
  {
    if s == [] || Rank(x) <= Rank(s[0]) then [x] + s
    else [s[0]] + Insert(x, s[1..])
  }

  /** Inserting adds exactly the one item. */
  lemma {:induction false} InsertPermutes(x: Recommendation, s: seq<Recommendation>)
    ensures multiset(Insert(x, s)) == multiset(s) + multiset{x}
  {
    if s != [] && Rank(x) > Rank(s[0]) {
      InsertPermutes(x, s[1..]);
      MultisetHeadTail(s);
    }
  }

  /** An item no later in priority than the head of a sorted list can go in
      front of it. */
  lemma ConsSorted(a: Recommendation, u: seq<Recommendation>)
    requires SortedByPriority(u)
    requires u == [] || Rank(a) <= Rank(u[0])
    ensures SortedByPriority([a] + u)
  {
    var r := [a] + u;
    forall i, j | 0 <= i < j < |r|
      ensures Rank(r[i]) <= Rank(r[j])
    {
      assert r[j] == u[j - 1];
      if i > 0 {
        assert r[i] == u[i - 1];
      } else {
        assert Rank(u[0]) <= Rank(u[j - 1]) || j - 1 == 0;
      }
    }
  }

  /** Inserting into a list in priority order keeps it in priority order. */
  lemma {:induction false} InsertKeepsSorted(x: Recommendation, s: seq<Recommendation>)
    requires SortedByPriority(s)
    ensures SortedByPriority(Insert(x, s))
  {
    if s == [] || Rank(x) <= Rank(s[0]) {
      ConsSorted(x, s);
    } else {
      var t := s[1..];
      assert SortedByPriority(t);
      InsertKeepsSorted(x, t);
      var u := Insert(x, t);
      assert t != [] ==> Rank(s[0]) <= Rank(t[0]);
      ConsSorted(s[0], u);
    }
  }

  /** A stable insertion sort, standing for the stable `Array.prototype.sort`
      with the priority comparator. */
  function SortByPriority(s: seq<Recommendation>): (r: seq<Recommendation>)
    ensures |r| == |s|
    ensures SortedByPriority(r)
  {
    if s == [] then []
    else
      var rest := SortByPriority(s[1..]);
      InsertKeepsSorted(s[0], rest);
      Insert(s[0], rest)
  }

  /** The sort only reorders: it keeps every item as often as it occurs. */
  lemma {:induction false} SortIsPermutation(s: seq<Recommendation>)
    ensures multiset(SortByPriority(s)) == multiset(s)
  {
    if s != [] {
      var t := s[1..];
      var rest := SortByPriority(t);
      SortIsPermutation(t);
      InsertPermutes(s[0], rest);
      assert SortByPriority(s) == Insert(s[0], rest);
      MultisetHeadTail(s);
    }
  }

  /** Sorting a list that is already in priority order leaves it alone. */
  lemma {:induction false} SortKeepsSorted(s: seq<Recommendation>)
    requires SortedByPriority(s)
    ensures SortByPriority(s) == s
  {
    if s != [] {
      assert SortedByPriority(s[1..]);
      SortKeepsSorted(s[1..]);
      assert |s| > 1 ==> Rank(s[0]) <= Rank(s[1]);
      InsertAtHead(s[0], s[1..]);
    }
  }

  /** An item no later than the head is inserted in front. */
  lemma InsertAtHead(x: Recommendation, t: seq<Recommendation>)
    requires t == [] || Rank(x) <= Rank(t[0])
    ensures Insert(x, t) == [x] + t
  {
  }

  /** An item later than the head is inserted behind it. */
  lemma InsertBehind(x: Recommendation, e: Recommendation, t: seq<Recommendation>)
    requires Rank(e) < Rank(x)
    ensures Insert(x, [e] + t) == [e] + Insert(x, t)
  {
    assert ([e] + t)[0] == e && ([e] + t)[1..] == t;
  }

  /** Appending an item more urgent than all others and sorting moves it to the
      front and keeps the rest in order. */
  lemma {:induction false} SortMovesMostUrgentFirst(s: seq<Recommendation>, e: Recommendation)
    requires SortedByPriority(s)
    requires forall i :: 0 <= i < |s| ==> Rank(e) < Rank(s[i])
    ensures SortByPriority(s + [e]) == [e] + s
  {
    if s == [] {
      assert [] + [e] == [e];
    } else {
      var t := s[1..];
      var se := s + [e];
      assert se[0] == s[0] && se[1..] == t + [e];
      assert SortedByPriority(t);
      SortMovesMostUrgentFirst(t, e);
      assert SortByPriority(se) == Insert(s[0], [e] + t);
      InsertBehind(s[0], e, t);
      assert t == [] || Rank(s[0]) <= Rank(t[0]);
      InsertAtHead(s[0], t);
      assert [s[0]] + t == s;
    }
  }

  /** `generateRecommendations`: the pushed items, reordered by priority. */
  function RecommendationsFor(p: UserProfile, nowMs: int): (r: seq<Recommendation>)
    ensures SortedByPriority(r)
    ensures multiset(r) == multiset(Candidates(p, nowMs))
  {
    SortIsPermutation(Candidates(p, nowMs));
    SortByPriority(Candidates(p, nowMs))
  }

  /** The sorted list is the near-exam item (if any) followed by the weak-area,
      level and routine items in that order. */
  lemma RecommendationsShape(p: UserProfile, nowMs: int)
    ensures RecommendationsFor(p, nowMs) == ExamItems(p, nowMs) + Routine(p)
  {
    var rest := Routine(p);
    if ExamIsNear(p, nowMs) {
      SortMovesMostUrgentFirst(rest, ExamPreparation(DaysUntil(p.examDate.value, nowMs)));
    } else {
      assert Candidates(p, nowMs) == rest;
      SortKeepsSorted(rest);
      assert [] + rest == rest;
    }
  }

  /** At most four items, in strictly increasing priority rank: no two items
      share a priority. */
  lemma RecommendationsOrdered(p: UserProfile, nowMs: int)
    ensures var r := RecommendationsFor(p, nowMs);
      && |r| <= 4
      && (forall i, j :: 0 <= i < j < |r| ==> Rank(r[i]) < Rank(r[j]))
  {
    RecommendationsShape(p, nowMs);
  }

  /** The exam item is present exactly when an exam date is set and at most 7
      days away, and it then comes first. */
  lemma RecommendationsExam(p: UserProfile, nowMs: int)
    ensures var r := RecommendationsFor(p, nowMs);
      && (ExamIsNear(p, nowMs) <==> exists d :: ExamPreparation(d) in r)
      && (ExamIsNear(p, nowMs) ==> r[0] == ExamPreparation(DaysUntil(p.examDate.value, nowMs)))
  {
    RecommendationsShape(p, nowMs);
    var r := RecommendationsFor(p, nowMs);
    if ExamIsNear(p, nowMs) {
      assert r[0] in r;
    }
  }

  /** Membership in a list made of four parts. */
  lemma InFourParts<T>(x: T, a: seq<T>, b: seq<T>, c: seq<T>, d: seq<T>)
    ensures x in a + (b + c + d) <==> x in a || x in b || x in c || x in d
  {
  }

  /** An item is recommended exactly when one of the four groups pushes it. */
  lemma RecommendedIffPushed(p: UserProfile, nowMs: int, x: Recommendation)
    ensures x in RecommendationsFor(p, nowMs) <==>
            x in ExamItems(p, nowMs) || x in WeakItems(p) || x in LevelItems(p) || x in StudyTimeItems(p)
  {
    RecommendationsShape(p, nowMs);
    InFourParts(x, ExamItems(p, nowMs), WeakItems(p), LevelItems(p), StudyTimeItems(p));
  }

  /** The weak-area item is present exactly when there are weak topics, and it
      carries the first three of them. */
  lemma RecommendationsWeakAreas(p: UserProfile, nowMs: int, ts: seq<string>)
    ensures WeakAreas(ts) in RecommendationsFor(p, nowMs) <==>
            |p.weakTopics| > 0 && ts == p.weakTopics[..Min(3, |p.weakTopics|)]
  {
    RecommendedIffPushed(p, nowMs, WeakAreas(ts));
  }

  /** Which kind of item each group can push. */
  lemma GroupKinds(p: UserProfile, nowMs: int, x: Recommendation)
    ensures x in ExamItems(p, nowMs) ==> x.ExamPreparation?
    ensures x in WeakItems(p) ==> x.WeakAreas?
    ensures x in LevelItems(p) ==> x.StartWithBasics? || x.PracticeExams?
    ensures x in StudyTimeItems(p) <==> x == StudyRoutine && p.studyTime < 300
  {
  }

  /** Beginners are sent to chapter I, advanced users to hard exams,
      intermediate users get no level item. */
  lemma RecommendationsLevel(p: UserProfile, nowMs: int)
    ensures StartWithBasics("Capítulo I") in RecommendationsFor(p, nowMs) <==> p.level == Beginner
    ensures PracticeExams("hard") in RecommendationsFor(p, nowMs) <==> p.level == Advanced
  {
    var basics, exams := StartWithBasics("Capítulo I"), PracticeExams("hard");
    RecommendedIffPushed(p, nowMs, basics);
    GroupKinds(p, nowMs, basics);
    RecommendedIffPushed(p, nowMs, exams);
    GroupKinds(p, nowMs, exams);
    assert basics in LevelItems(p) <==> p.level == Beginner;
    assert exams in LevelItems(p) <==> p.level == Advanced;
  }

  /** The routine item appears below 300 minutes (5 hours) of study. */
  lemma RecommendationsStudyTime(p: UserProfile, nowMs: int)
    ensures StudyRoutine in RecommendationsFor(p, nowMs) <==> p.studyTime < 300
  {
    RecommendedIffPushed(p, nowMs, StudyRoutine);
    GroupKinds(p, nowMs, StudyRoutine);
  }
}

=== FILE: service_worker.dfy ===
/** The event handlers of the service worker, each run as one atomic step on
    the origin's `CacheStorage`. Network results, the IndexedDB queue and the
    outcome of each sync attempt are inputs. */
module ServiceWorker {
  import opened Common
  import opened CacheStore
  import opened SwRouting

  /** A path such as `/index.html` resolved against the worker's origin. */
  function Resolve(origin: string, path: string): string
  {
    origin + path
  }

  /** The absolute URLs of the static assets. */
  function StaticUrls(origin: string): (r: seq<string>)
    ensures |r| == |StaticAssets|
    ensures forall i :: 0 <= i < |r| ==> r[i] == Resolve(origin, StaticAssets[i])
  {
    seq(|StaticAssets|, i requires 0 <= i < |StaticAssets| => Resolve(origin, StaticAssets[i]))
  }

  lemma StaticUrlsAreDistinct(origin: string)
    ensures NoDuplicates(StaticUrls(origin))
  {
    var r := StaticUrls(origin);
    forall i, j | 0 <= i < j < |r|
      ensures r[i] != r[j]
    {
      assert r[i][|origin|..] == StaticAssets[i];
      assert r[j][|origin|..] == StaticAssets[j];
    }
  }

  /** The caches after `caches.open(name)`. */
  function Opened(caches: map<string, Entries>, name: string): (r: map<string, Entries>)
    ensures name in r
  {
    if name in caches then caches else caches[name := map[]]
  }

  /** The creation order after `caches.open(name)`. */
  function OpenedNames(names: seq<string>, caches: map<string, Entries>, name: string): seq<string>
  {
    if name in caches then names else names + [name]
  }

  /** The caches after `cache.put(req, resp)` on the open cache `name`. */
  function Stash(caches: map<string, Entries>, name: string, req: Request, resp: Response): map<string, Entries>
    requires name in caches
  {
    if req.httpMethod == "GET" && resp.status != 206 then caches[name := caches[name][req.url := resp]] else caches
  }

  /** The caches after `cache.addAll(urls)` on the open cache `name`. */
  function Filled(caches: map<string, Entries>, name: string, urls: seq<string>, outcomes: seq<FetchOutcome>): map<string, Entries>
    requires name in caches && |outcomes| == |urls|
  {
    if AddAllSucceeds(urls, outcomes) then caches[name := Stored(caches[name], urls, outcomes)] else caches
  }

  // ---------------------------------------------------------------------------
  // install
  // ---------------------------------------------------------------------------

  /** Opens the static cache and adds every static asset; `skipWaiting` is
      called only when that succeeds, and a failure is swallowed. */
  method Install(cs: CacheStorage, origin: string, outcomes: seq<FetchOutcome>) returns (skipWaiting: bool)
    requires cs.Valid() && |outcomes| == |StaticAssets|
    modifies cs
    ensures cs.Valid()
    ensures skipWaiting <==> AddAllSucceeds(StaticUrls(origin), outcomes)
    ensures cs.names == OpenedNames(old(cs.names), old(cs.caches), StaticCacheName)
    ensures cs.caches == Filled(Opened(old(cs.caches), StaticCacheName), StaticCacheName, StaticUrls(origin), outcomes)
  {
    cs.Open(StaticCacheName);
    skipWaiting := cs.AddAll(StaticCacheName, StaticUrls(origin), outcomes);
  }

  /** Installation succeeds exactly when every static asset is fetched with an
      ok status other than 206, and then each asset's URL holds its response. */
  lemma InstallSucceedsIff(origin: string, outcomes: seq<FetchOutcome>, entries: Entries)
    requires |outcomes| == |StaticAssets|
    ensures AddAllSucceeds(StaticUrls(origin), outcomes) <==>
            forall i :: 0 <= i < |outcomes| ==>
              outcomes[i].Received? && OkStatus(outcomes[i].response.status) && outcomes[i].response.status != 206
    ensures AddAllSucceeds(StaticUrls(origin), outcomes) ==>
            forall i :: 0 <= i < |StaticAssets| ==>
              Stored(entries, StaticUrls(origin), outcomes)[Resolve(origin, StaticAssets[i])] == outcomes[i].response
  {
    StaticUrlsAreDistinct(origin);
    if AddAllSucceeds(StaticUrls(origin), outcomes) {
      StoredKeepsEach(entries, StaticUrls(origin), outcomes);
    }
  }

  // ---------------------------------------------------------------------------
  // activate and CLEAR_CACHE: deleting caches by name
  // ---------------------------------------------------------------------------

  datatype Sweep = OutdatedCaches | AllAppCaches

  predicate Doomed(sweep: Sweep, name: string)
  {
    match sweep
    case OutdatedCaches => IsOutdatedCache(name)
    case AllAppCaches => IsAppCache(name)
  }

  /** The names the sweep keeps, in creation order. */
  function Kept(names: seq<string>, sweep: Sweep): (r: seq<string>)
    ensures forall n :: n in r <==> n in names && !Doomed(sweep, n)
  {
    if names == [] then []
    else
      var r := Kept(Init(names), sweep);
      assert forall n :: n in names <==> n in Init(names) || n == Last(names);
      if Doomed(sweep, Last(names)) then r else r + [Last(names)]
  }

  /** Deleting a name that occurs once and is not among the first names. */
  lemma {:induction false} WithoutUnique(p: seq<string>, x: string, q: seq<string>)
    requires x !in p && x !in q
    ensures Without(p + [x] + q, x) == p + q
  {
    if p == [] {
      assert p + [x] + q == [x] + q;
      assert ([x] + q)[1..] == q;
      WithoutAbsent(q, x);
    } else {
      var s := p + [x] + q;
      assert s[0] == p[0] && s[0] != x;
      assert s[1..] == p[1..] + [x] + q;
      WithoutUnique(p[1..], x, q);
      assert p + q == [p[0]] + (p[1..] + q);
    }
  }

  /** One step of the sweep over the name snapshot, on the creation order. */
  lemma SweepStep(snapshot: seq<string>, i: nat, sweep: Sweep, names: seq<string>)
    requires NoDuplicates(snapshot) && i < |snapshot|
    requires names == Kept(snapshot[..i], sweep) + snapshot[i..]
    ensures Doomed(sweep, snapshot[i]) ==> Without(names, snapshot[i]) == Kept(snapshot[..i + 1], sweep) + snapshot[i + 1..]
    ensures !Doomed(sweep, snapshot[i]) ==> names == Kept(snapshot[..i + 1], sweep) + snapshot[i + 1..]
  {
    var name := snapshot[i];
    var k := Kept(snapshot[..i], sweep);
    assert Init(snapshot[..i + 1]) == snapshot[..i];
    assert snapshot[i..] == [name] + snapshot[i + 1..];
    if Doomed(sweep, name) {
      assert name !in k by {
        assert name !in snapshot[..i];
      }
      assert name !in snapshot[i + 1..] by {
        assert forall m :: i < m < |snapshot| ==> snapshot[m] != snapshot[i];
      }
      WithoutUnique(k, name, snapshot[i + 1..]);
      assert k + [name] + snapshot[i + 1..] == k + snapshot[i..];
    } else {
      assert k + snapshot[i..] == (k + [name]) + snapshot[i + 1..];
    }
  }

  /** Maps over the `caches.keys()` snapshot and deletes every name the sweep
      condemns. */
  method SweepCaches(cs: CacheStorage, sweep: Sweep)
    requires cs.Valid()
    modifies cs
    ensures cs.Valid()
    ensures cs.names == Kept(old(cs.names), sweep)
    ensures forall n :: n in cs.caches <==> n in old(cs.caches) && !Doomed(sweep, n)
    ensures forall n :: n in cs.caches ==> cs.caches[n] == old(cs.caches)[n]
  {
    var snapshot := cs.names;
    ghost var before := cs.caches;
    var i := 0;
    while i < |snapshot|
      invariant 0 <= i <= |snapshot|
      invariant cs.Valid()
      invariant cs.names == Kept(snapshot[..i], sweep) + snapshot[i..]
      invariant forall n :: n in cs.caches ==> n in before && cs.caches[n] == before[n]
    {
      var name := snapshot[i];
      SweepStep(snapshot, i, sweep, cs.names);
      if Doomed(sweep, name) {
        var _ := cs.Delete(name);
      }
      assert cs.names == Kept(snapshot[..i + 1], sweep) + snapshot[i + 1..];
      i := i + 1;
    }
    assert snapshot[..i] == snapshot;
  }

  /** `activate`: deletes this app's caches other than the current static and
      dynamic ones; caches of other apps stay. */
  method Activate(cs: CacheStorage)
    requires cs.Valid()
    modifies cs
    ensures cs.Valid()
    ensures forall n :: n in cs.caches <==> n in old(cs.caches) && !IsOutdatedCache(n)
    ensures forall n :: n in cs.caches ==> cs.caches[n] == old(cs.caches)[n]
    ensures cs.names == Kept(old(cs.names), OutdatedCaches)
  {
    SweepCaches(cs, OutdatedCaches);
  }

  // ---------------------------------------------------------------------------
  // fetch
  // ---------------------------------------------------------------------------

  /** What `respondWith` eventually settles to: no interception, a response
      (`None` when the promise resolves to `undefined`), or a rejection. */
  datatype FetchReply = NotIntercepted | Reply(response: Option<Response>) | Failed(message: string)

  const OfflineMessage: string := "Resource not available offline"

  /** `caches.match('/index.html')`, the navigation fallback. */
  function IndexFallback(names: seq<string>, caches: map<string, Entries>, origin: string): Option<Response>
  {
    MatchIn(names, caches, Resolve(origin, "/index.html"))
  }

  /** Cache-first: a hit is returned with no change; on a miss the live
      response is returned and stored in the static cache (whatever its
      status, unless the platform refuses the put); when the fetch fails a
      navigation gets the cached `/index.html` and anything else `undefined`. */
  ghost predicate CacheFirstServes(names0: seq<string>, caches0: map<string, Entries>,
                                   names1: seq<string>, caches1: map<string, Entries>,
                                   origin: string, req: Request, network: FetchOutcome, reply: FetchReply)
    ensures CacheFirstServes(names0, caches0, names1, caches1, origin, req, network, reply) ==>
      && reply.Reply?
      && caches0.Keys <= caches1.Keys
      && forall n :: n in caches0 && n != StaticCacheName ==> caches1[n] == caches0[n]
  {
    var hit := if req.httpMethod == "GET" then MatchIn(names0, caches0, req.url) else None;
    if hit.Some? then reply == Reply(hit) && names1 == names0 && caches1 == caches0
    else match network
      case Received(resp) =>
        && reply == Reply(Some(resp))
        && names1 == OpenedNames(names0, caches0, StaticCacheName)
        && caches1 == Stash(Opened(caches0, StaticCacheName), StaticCacheName, req, resp)
      case NetworkError =>
        && reply == Reply(if req.mode == "navigate" then IndexFallback(names0, caches0, origin) else None)
        && names1 == names0 && caches1 == caches0
  }

  /** Network-first: the live response is returned unchanged, and copied to
      the dynamic cache only when its status is 200 and the URL matches a
      dynamic pattern; when the fetch fails, a cached match, then (for a
      navigation) the cached `/index.html`, and otherwise a rejection. */
  ghost predicate NetworkFirstServes(names0: seq<string>, caches0: map<string, Entries>,
                                     names1: seq<string>, caches1: map<string, Entries>,
                                     origin: string, req: Request, network: FetchOutcome, reply: FetchReply)
    ensures NetworkFirstServes(names0, caches0, names1, caches1, origin, req, network, reply) ==>
      && caches0.Keys <= caches1.Keys
      && forall n :: n in caches0 && n != DynamicCacheName ==> caches1[n] == caches0[n]
  {
    match network
    case Received(resp) =>
      && reply == Reply(Some(resp))
      && if resp.status == 200 && ShouldCacheDynamically(req.url) then
           && names1 == OpenedNames(names0, caches0, DynamicCacheName)
           && caches1 == Stash(Opened(caches0, DynamicCacheName), DynamicCacheName, req, resp)
         else names1 == names0 && caches1 == caches0
    case NetworkError =>
      && names1 == names0 && caches1 == caches0
      && reply == (var hit := MatchIn(names0, caches0, req.url);
                   if hit.Some? then Reply(hit)
                   else if req.mode == "navigate" then Reply(IndexFallback(names0, caches0, origin))
                   else Failed(OfflineMessage))
  }

  method CacheFirstFetch(cs: CacheStorage, origin: string, req: Request, network: FetchOutcome) returns (reply: FetchReply)
    requires cs.Valid()
    modifies cs
    ensures cs.Valid()
    ensures CacheFirstServes(old(cs.names), old(cs.caches), cs.names, cs.caches, origin, req, network, reply)
  {
    var hit := cs.Match(req);
    if hit.Some? {
      return Reply(hit);
    }
    match network {
      case Received(resp) =>
        cs.Open(StaticCacheName);
        var _ := cs.Put(StaticCacheName, req, resp);
        reply := Reply(Some(resp));
      case NetworkError =>
        if req.mode == "navigate" {
          reply := Reply(MatchIn(cs.names, cs.caches, Resolve(origin, "/index.html")));
        } else {
          reply := Reply(None);
        }
    }
  }

  method NetworkFirstFetch(cs: CacheStorage, origin: string, req: Request, network: FetchOutcome) returns (reply: FetchReply)
    requires cs.Valid() && req.httpMethod == "GET"
    modifies cs
    ensures cs.Valid()
    ensures NetworkFirstServes(old(cs.names), old(cs.caches), cs.names, cs.caches, origin, req, network, reply)
  {
    match network {
      case Received(resp) =>
        if resp.status == 200 && ShouldCacheDynamically(req.url) {
          cs.Open(DynamicCacheName);
          var _ := cs.Put(DynamicCacheName, req, resp);
        }
        reply := Reply(Some(resp));
      case NetworkError =>
        var hit := cs.Match(req);
        if hit.Some? {
          reply := Reply(hit);
        } else if req.mode == "navigate" {
          reply := Reply(MatchIn(cs.names, cs.caches, Resolve(origin, "/index.html")));
        } else {
          reply := Failed(OfflineMessage);
        }
    }
  }

  /** The `fetch` handler. */
  method HandleFetch(cs: CacheStorage, origin: string, req: Request, network: FetchOutcome) returns (reply: FetchReply)
    requires cs.Valid()
    modifies cs
    ensures cs.Valid()
    ensures reply == NotIntercepted <==> RouteOf(req) == Ignore || RouteOf(req) == PassThrough
    ensures reply == NotIntercepted ==> cs.names == old(cs.names) && cs.caches == old(cs.caches)
    ensures RouteOf(req) == CacheFirst ==>
      CacheFirstServes(old(cs.names), old(cs.caches), cs.names, cs.caches, origin, req, network, reply)
    ensures RouteOf(req) == NetworkFirst ==>
      NetworkFirstServes(old(cs.names), old(cs.caches), cs.names, cs.caches, origin, req, network, reply)
  {
    match RouteOf(req) {
      case Ignore =>
        reply := NotIntercepted;
      case CacheFirst =>
        reply := CacheFirstFetch(cs, origin, req, network);
      case NetworkFirst =>
        reply := NetworkFirstFetch(cs, origin, req, network);
      case PassThrough =>
        reply := NotIntercepted;
    }
  }

  /** A cache-first GET that missed and fetched a storable response is served
      from the cache next time, whatever the network does then, and changes
      nothing. */
  lemma CacheFirstSecondVisitHits(names0: seq<string>, caches0: map<string, Entries>,
                                  names1: seq<string>, caches1: map<string, Entries>,
                                  names2: seq<string>, caches2: map<string, Entries>,
                                  origin: string, req: Request, resp: Response, network: FetchOutcome,
                                  reply1: FetchReply, reply2: FetchReply)
    requires forall n :: n in caches0 <==> n in names0
    requires req.httpMethod == "GET" && resp.status != 206
    requires MatchIn(names0, caches0, req.url).None?
    requires CacheFirstServes(names0, caches0, names1, caches1, origin, req, Received(resp), reply1)
    requires CacheFirstServes(names1, caches1, names2, caches2, origin, req, network, reply2)
    ensures reply1 == Reply(Some(resp))
    ensures reply2.Reply? && reply2.response.Some?
    ensures names2 == names1 && caches2 == caches1
  {
    assert StaticCacheName in OpenedNames(names0, caches0, StaticCacheName);
    MatchAfterStore(names1, Opened(caches0, StaticCacheName), StaticCacheName, req.url, resp);
  }

  /** Network-first rejects only for a request that is not a navigation, whose
      fetch failed and that no cache holds. */
  lemma OfflineFailureOnlyWhenUncached(names0: seq<string>, caches0: map<string, Entries>,
                                       names1: seq<string>, caches1: map<string, Entries>,
                                       origin: string, req: Request, network: FetchOutcome, reply: FetchReply)
    requires NetworkFirstServes(names0, caches0, names1, caches1, origin, req, network, reply)
    ensures reply.Failed? <==>
            network.NetworkError? && MatchIn(names0, caches0, req.url).None? && req.mode != "navigate"
    ensures reply.Failed? ==> reply.message == OfflineMessage
  {
  }

  /** A successful network-first fetch of a font or script URL with status 200
      is available from the caches afterwards. */
  lemma NetworkFirstStoresDynamic(names0: seq<string>, caches0: map<string, Entries>,
                                  names1: seq<string>, caches1: map<string, Entries>,
                                  origin: string, req: Request, resp: Response, reply: FetchReply)
    requires forall n :: n in caches0 <==> n in names0
    requires req.httpMethod == "GET" && resp.status == 200 && ShouldCacheDynamically(req.url)
    requires NetworkFirstServes(names0, caches0, names1, caches1, origin, req, Received(resp), reply)
    ensures reply == Reply(Some(resp))
    ensures MatchIn(names1, caches1, req.url).Some?
    ensures DynamicCacheName in caches1 && caches1[DynamicCacheName][req.url] == resp
  {
    assert DynamicCacheName in names1;
    MatchAfterStore(names1, Opened(caches0, DynamicCacheName), DynamicCacheName, req.url, resp);
  }

  // ---------------------------------------------------------------------------
  // message
  // ---------------------------------------------------------------------------

  datatype Message =
    | SkipWaitingMessage          // 'SKIP_WAITING'
    | GetVersion                  // 'GET_VERSION'
    | CacheUrls(urls: seq<string>) // 'CACHE_URLS'
    | ClearCache                  // 'CLEAR_CACHE'
    | OtherMessage(kind: string)  // any other `type`: ignored

  /** What is posted on `event.ports[0]`. */
  datatype MessageReply =
    | NoReply
    | Version(version: string)
    | CacheSuccess(urls: seq<string>)
    | CacheError
    | CacheCleared

  /** The `message` handler; `outcomes[i]` is the fetch of `msg.urls[i]`. */
  method HandleMessage(cs: CacheStorage, msg: Message, outcomes: seq<FetchOutcome>)
    returns (reply: MessageReply, skipWaiting: bool)
    requires cs.Valid()
    requires msg.CacheUrls? ==> |outcomes| == |msg.urls|
    modifies cs
    ensures cs.Valid()
    ensures skipWaiting <==> msg == SkipWaitingMessage
    ensures msg.SkipWaitingMessage? || msg.OtherMessage? ==>
      reply == NoReply && cs.names == old(cs.names) && cs.caches == old(cs.caches)
    ensures msg == GetVersion ==>
      reply == Version(CacheName) && cs.names == old(cs.names) && cs.caches == old(cs.caches)
    ensures msg.CacheUrls? ==>
      && cs.names == OpenedNames(old(cs.names), old(cs.caches), DynamicCacheName)
      && (reply == CacheSuccess(msg.urls) <==> AddAllSucceeds(msg.urls, outcomes))
      && (reply == CacheSuccess(msg.urls) || reply == CacheError)
      && cs.caches == Filled(Opened(old(cs.caches), DynamicCacheName), DynamicCacheName, msg.urls, outcomes)
    ensures msg == ClearCache ==>
      && reply == CacheCleared
      && cs.names == Kept(old(cs.names), AllAppCaches)
      && (forall n :: n in cs.caches <==> n in old(cs.caches) && !IsAppCache(n))
      && (forall n :: n in cs.caches ==> cs.caches[n] == old(cs.caches)[n])
  {
    skipWaiting := false;
    reply := NoReply;
    match msg {
      case SkipWaitingMessage =>
        skipWaiting := true;
      case GetVersion =>
        reply := Version(CacheName);
      case CacheUrls(urls) =>
        cs.Open(DynamicCacheName);
        var ok := cs.AddAll(DynamicCacheName, urls, outcomes);
        reply := if ok then CacheSuccess(urls) else CacheError;
      case ClearCache =>
        SweepCaches(cs, AllAppCaches);
        reply := CacheCleared;
      case OtherMessage(_) =>
    }
  }

  // ---------------------------------------------------------------------------
  // sync
  // ---------------------------------------------------------------------------

  /** An entry of the offline queue. */
  datatype PendingItem = PendingItem(id: int, payload: string)

  /** The ids of the items whose sync succeeded. */
  function SyncedIds(pending: seq<PendingItem>, synced: seq<bool>): (ids: set<int>)
    requires |synced| == |pending|
    ensures forall i :: 0 <= i < |pending| && synced[i] ==> pending[i].id in ids
    ensures forall id :: id in ids ==> exists i :: 0 <= i < |pending| && synced[i] && pending[i].id == id
  {
    if pending == [] then {}
    else
      var ids := SyncedIds(Init(pending), Init(synced));
      assert forall i :: 0 <= i < |pending| - 1 ==> Init(pending)[i] == pending[i] && Init(synced)[i] == synced[i];
      if Last(synced) then ids + {Last(pending).id} else ids
  }

  /** The queue without the items whose id is in `ids`, in order. */
  function WithoutIds(queue: seq<PendingItem>, ids: set<int>): (r: seq<PendingItem>)
    ensures forall x :: x in r <==> x in queue && x.id !in ids
  {
    if queue == [] then []
    else
      var r := WithoutIds(Init(queue), ids);
      assert forall x :: x in queue <==> x in Init(queue) || x == Last(queue);
      if Last(queue).id in ids then r else r + [Last(queue)]
  }

  lemma {:induction false} WithoutIdsTwice(queue: seq<PendingItem>, ids: set<int>, id: int)
    ensures WithoutIds(WithoutIds(queue, ids), {id}) == WithoutIds(queue, ids + {id})
  {
    if queue != [] {
      WithoutIdsTwice(Init(queue), ids, id);
      var r := WithoutIds(Init(queue), ids);
      if Last(queue).id !in ids {
        assert Init(r + [Last(queue)]) == r;
      }
    }
  }

  /** `syncOfflineData` for the `background-sync` tag: every queued item is
      attempted in order, and an item is removed from the queue (by id) only
      after its sync succeeded. Other tags leave the queue alone. */
  method SyncOfflineData(tag: string, queue: seq<PendingItem>, synced: seq<bool>) returns (remaining: seq<PendingItem>)
    requires |synced| == |queue|
    ensures tag != "background-sync" ==> remaining == queue
    ensures tag == "background-sync" ==> remaining == WithoutIds(queue, SyncedIds(queue, synced))
  {
    remaining := queue;
    if tag != "background-sync" {
      return;
    }
    WithoutIdsNone(queue);
    var i := 0;
    while i < |queue|
      invariant 0 <= i <= |queue|
      invariant remaining == WithoutIds(queue, SyncedIds(queue[..i], synced[..i]))
    {
      assert Init(queue[..i + 1]) == queue[..i] && Init(synced[..i + 1]) == synced[..i];
      if synced[i] {
        WithoutIdsTwice(queue, SyncedIds(queue[..i], synced[..i]), queue[i].id);
        remaining := WithoutIds(remaining, {queue[i].id});
      }
      i := i + 1;
    }
    assert queue[..i] == queue && synced[..i] == synced;
  }

  lemma {:induction false} WithoutIdsNone(queue: seq<PendingItem>)
    ensures WithoutIds(queue, {}) == queue
  {
    if queue != [] {
      WithoutIdsNone(Init(queue));
      assert Init(queue) + [Last(queue)] == queue;
    }
  }

  /** An item whose id is not shared with a synced item stays queued; every
      item that was synced is gone. */
  lemma SyncKeepsFailures(queue: seq<PendingItem>, synced: seq<bool>, k: nat)
    requires |synced| == |queue| && k < |queue|
    requires forall i :: 0 <= i < |queue| && synced[i] ==> queue[i].id != queue[k].id
    ensures queue[k] in WithoutIds(queue, SyncedIds(queue, synced))
    ensures forall i :: 0 <= i < |queue| && synced[i] ==> queue[i] !in WithoutIds(queue, SyncedIds(queue, synced))
  {
  }
}

=== FILE: study_plan.dfy ===
/** The values `generateStudyPlan` builds: one goal per day, cycling through the
    focus areas, three equal activities per day, and one milestone per week. */
module StudyPlans {
  import opened Common

  datatype ActivityKind = Study | Practice | Review

  /** One entry of a day's `activities`; `duration` in minutes. */
  datatype Activity = Activity(kind: ActivityKind, title: string, duration: nat, description: string)

  datatype DailyGoal = DailyGoal(day: nat, focusArea: string, activities: seq<Activity>, estimatedTime: nat)

  /** The three texts `generateWeeklyGoal` chooses between; the middle one
      carries its week number. */
  datatype WeeklyGoal = Basics | FinalReview | Annexes(week: nat)

  datatype Milestone = Milestone(week: nat, goal: WeeklyGoal, assessment: string)

  datatype StudyPlan = StudyPlan(
    totalDays: nat,
    dailyGoals: seq<DailyGoal>,
    weeklyMilestones: seq<Milestone>,
    focusAreas: seq<string>)

  /** The focus areas used when the learner has no weak topics. */
  const DefaultFocusAreas: seq<string> := ["Capítulo I", "Capítulo II", "Anexo I", "Anexo II", "Anexo III"]

  /** 30 days, or at least a week up to the target date when one is given. */
  function TotalDays(targetDate: Option<int>, nowMs: int): (n: nat)
    ensures targetDate.None? ==> n == 30
    ensures targetDate.Some? ==> n >= 7 && n >= DaysUntil(targetDate.value, nowMs)
    ensures targetDate.Some? ==> n == 7 || n == DaysUntil(targetDate.value, nowMs)
  {
    if targetDate.Some? then Max(7, DaysUntil(targetDate.value, nowMs)) else 30
  }

  /** A copy of the weak topics, or the five default areas. */
  function FocusAreas(weakTopics: seq<string>): (r: seq<string>)
    ensures |r| > 0
    ensures |weakTopics| > 0 ==> r == weakTopics
  {
    if |weakTopics| > 0 then weakTopics else DefaultFocusAreas
  }

  /** `generateDailyActivities`: study, practice and review, each taking a
      third of the day's `hoursPerDay * 60` minutes. */
  function DailyActivities(focusArea: string, hoursPerDay: nat): (r: seq<Activity>)
    ensures |r| == 3
    ensures r[0].kind == Study && r[1].kind == Practice && r[2].kind == Review
    ensures forall i :: 0 <= i < 3 ==> 3 * r[i].duration == hoursPerDay * 60
    ensures r[0].duration + r[1].duration + r[2].duration == hoursPerDay * 60
  {
    var minutes := hoursPerDay * 60 / 3;
    [Activity(Study, "Estudiar " + focusArea, minutes, "Revisar conceptos clave y artículos de " + focusArea),
     Activity(Practice, "Preguntas de práctica", minutes, "Resolver 10-15 preguntas sobre " + focusArea),
     Activity(Review, "Repaso y notas", minutes, "Revisar errores y tomar notas importantes")]
  }

  /** `generateWeeklyGoal`. */
  function WeeklyGoalFor(week: nat, totalWeeks: nat): WeeklyGoal
  {
    if week == 1 then Basics
    else if week == totalWeeks then FinalReview
    else Annexes(week)
  }

  /** The goal of day `day` (counted from 1). */
  function DailyGoalFor(day: nat, focusAreas: seq<string>, hoursPerDay: nat): DailyGoal
    requires day >= 1 && |focusAreas| > 0
  {
    var area := focusAreas[(day - 1) % |focusAreas|];
    DailyGoal(day, area, DailyActivities(area, hoursPerDay), hoursPerDay * 60)
  }

  /** A plan as `generateStudyPlan` produces it: one goal per day, numbered from
      1 and cycling through the focus areas, and `ceil(totalDays / 7)`
      milestones numbered from 1. */
  predicate WellFormedPlan(plan: StudyPlan, hoursPerDay: nat)
  {
    && |plan.focusAreas| > 0
    && |plan.dailyGoals| == plan.totalDays
    && (forall k :: 0 <= k < |plan.dailyGoals| ==>
          plan.dailyGoals[k] == DailyGoalFor(k + 1, plan.focusAreas, hoursPerDay))
    && |plan.weeklyMilestones| == CeilDiv(plan.totalDays, 7)
    && (forall k :: 0 <= k < |plan.weeklyMilestones| ==>
          plan.weeklyMilestones[k] == Milestone(k + 1, WeeklyGoalFor(k + 1, |plan.weeklyMilestones|), "quiz"))
  }

  /** In a plan of at least a week: every day's activities fill its estimated
      time, focus areas repeat with the period of their number, the first week
      is the basics, the last week (when there are two or more) is the final
      review and every week in between works on the annexes. */
  lemma PlanProperties(plan: StudyPlan, hoursPerDay: nat)
    requires WellFormedPlan(plan, hoursPerDay)
    requires plan.totalDays >= 7
    ensures |plan.weeklyMilestones| >= 1
    ensures 7 * (|plan.weeklyMilestones| - 1) < plan.totalDays <= 7 * |plan.weeklyMilestones|
    ensures forall k :: 0 <= k < |plan.dailyGoals| ==>
      var g := plan.dailyGoals[k];
      g.activities[0].duration + g.activities[1].duration + g.activities[2].duration == g.estimatedTime
    ensures forall k :: 0 <= k < |plan.dailyGoals| - |plan.focusAreas| ==>
      plan.dailyGoals[k + |plan.focusAreas|].focusArea == plan.dailyGoals[k].focusArea
    ensures plan.weeklyMilestones[0].goal == Basics
    ensures |plan.weeklyMilestones| > 1 ==> Last(plan.weeklyMilestones).goal == FinalReview
    ensures forall k :: 1 <= k < |plan.weeklyMilestones| - 1 ==> plan.weeklyMilestones[k].goal == Annexes(k + 1)
  {
    var n := |plan.focusAreas|;
    forall k | 0 <= k < |plan.dailyGoals| - n
      ensures plan.dailyGoals[k + n].focusArea == plan.dailyGoals[k].focusArea
    {
      assert (k + n) % n == k % n by {
        ModShift(k, n);
      }
    }
  }

}

=== FILE: sw_routing.dfy ===
/** The decisions of the service worker that depend on names and URLs only:
    which strategy serves a request, which network responses are copied to
    the dynamic cache, and which cache names the activation and `CLEAR_CACHE`
    sweeps delete. */
module SwRouting {
  import opened Common
  import opened CacheStore

  /** The version `GET_VERSION` reports. It is also a cache name prefixed
      `tutor-ict-`, so activation deletes a cache of that name. */
  const CacheName: string := "tutor-ict-v1.0.0"
  const StaticCacheName: string := "tutor-ict-static-v1.0.0"
  const DynamicCacheName: string := "tutor-ict-dynamic-v1.0.0"
  const AppPrefix: string := "tutor-ict-"

  /** The paths cached at installation and always served cache-first. */
  const StaticAssets: seq<string> :=
    ["/", "/index.html", "/manifest.json", "/icon-192x192.png", "/icon-512x512.png", "/apple-touch-icon.png"]

  /** The file endings `/\.(?:js|css|woff2?|ttf|eot)$/` accepts. */
  const DynamicSuffixes: seq<string> := [".js", ".css", ".woff", ".woff2", ".ttf", ".eot"]

  /** Some pattern of `DYNAMIC_CACHE_PATTERNS` matches the URL: a Google Fonts
      origin prefix or one of the file endings. */
  predicate ShouldCacheDynamically(url: string)
    ensures ShouldCacheDynamically(url) <==>
      || StartsWith(url, "https://fonts.googleapis.com")
      || StartsWith(url, "https://fonts.gstatic.com")
      || MatchesEndingPattern(url)
  {
    EndingPatternIsSuffixList(url);
    || StartsWith(url, "https://fonts.googleapis.com")
    || StartsWith(url, "https://fonts.gstatic.com")
    || exists k :: 0 <= k < |DynamicSuffixes| && EndsWith(url, DynamicSuffixes[k])
  }

  datatype Strategy =
    | Ignore        // not an http(s) URL: the browser handles it
    | CacheFirst    // a static asset or a script or style sheet
    | NetworkFirst  // any other GET
    | PassThrough   // any other method: no `respondWith`

  predicate IsStaticPath(pathname: string)
  {
    pathname in StaticAssets || EndsWith(pathname, ".js") || EndsWith(pathname, ".css")
  }

  /** The branch of the `fetch` handler that serves `req`. */
  function RouteOf(req: Request): (s: Strategy)
    ensures s == Ignore <==> !StartsWith(req.url, "http")
    ensures s == CacheFirst <==> StartsWith(req.url, "http") && IsStaticPath(req.pathname)
    ensures s == NetworkFirst <==> StartsWith(req.url, "http") && !IsStaticPath(req.pathname) && req.httpMethod == "GET"
    ensures s == PassThrough <==> StartsWith(req.url, "http") && !IsStaticPath(req.pathname) && req.httpMethod != "GET"
  {
    if !StartsWith(req.url, "http") then Ignore
    else if IsStaticPath(req.pathname) then CacheFirst
    else if req.httpMethod == "GET" then NetworkFirst
    else PassThrough
  }

  /** Every static asset fetched over http(s) is served cache-first, whatever
      the method. */
  lemma StaticAssetsAreCacheFirst(req: Request)
    requires StartsWith(req.url, "http")
    requires exists k :: 0 <= k < |StaticAssets| && req.pathname == StaticAssets[k]
    ensures RouteOf(req) == CacheFirst
  {
  }

  /** The activation sweep: a cache of this app other than the two current
      ones. */
  predicate IsOutdatedCache(name: string)
    ensures IsOutdatedCache(name) ==> IsAppCache(name)
  {
    name != StaticCacheName && name != DynamicCacheName && StartsWith(name, AppPrefix)
  }

  /** The `CLEAR_CACHE` sweep: any cache of this app. */
  predicate IsAppCache(name: string)
  {
    StartsWith(name, AppPrefix)
  }

  /** Activation keeps the two current caches and caches of other apps,
      deletes the cache named after the version, and deletes nothing that
      `CLEAR_CACHE` would keep. */
  lemma SweepsAgree(name: string)
    ensures !IsOutdatedCache(StaticCacheName) && !IsOutdatedCache(DynamicCacheName)
    ensures IsOutdatedCache(CacheName)
    ensures IsAppCache(StaticCacheName) && IsAppCache(DynamicCacheName)
    ensures IsOutdatedCache(name) <==> IsAppCache(name) && name != StaticCacheName && name != DynamicCacheName
  {
    assert CacheName[..|AppPrefix|] == AppPrefix;
    assert StaticCacheName[..|AppPrefix|] == AppPrefix;
    assert DynamicCacheName[..|AppPrefix|] == AppPrefix;
  }

  /** The alternatives of the group `(?:js|css|woff2?|ttf|eot)`, with the
      optional `2` spelt out. */
  const Extensions: seq<string> := ["js", "css", "woff", "woff2", "ttf", "eot"]

  /** The ending pattern `/\.(?:js|css|woff2?|ttf|eot)$/` read as written: a
      dot, then one alternative of the group, then the end of the URL. */
  predicate MatchesEndingPattern(url: string)
  {
    exists i, j :: 0 <= i < |url| && 0 <= j < |Extensions| && url[i] == '.' && url[i + 1..] == Extensions[j]
  }

  /** The list of endings is exactly what the pattern accepts. */
  lemma EndingPatternIsSuffixList(url: string)
    ensures MatchesEndingPattern(url) <==>
            exists k :: 0 <= k < |DynamicSuffixes| && EndsWith(url, DynamicSuffixes[k])
  {
    SuffixesAreDottedExtensions();
    DottedEndings(url, Extensions, DynamicSuffixes);
  }

  /** A URL ends with a dot and one of `exts` iff it ends with one of the
      dotted `sufs`. */
  lemma DottedEndings(url: string, exts: seq<string>, sufs: seq<string>)
    requires |sufs| == |exts|
    requires forall k :: 0 <= k < |exts| ==> sufs[k] == ['.'] + exts[k]
    ensures (exists i, j :: 0 <= i < |url| && 0 <= j < |exts| && url[i] == '.' && url[i + 1..] == exts[j]) <==>
            exists k :: 0 <= k < |sufs| && EndsWith(url, sufs[k])
  {
    if exists i, j :: 0 <= i < |url| && 0 <= j < |exts| && url[i] == '.' && url[i + 1..] == exts[j] {
      var i, j :| 0 <= i < |url| && 0 <= j < |exts| && url[i] == '.' && url[i + 1..] == exts[j];
      assert url[i..] == [url[i]] + url[i + 1..];
      assert EndsWith(url, sufs[j]);
    }
    if exists k :: 0 <= k < |sufs| && EndsWith(url, sufs[k]) {
      var k :| 0 <= k < |sufs| && EndsWith(url, sufs[k]);
      var i := |url| - |sufs[k]|;
      assert url[i..] == ['.'] + exts[k];
      assert url[i] == '.' && url[i + 1..] == url[i..][1..];
    }
  }

  /** Each listed ending is a dot followed by the matching alternative. */
  lemma SuffixesAreDottedExtensions()
    ensures |DynamicSuffixes| == |Extensions|
    ensures forall k :: 0 <= k < |Extensions| ==> DynamicSuffixes[k] == ['.'] + Extensions[k]
  {
  }

  /** Three sample URLs as the patterns classify them: a font file and an
      `.eot` file are copied to the dynamic cache, a `.json` URL is not. */
  lemma DynamicPatternExamples()
    ensures ShouldCacheDynamically("https://fonts.gstatic.com/s/inter.woff2")
    ensures ShouldCacheDynamically("https://cdn.example.org/lib.eot")
    ensures !ShouldCacheDynamically("https://example.org/data.json")
  {
    var f := "https://fonts.gstatic.com/s/inter.woff2";
    assert f[..|"https://fonts.gstatic.com"|] == "https://fonts.gstatic.com";
    var e := "https://cdn.example.org/lib.eot";
    assert EndsWith(e, DynamicSuffixes[5]) by {
      assert e[|e| - 4..] == ".eot";
    }
    var j := "https://example.org/data.json";
    assert !StartsWith(j, "https://fonts.googleapis.com") by {
      assert j[8] != "https://fonts.googleapis.com"[8];
    }
    assert !StartsWith(j, "https://fonts.gstatic.com") by {
      assert j[8] != "https://fonts.gstatic.com"[8];
    }
    assert j[|j| - 1] == 'n';
    forall k | 0 <= k < |DynamicSuffixes|
      ensures !EndsWith(j, DynamicSuffixes[k])
    {
      var s := DynamicSuffixes[k];
      assert s[|s| - 1] != 'n';
      EndingSharesLast(j, s);
    }
  }

  /** A URL ending with a non-empty suffix ends with that suffix's last character. */
  lemma EndingSharesLast(url: string, suffix: string)
    requires suffix != []
    ensures EndsWith(url, suffix) ==> url[|url| - 1] == suffix[|suffix| - 1]
  {
    if EndsWith(url, suffix) {
      assert url[|url| - |suffix|..][|suffix| - 1] == url[|url| - 1];
    }
  }
}

=== FILE: syllabus.dfy ===
/** The syllabus page: the chapters of the regulation with their articles and
    the annexes with their sections, the title search over them, per-chapter
    and overall reading progress against the set of read article ids, and the
    lookup of a selected article. */
module Syllabus {
  import opened Common
  import opened ArticleView

  datatype Section = Section(id: string, title: string)

  /** A chapter or annex. Chapters of the regulation carry `articles`, annexes
      carry `sections`; JavaScript treats an absent list as false and any
      present list, even an empty one, as true. */
  datatype Chapter = Chapter(
    id: string,
    title: string,
    articles: Option<seq<Article>>,
    sections: Option<seq<Section>>)

  /** The articles read so far, as first shown. */
  const InitialRead: set<string> := {"art1", "art2"}

  /** The regulation's chapters all have an article list (the lookup and the
      article total read `ch.articles` without a guard). */
  predicate Regulation(chapters: seq<Chapter>)
  {
    forall i :: 0 <= i < |chapters| ==> chapters[i].articles.Some?
  }

  // ---------------------------------------------------------------------------
  // Article lookup
  // ---------------------------------------------------------------------------

  predicate ArticleAt(articles: seq<Article>, i: int, id: string)
  {
    0 <= i < |articles| && articles[i].id == id
  }

  /** `articles.find(art => art.id === id)` */
  function FindArticle(articles: seq<Article>, id: string): (r: Option<Article>)
    ensures r.None? <==> forall i :: 0 <= i < |articles| ==> !ArticleAt(articles, i, id)
    ensures r.Some? ==> exists i :: ArticleAt(articles, i, id) && articles[i] == r.value
                                  && forall j :: 0 <= j < i ==> !ArticleAt(articles, j, id)
  {
    if articles == [] then None
    else if articles[0].id == id then
      assert ArticleAt(articles, 0, id);
      Some(articles[0])
    else
      var r := FindArticle(articles[1..], id);
      assert forall i :: 0 <= i < |articles[1..]| ==>
        (ArticleAt(articles[1..], i, id) <==> ArticleAt(articles, i + 1, id));
      if r.Some? then
        var i :| ArticleAt(articles[1..], i, id) && articles[1..][i] == r.value
                 && forall j :: 0 <= j < i ==> !ArticleAt(articles[1..], j, id);
        assert articles[1..][i] == articles[i + 1];
        forall j | 0 <= j < i + 1
          ensures !ArticleAt(articles, j, id)
        {
          if j > 0 {
            assert !ArticleAt(articles[1..], j - 1, id);
          }
        }
        assert ArticleAt(articles, i + 1, id);
        r
      else
        assert forall i :: 0 <= i < |articles| ==> !ArticleAt(articles, i, id) by {
          forall i | 0 <= i < |articles| ensures !ArticleAt(articles, i, id) {
            if i > 0 {
              assert !ArticleAt(articles[1..], i - 1, id);
            }
          }
        }
        r
  }

  /** The chapter holds an article with that id. */
  predicate HasArticle(ch: Chapter, id: string)
  {
    ch.articles.Some? && FindArticle(ch.articles.value, id).Some?
  }

  datatype Selection = Selection(chapter: Chapter, article: Article)

  /** What the page shows for a selected article id: the first chapter of the
      regulation holding an article with that id, and that chapter's first
      article with it. */
  function Lookup(chapters: seq<Chapter>, id: string): (r: Option<Selection>)
    requires Regulation(chapters)
    ensures r.None? <==> forall i :: 0 <= i < |chapters| ==> !HasArticle(chapters[i], id)
    ensures r.Some? ==> r.value.article.id == id && r.value.chapter.articles.Some?
                        && r.value.article in r.value.chapter.articles.value
    ensures r.Some? ==> exists k :: 0 <= k < |chapters| && chapters[k] == r.value.chapter
                                    && forall j :: 0 <= j < k ==> !HasArticle(chapters[j], id)
  {
    if chapters == [] then None
    else if HasArticle(chapters[0], id) then
      var a := FindArticle(chapters[0].articles.value, id).value;
      Some(Selection(chapters[0], a))
    else
      assert Regulation(chapters[1..]);
      var r := Lookup(chapters[1..], id);
      if r.Some? then
        var k :| 0 <= k < |chapters[1..]| && chapters[1..][k] == r.value.chapter
                 && forall j :: 0 <= j < k ==> !HasArticle(chapters[1..][j], id);
        assert chapters[k + 1] == r.value.chapter;
        assert forall j :: 0 <= j < k + 1 ==> !HasArticle(chapters[j], id) by {
          forall j | 0 <= j < k + 1 ensures !HasArticle(chapters[j], id) {
            if j > 0 {
              assert chapters[j] == chapters[1..][j - 1];
            }
          }
        }
        r
      else
        assert forall i :: 0 <= i < |chapters| ==> !HasArticle(chapters[i], id) by {
          forall i | 0 <= i < |chapters| ensures !HasArticle(chapters[i], id) {
            if i > 0 {
              assert chapters[i] == chapters[1..][i - 1];
            }
          }
        }
        r
  }

  /** The article handed to the article page. */
  function Selected(chapters: seq<Chapter>, id: string): Option<Article>
    requires Regulation(chapters)
  {
    match Lookup(chapters, id)
    case None => None
    case Some(s) => Some(s.article)
  }

  /** Opening an article from a chapter of the regulation shows an article
      with that id; an id that no chapter holds shows the not-found view. */
  lemma SelectedArticleResolves(chapters: seq<Chapter>, k: int, i: int)
    requires Regulation(chapters) && 0 <= k < |chapters| && 0 <= i < |chapters[k].articles.value|
    ensures Render(Selected(chapters, chapters[k].articles.value[i].id)).Page?
    ensures Selected(chapters, chapters[k].articles.value[i].id).value.id == chapters[k].articles.value[i].id
  {
    var id := chapters[k].articles.value[i].id;
    assert ArticleAt(chapters[k].articles.value, i, id);
    assert HasArticle(chapters[k], id);
  }

  lemma UnknownArticleNotFound(chapters: seq<Chapter>, id: string)
    requires Regulation(chapters)
    requires forall k :: 0 <= k < |chapters| ==> !HasArticle(chapters[k], id)
    ensures Render(Selected(chapters, id)) == NotFound
  {
  }

  /** Clicking an item of an expanded chapter: an article opens, a section of
      an annex does nothing. */
  function OpenItem(ch: Chapter, itemId: string, selected: Option<string>): (r: Option<string>)
    ensures ch.articles.Some? ==> r == Some(itemId)
    ensures ch.articles.None? ==> r == selected
  {
    if ch.articles.Some? then Some(itemId) else selected
  }

  // ---------------------------------------------------------------------------
  // Search
  // ---------------------------------------------------------------------------

  predicate SomeArticleTitle(articles: seq<Article>, term: string)
  {
    exists i :: 0 <= i < |articles| && ContainsIgnoringCase(articles[i].title, term)
  }

  predicate SomeSectionTitle(sections: seq<Section>, term: string)
  {
    exists i :: 0 <= i < |sections| && ContainsIgnoringCase(sections[i].title, term)
  }

  /** The chapter's title, one of its article titles or one of its section
      titles contains the term, ignoring case. */
  predicate MatchesSearch(ch: Chapter, term: string)
  {
    || ContainsIgnoringCase(ch.title, term)
    || (ch.articles.Some? && SomeArticleTitle(ch.articles.value, term))
    || (ch.sections.Some? && SomeSectionTitle(ch.sections.value, term))
  }

  /** `filteredChapters` over the chapters followed by the annexes. */
  function Search(all: seq<Chapter>, term: string): (r: seq<Chapter>)
    ensures |r| <= |all|
    ensures forall ch :: ch in r <==> ch in all && MatchesSearch(ch, term)
  {
    if all == [] then []
    else
      var r := Search(Init(all), term);
      assert forall ch :: ch in all <==> ch in Init(all) || ch == Last(all);
      if MatchesSearch(Last(all), term) then r + [Last(all)] else r
  }

  /** The empty search lists every chapter and annex, in order. */
  lemma {:induction false} EmptySearchListsAll(all: seq<Chapter>)
    ensures Search(all, "") == all
  {
    if all != [] {
      EmptySearchListsAll(Init(all));
      EmptyIsContained(Last(all).title);
      assert Init(all) + [Last(all)] == all;
    }
  }

  /** The list shown: the regulation's chapters, then the annexes, searched. */
  function Listed(chapters: seq<Chapter>, annexes: seq<Chapter>, term: string): (r: seq<Chapter>)
    ensures forall ch :: ch in r <==> (ch in chapters || ch in annexes) && MatchesSearch(ch, term)
  {
    Search(chapters + annexes, term)
  }

  // ---------------------------------------------------------------------------
  // Progress
  // ---------------------------------------------------------------------------

  /** Articles whose id is in the read set. */
  function ReadCount(articles: seq<Article>, read: set<string>): (n: nat)
    ensures n <= |articles|
  {
    if articles == [] then 0
    else ReadCount(Init(articles), read) + Indicator(Last(articles).id in read)
  }

  /** The ids of a list of articles. */
  function Ids(articles: seq<Article>): set<string>
  {
    if articles == [] then {} else Ids(Init(articles)) + {Last(articles).id}
  }

  /** An id is among the ids exactly when some article carries it. */
  lemma {:induction false} IdsMembers(articles: seq<Article>)
    ensures forall id :: id in Ids(articles) <==> exists i :: ArticleAt(articles, i, id)
  {
    if articles != [] {
      var init := Init(articles);
      IdsMembers(init);
      assert ArticleAt(articles, |articles| - 1, Last(articles).id);
      forall id | id in Ids(init)
        ensures exists i :: ArticleAt(articles, i, id)
      {
        var i :| ArticleAt(init, i, id);
        assert ArticleAt(articles, i, id);
      }
      forall id, i | ArticleAt(articles, i, id) && i < |articles| - 1
        ensures id in Ids(init)
      {
        assert ArticleAt(init, i, id);
      }
    }
  }

  /** Article ids within the list are distinct. */
  predicate DistinctIds(articles: seq<Article>)
  {
    forall i, j :: 0 <= i < j < |articles| ==> articles[i].id != articles[j].id
  }

  /** `completedItems` of a chapter with articles: with distinct ids it is the
      number of the chapter's article ids that have been read. */
  lemma {:induction false} ReadCountIsReadIds(articles: seq<Article>, read: set<string>)
    requires DistinctIds(articles)
    ensures ReadCount(articles, read) == |Ids(articles) * read|
  {
    if articles != [] {
      var init, x := Init(articles), Last(articles).id;
      assert DistinctIds(init);
      ReadCountIsReadIds(init, read);
      IdsMembers(init);
      assert forall i :: 0 <= i < |init| ==> init[i].id != articles[|articles| - 1].id;
      assert x !in Ids(init);
      if x in read {
        assert Ids(articles) * read == (Ids(init) * read) + {x};
      } else {
        assert Ids(articles) * read == Ids(init) * read;
      }
    }
  }

  /** `getChapterProgress` for a chapter with articles: the rounded share of
      read articles; `NaN` (here `None`) for an empty list. */
  function ArticleProgress(articles: seq<Article>, read: set<string>): (p: Option<nat>)
    ensures p.None? <==> articles == []
    ensures p.Some? ==> p.value <= 100
    ensures p.Some? && ReadCount(articles, read) == |articles| ==> p.value == 100
    ensures p.Some? && ReadCount(articles, read) == 0 ==> p.value == 0
  {
    if articles == [] then None
    else
      var k := ReadCount(articles, read);
      RoundPercentAtMost100(k, |articles|);
      RoundPercentEnds(|articles|);
      Some(RoundPercent(k, |articles|))
  }

  /** Every article read gives a full count: the count reaches the list
      length exactly when all of its ids are in the read set. */
  lemma {:induction false} AllReadIffFullCount(articles: seq<Article>, read: set<string>)
    ensures ReadCount(articles, read) == |articles| <==> Ids(articles) <= read
  {
    if articles != [] {
      AllReadIffFullCount(Init(articles), read);
      assert Ids(articles) == Ids(Init(articles)) + {Last(articles).id};
    }
  }

  /** `totalArticles`: the article lists' lengths summed over the chapters. */
  function TotalArticles(chapters: seq<Chapter>): (n: nat)
    requires Regulation(chapters)
    ensures n == 0 <==> forall i :: 0 <= i < |chapters| ==> chapters[i].articles.value == []
  {
    if chapters == [] then 0
    else
      assert Regulation(Init(chapters));
      TotalArticles(Init(chapters)) + |Last(chapters).articles.value|
  }

  /** Every article id of the regulation. */
  function AllIds(chapters: seq<Chapter>): (r: set<string>)
    requires Regulation(chapters)
    ensures |r| <= TotalArticles(chapters)
  {
    if chapters == [] then {}
    else
      assert Regulation(Init(chapters));
      var a := Last(chapters).articles.value;
      IdsAtMost(a);
      CardUnion(AllIds(Init(chapters)), Ids(a));
      AllIds(Init(chapters)) + Ids(a)
  }

  lemma {:induction false} IdsAtMost(articles: seq<Article>)
    ensures |Ids(articles)| <= |articles|
  {
    if articles != [] {
      IdsAtMost(Init(articles));
      assert Ids(articles) == Ids(Init(articles)) + {Last(articles).id};
    }
  }

  lemma CardUnion(a: set<string>, b: set<string>)
    ensures |a + b| <= |a| + |b|
  {
    assert |a + b| == |a| + |b| - |a * b|;
  }

  /** What `Math.round(completed / total * 100)` gives: a whole percentage,
      or `NaN` for 0/0, or `Infinity` for a positive count over no articles. */
  datatype Share = Percent(value: nat) | NotANumber | Infinite

  /** `overallProgress`: the read-set size over the article total, rounded. */
  function OverallProgress(chapters: seq<Chapter>, read: set<string>): (p: Share)
    requires Regulation(chapters)
    ensures p == NotANumber <==> TotalArticles(chapters) == 0 && |read| == 0
    ensures p == Infinite <==> TotalArticles(chapters) == 0 && |read| > 0
    ensures p.Percent? && read <= AllIds(chapters) ==> p.value <= 100
  {
    var total := TotalArticles(chapters);
    if total == 0 then (if |read| == 0 then NotANumber else Infinite)
    else
      ReadWithinTotal(chapters, read);
      Percent(RoundPercent(|read|, total))
  }

  /** The page's two mock read articles over a regulation without articles
      show `Infinity`, not `NaN`. */
  lemma MockReadOverNoArticles()
    ensures OverallProgress([], InitialRead) == Infinite
  {
    assert "art1" in InitialRead;
  }

  /** A read set drawn from the regulation's ids is no larger than the article
      total, so its rounded share is at most 100. */
  lemma ReadWithinTotal(chapters: seq<Chapter>, read: set<string>)
    requires Regulation(chapters) && TotalArticles(chapters) > 0
    ensures read <= AllIds(chapters) ==> RoundPercent(|read|, TotalArticles(chapters)) <= 100
  {
    if read <= AllIds(chapters) {
      var b := AllIds(chapters);
      assert b == read + (b - read);
      RoundPercentAtMost100(|read|, TotalArticles(chapters));
    }
  }
}

=== FILE: time_format.dfy ===
/** The countdown texts of the two quiz pages: decimal numerals,
    `toString().padStart(2, '0')`, the `h:mm:ss` / `m:ss` clock of the mock
    exam and the `m:ss` clock of the practice quiz. Each text reads back as the
    number of seconds it was made from. */
module TimeFormat {
  import opened Common

  predicate IsDigit(c: char)
  {
    '0' <= c <= '9'
  }

  function DigitChar(d: nat): (c: char)
    requires d < 10
    ensures IsDigit(c)
  {
    ('0' as int + d) as char
  }

  function DigitValue(c: char): int
  {
    c as int - '0' as int
  }

  /** `n.toString()` */
  function Decimal(n: nat): (r: string)
    ensures |r| >= 1
    ensures forall i :: 0 <= i < |r| ==> IsDigit(r[i])
  {
    if n < 10 then [DigitChar(n)] else Decimal(n / 10) + [DigitChar(n % 10)]
  }

  /** The value of a numeral (`parseInt` on digits). */
  function ParseDecimal(s: string): int
  {
    if s == [] then 0 else 10 * ParseDecimal(Init(s)) + DigitValue(Last(s))
  }

  /** Reading a numeral back gives the number. */
  lemma {:induction false} DecimalRoundTrip(n: nat)
    ensures ParseDecimal(Decimal(n)) == n
  {
    if n >= 10 {
      DecimalRoundTrip(n / 10);
      assert Init(Decimal(n)) == Decimal(n / 10);
    }
  }

  /** `n.toString().padStart(2, '0')` for `n < 100`. */
  function Pad2(n: nat): (r: string)
    requires n < 100
    ensures |r| == 2 && IsDigit(r[0]) && IsDigit(r[1])
    ensures ParseDecimal(r) == n
  {
    var r := if n < 10 then "0" + Decimal(n) else Decimal(n);
    assert r == [DigitChar(n / 10), DigitChar(n % 10)] by {
      if n < 10 {
        assert DigitChar(0) == '0';
      } else {
        assert Decimal(n / 10) == [DigitChar(n / 10)];
      }
    }
    assert Init(r) == [r[0]] && Last(r) == r[1];
    assert Init([r[0]]) == [] && Last([r[0]]) == r[0];
    assert ParseDecimal([r[0]]) == n / 10;
    r
  }

  /** Hours, minutes and seconds of a duration. */
  function ClockParts(seconds: nat): (p: (nat, nat, nat))
    ensures p.0 * 3600 + p.1 * 60 + p.2 == seconds
    ensures p.1 < 60 && p.2 < 60
  {
    (seconds / 3600, (seconds % 3600) / 60, seconds % 60)
  }

  /** The mock exam's `formatTime`: `h:mm:ss` from one hour on, `m:ss` below. */
  function FormatClock(seconds: nat): (t: string)
    ensures |t| >= 4 && t[|t| - 3] == ':' && t[|t| - 2..] == Pad2(seconds % 60)
    ensures forall i :: 0 <= i < |t| ==> IsDigit(t[i]) || t[i] == ':'
  {
    var p := ClockParts(seconds);
    if p.0 > 0 then Decimal(p.0) + ":" + Pad2(p.1) + ":" + Pad2(p.2)
    else Decimal(p.1) + ":" + Pad2(p.2)
  }

  /** The practice quiz's `formatTime`: whole minutes, then two-digit seconds. */
  function FormatMinSec(seconds: nat): (t: string)
    ensures |t| >= 4 && t[|t| - 3] == ':' && t[|t| - 2..] == Pad2(seconds % 60)
    ensures forall i :: 0 <= i < |t| - 3 ==> IsDigit(t[i])
  {
    Decimal(seconds / 60) + ":" + Pad2(seconds % 60)
  }

  /** Reads `h:mm:ss` or `m:ss` back as seconds. */
  function ParseClock(t: string): int
  {
    if |t| >= 6 && t[|t| - 6] == ':' then
      ParseDecimal(t[..|t| - 6]) * 3600 + ParseDecimal(t[|t| - 5..|t| - 3]) * 60 + ParseDecimal(t[|t| - 2..])
    else if |t| >= 3 then
      ParseDecimal(t[..|t| - 3]) * 60 + ParseDecimal(t[|t| - 2..])
    else 0
  }

  /** Minutes followed by two-digit seconds read back as their total. */
  lemma MinSecReadsBack(m: nat, s: nat)
    requires s < 60
    ensures ParseClock(Decimal(m) + ":" + Pad2(s)) == m * 60 + s
  {
    var d, t := Decimal(m), Decimal(m) + ":" + Pad2(s);
    assert |t| == |d| + 3;
    assert t[..|t| - 3] == d;
    assert t[|t| - 2..] == Pad2(s);
    if |t| >= 6 {
      assert t[|t| - 6] == d[|d| - 3];
    }
    DecimalRoundTrip(m);
  }

  /** The mock exam's clock text reads back as the seconds it shows. */
  lemma ClockRoundTrip(seconds: nat)
    ensures ParseClock(FormatClock(seconds)) == seconds
  {
    var p := ClockParts(seconds);
    if p.0 > 0 {
      var d, t := Decimal(p.0), FormatClock(seconds);
      assert t == d + ":" + Pad2(p.1) + ":" + Pad2(p.2);
      assert t[|t| - 6] == ':';
      assert t[..|t| - 6] == d;
      assert t[|t| - 5..|t| - 3] == Pad2(p.1);
      assert t[|t| - 2..] == Pad2(p.2);
      DecimalRoundTrip(p.0);
    } else {
      MinSecReadsBack(p.1, p.2);
    }
  }

  /** The practice quiz's clock text reads back as the seconds it shows, and
      under an hour both pages show the same text. */
  lemma MinSecRoundTrip(seconds: nat)
    ensures ParseClock(FormatMinSec(seconds)) == seconds
    ensures seconds < 3600 ==> FormatClock(seconds) == FormatMinSec(seconds)
  {
    MinSecReadsBack(seconds / 60, seconds % 60);
    if seconds < 3600 {
      assert seconds / 3600 == 0 && seconds % 3600 == seconds;
      assert ClockParts(seconds) == (0, seconds / 60, seconds % 60);
    }
  }
}
